=== FILE: README.md ===
# VAI voice-command pipeline in Dafny

VAI is a Unity voice assistant. A keyword spotter (`SherpaOnnxKeywords`) listens for a
wake word and buffers microphone samples. A streaming recogniser (`AsrController`, talking
to DashScope's real-time speech-recognition service over a WebSocket) turns speech into
sentences. A local keyword matcher (`NluController`) then tries to turn each sentence into
complete function calls, backed by a keyword trie built from a JSON function catalogue.
When it cannot, the sentence goes to a language model (`LlmController`) that answers with
tool calls. Those calls run through a `FunctionRegistry` of named handlers.

Two managers drive the pipeline as state machines:
- `VAIManager`, the runtime package's manager;
- `AliyunVoiceAssistManager`, the earlier prototype, with its own recogniser
  `AliyunAsrController` and language-model client `apiFuncCalling`.

Around this core sit:
- the model-file lookup of the bundled sherpa-onnx package (`SherpaMetadataExtensions`);
- its GitHub proxy setting (`SherpaOnnxUnityAPI`);
- the Python script that labels training sentences for the JointBERT intent model
  (`data_processor.py`).

This project models each of these components.
- Where the source is pure logic, the model is a Dafny function.
- Where the source updates an object step by step, the model is a class whose methods
  change its fields. Their `ensures` clauses tie the new state to specification
  functions of the old state.
- Lemmas state what the components promise: round trips, invariants the handlers keep,
  orderings and exact contents.

Modules, one per component:
- Wrappers: `Option` and `Result`.
- Text: the .NET and Python string operations the source relies on.
- Dictionaries: a C# `Dictionary` as an insertion-ordered map.
- Registry: both `FunctionRegistry` revisions and the two seeded handlers.
- SampleBuffer: the sample queue of `SherpaOnnxKeywords`.
- KeywordTrie: the trie of `NluUtils`.
- Nlu: `NluController`.
- AsrCommon: the polling wait, the clip arithmetic, word reconstruction and PCM packing
  shared by the recognisers.
- AsrRuntime: the runtime `AsrController`.
- AsrLegacy: the earlier `AsrController`.
- AliyunAsr: `AliyunAsrController`.
- ToolCalls: `LlmController` and `apiFuncCalling`.
- VaiManager: `VAIManager`.
- AliyunManager: `AliyunVoiceAssistManager`.
- ModelFiles: `SherpaMetadataExtensions`.
- GithubProxy: the proxy setting.
- DataProcessor: `data_processor.py`.

Inputs from outside are parameters of the methods and functions:
- time, as integer ticks;
- microphone positions and samples;
- socket events, as the tick at which they happen;
- the reply of the language-model service;
- the Jieba tokeniser, as a function from text to tokens;
- `float.TryParse`, as a function from a token to an optional number.

## Model

| member | source | states |
|---|---|---|
| Text.TrimProperties | Assets/VAI/Runtime/Scripts/com.eitan.sherpa-onnx-unity/Runtime/API/SherpaOnnxUnityAPI.cs:23-24 | a trimmed string neither starts nor ends with whitespace, occurs inside the input, and is empty exactly when the input is blank |
| Text.TrimIdempotent | Assets/VAI/Runtime/Scripts/com.eitan.sherpa-onnx-unity/Runtime/API/SherpaOnnxUnityAPI.cs:23 | trimming twice equals trimming once |
| Text.TrimOfTrimmed | Assets/VAI/Runtime/Scripts/com.eitan.sherpa-onnx-unity/Runtime/API/SherpaOnnxUnityAPI.cs:23 | a string with no whitespace at either end is its own trim |
| Text.TrimKeepsPrefix | Assets/VAI/Scripts/Modules/AsrController.cs:418-430 | trimming keeps a prefix that has no whitespace at its ends, and yields a prefix of the left-trimmed input |
| Text.IndexOf | Assets/VAI/Runtime/Scripts/jointbert/src/data_processor.py:77-78 | the first position where the substring occurs; None exactly when it does not occur |
| Text.ToLower | Assets/VAI/Runtime/Scripts/com.eitan.sherpa-onnx-unity/Runtime/Core/Extensions/SherpaMetadataExtensions.cs:47 | lower-casing keeps the length and lowers each character |
| Dictionaries.Dict.Put | Assets/VAI/Runtime/Scripts/Modules/FunctionRegistry.cs:34 | the key now maps to the value; every other key keeps its entry; the count grows by one exactly for a new key; existing keys keep their enumeration order |
| Dictionaries.Dict.Values | Assets/VAI/Runtime/Scripts/Modules/FunctionRegistry.cs:45 | one value per key, in key enumeration order |
| Dictionaries.Empty | Assets/VAI/Runtime/Scripts/Modules/FunctionRegistry.cs:27-30 | the empty dictionary has no entries |
| Registry.Catalog | Assets/VAI/Runtime/Scripts/Modules/FunctionRegistry.cs:32-36 | registering a sequence of metadata in order yields a well-formed dictionary |
| Registry.LastIndexOf | Assets/VAI/Runtime/Scripts/Modules/FunctionRegistry.cs:32-36 | the last registration of a name, or None when the name was never registered |
| Registry.CatalogLastWriterWins | Assets/VAI/Runtime/Scripts/Modules/FunctionRegistry.cs:32-43 | after any registrations, a name maps to the last metadata registered under it, and an unregistered name maps to nothing |
| Registry.CatalogCount | Assets/VAI/Runtime/Scripts/Modules/FunctionRegistry.cs:24-45 | the catalog holds exactly one entry per distinct registered name |
| Registry.FunctionRegistry.constructor | Assets/VAI/Runtime/Scripts/Modules/FunctionRegistry.cs:27-30 | the instance registry starts empty |
| Registry.FunctionRegistry.Seeded | Assets/VAI/Scripts/Modules/FunctionRegistry.cs:26-66 | the static registry holds ModifyTransform then ChangeObjectColor |
| Registry.FunctionRegistry.Register | Assets/VAI/Runtime/Scripts/Modules/FunctionRegistry.cs:32-36 | the registry becomes the catalog of the registrations so far plus this one (last writer wins) |
| Registry.FunctionRegistry.Get | Assets/VAI/Runtime/Scripts/Modules/FunctionRegistry.cs:38-43 | the metadata last registered under the name; otherwise the failure "Unregistered function: <name>"; nothing changes |
| Registry.FunctionRegistry.All | Assets/VAI/Runtime/Scripts/Modules/FunctionRegistry.cs:45 | every registered metadata, once each, in name-registration order |
| Registry.ModifyTransformHandler | Assets/VAI/Scripts/Modules/FunctionRegistry.cs:38-45 | the arguments are read in source order: a missing one fails with the dictionary's KeyNotFound message and a null name with NullReferenceException, before the scene is touched; a number that does not convert fails; success exactly when all three are read, the number converts and a FuncCallingList exists, and then the scene's result |
| Registry.ChangeObjectColorHandler | Assets/VAI/Scripts/Modules/FunctionRegistry.cs:57-63 | both arguments are read in order before the scene is called; a missing one fails with the KeyNotFound message and a null one with NullReferenceException; success exactly when both are present and non-null and a FuncCallingList exists |
| Registry.SeededCatalogContents | Assets/VAI/Scripts/Modules/FunctionRegistry.cs:26-66 | after static initialisation, the catalog lists exactly ModifyTransform and ChangeObjectColor, in that order, with parameters (objectName, transformType, number) and (objectName, hexColor) |
| Registry.CatalogOfTwo | Assets/VAI/Scripts/Modules/FunctionRegistry.cs:28-64 | registering two distinct names gives both, in order |
| Registry.ParameterKeys | Assets/VAI/Scripts/Modules/FunctionRegistry.cs:32-37 | both parameter dictionaries are well formed: their keys are distinct and are exactly the keys of their maps, listed in initialiser order |
| SampleBuffer.LastN | Assets/VAI/Runtime/Scripts/Modules/SherpaOnnxKeywords.cs:177-185 | the last min(\|s\|, n) elements of s, as a suffix |
| SampleBuffer.LastNSnoc | Assets/VAI/Runtime/Scripts/Modules/SherpaOnnxKeywords.cs:177-185 | appending one sample to a window of the last n drops the oldest sample once the window is full |
| SampleBuffer.LastNOfLastN | Assets/VAI/Runtime/Scripts/Modules/SherpaOnnxKeywords.cs:48-63 | the last k of the last n samples are the last min(k, n) samples |
| SampleBuffer.PcmDataSince | Assets/VAI/Runtime/Scripts/Modules/SherpaOnnxKeywords.cs:71-95 | nothing when no sample was counted after the index; otherwise the queued samples counted after it (a suffix of the queue); the new index is the total count |
| SampleBuffer.SecondReadIsEmpty | Assets/VAI/Runtime/Scripts/Modules/SherpaOnnxKeywords.cs:71-95 | reading again from the returned index, with nothing written in between, yields nothing and the same index |
| SampleBuffer.SherpaOnnxKeywords.constructor | Assets/VAI/Runtime/Scripts/Modules/SherpaOnnxKeywords.cs:32-41 | an empty queue, a zero count and position zero |
| SampleBuffer.SherpaOnnxKeywords.OnFrameCollected | Assets/VAI/Runtime/Scripts/Modules/SherpaOnnxKeywords.cs:165-186 | without a clip nothing changes; otherwise the queue is the last 160000 samples of everything written, the count grows by the frame length, and the clip position advances modulo the clip length |
| SampleBuffer.SherpaOnnxKeywords.Enqueue | Assets/VAI/Runtime/Scripts/Modules/SherpaOnnxKeywords.cs:177-185 | one sample is appended to what was written and the queue stays the last Capacity samples; clip and position are untouched |
| SampleBuffer.PushKeepsWindow | Assets/VAI/Runtime/Scripts/Modules/SherpaOnnxKeywords.cs:177-185 | one more sample keeps the queue equal to the last Capacity samples written, dropping the oldest when full |
| SampleBuffer.SherpaOnnxKeywords.GetPcmDataSince | Assets/VAI/Runtime/Scripts/Modules/SherpaOnnxKeywords.cs:71-95 | returns PcmDataSince of the current queue and count, and changes nothing |
| SampleBuffer.SherpaOnnxKeywords.GetLatestPcmData | Assets/VAI/Runtime/Scripts/Modules/SherpaOnnxKeywords.cs:48-63 | a negative size fails; otherwise the last min(requested, queue length) samples; changes nothing |
| SampleBuffer.CopyFrom | Assets/VAI/Runtime/Scripts/Modules/SherpaOnnxKeywords.cs:84-92 | walking the whole queue and keeping positions from startIdx on yields exactly the queue from startIdx |
| SampleBuffer.SherpaOnnxKeywords.ClearAudioBuffer | Assets/VAI/Runtime/Scripts/Modules/SherpaOnnxKeywords.cs:102-107 | empties the queue and resets the count and the clip position |
| KeywordTrie.LookupEmpty | Assets/VAI/Runtime/Scripts/Modules/NluController.cs:100 | no path of a new trie holds a record |
| KeywordTrie.LookupInsertAt | Assets/VAI/Runtime/Scripts/Modules/NluController.cs:102-114 | inserting appends the record at the end of its key's path and changes no other path |
| KeywordTrie.WithKeyword | Assets/VAI/Runtime/Scripts/Modules/NluController.cs:116-127 | the records whose keyword is s, in order, and no other |
| KeywordTrie.LookupInsertAll | Assets/VAI/Runtime/Scripts/Modules/NluController.cs:102-127 | after inserting records, the path of s holds exactly the records inserted with keyword s, in insertion order; a proper prefix of a keyword finds nothing of that keyword |
| KeywordTrie.Trie.constructor | Assets/VAI/Runtime/Scripts/Modules/NluController.cs:100 | a new trie holds no records |
| KeywordTrie.Trie.Insert | Assets/VAI/Runtime/Scripts/Modules/NluController.cs:102-114 | the trie's records become the old records plus this one |
| KeywordTrie.Trie.Search | Assets/VAI/Runtime/Scripts/Modules/NluController.cs:116-127 | the records inserted with keyword exactly the phrase, in insertion order; changes nothing |
| Nlu.FirstDef | Assets/VAI/Runtime/Scripts/Modules/NluController.cs:288 | the first definition with the name |
| Nlu.KeywordInfos | Assets/VAI/Runtime/Scripts/Modules/NluController.cs:188-212 | every inserted record names a defined function, and every synonym record carries a null value |
| Nlu.SynonymsInserted | Assets/VAI/Runtime/Scripts/Modules/NluController.cs:190-197 | every name synonym is inserted with its function's name, no parameter and a null value |
| Nlu.EnumKeywordsInserted | Assets/VAI/Runtime/Scripts/Modules/NluController.cs:198-211 | every keyword of every enum value is inserted with its function, its parameter and the enum value |
| Nlu.AddNewProperties | Assets/VAI/Runtime/Scripts/Modules/NluController.cs:244-256 | adding new names keeps the existing ones as a prefix, adds only names from the input, leaves every input name present and adds none twice |
| Nlu.DistinctProperties | Assets/VAI/Runtime/Scripts/Modules/NluController.cs:244 | Distinct has no duplicates and the same elements as its input |
| Nlu.AddNewDistinct | Assets/VAI/Runtime/Scripts/Modules/NluController.cs:244-256 | deduplicating a token's names first does not change which candidates are added |
| Nlu.Pass1Names | Assets/VAI/Runtime/Scripts/Modules/NluController.cs:238-257 | pass 1 gives one candidate per distinct function named by a synonym among the tokens, in order of first mention, without duplicates |
| Nlu.Pass1HasDefs | Assets/VAI/Runtime/Scripts/Modules/NluController.cs:238-257 | every candidate names a defined function, so looking up its definition never fails |
| Nlu.FirstIndexNamed | Assets/VAI/Runtime/Scripts/Modules/NluController.cs:273 | the first candidate with the name, or None when there is none |
| Nlu.EnumFillProvenance | Assets/VAI/Runtime/Scripts/Modules/NluController.cs:269-280 | an enum keyword fills a parameter only on the first candidate of its own function, only when that parameter is empty, and with the keyword's enum value; earlier arguments are kept |
| Nlu.FreeNumberParam | Assets/VAI/Runtime/Scripts/Modules/NluController.cs:290-292 | the first parameter of type Number (ASCII case-insensitive) that has no argument yet |
| Nlu.NumberFillChangesOne | Assets/VAI/Runtime/Scripts/Modules/NluController.cs:283-302 | a number fills at most one parameter: the first free Number parameter of the first candidate that has one; every other argument is unchanged |
| Nlu.SelectIsFirstComplete | Assets/VAI/Runtime/Scripts/Modules/NluController.cs:306-330 | the stored commands are exactly the first limit complete candidates, in order, each with confidence 1.0 |
| Nlu.SelectSaturated | Assets/VAI/Runtime/Scripts/Modules/NluController.cs:309-313 | once limit commands are stored, later candidates change nothing |
| Nlu.MatchCommands | Assets/VAI/Runtime/Scripts/Modules/NluController.cs:234-330 | None exactly when no token names a function (the store is untouched); otherwise the commands to store |
| Nlu.MatchedCommandsAreComplete | Assets/VAI/Runtime/Scripts/Modules/NluController.cs:305-330 | each stored command names a defined function, has an argument count at least its parameter count, has confidence 1.0, and at most limit are stored |
| Nlu.ReportAppend | Assets/VAI/Runtime/Scripts/Modules/NluController.cs:356-371 | for any per-command line, the report of a + b is the report of a followed by that of b |
| Nlu.ExecutionReportAppend | Assets/VAI/Runtime/Scripts/Modules/NluController.cs:356-371 | a failing command does not stop later ones: the report of a + b is the report of a followed by that of b |
| Nlu.FindCandidates | Assets/VAI/Runtime/Scripts/Modules/NluController.cs:238-257 | the loop computes Pass1 of the tokens |
| Nlu.FillArguments | Assets/VAI/Runtime/Scripts/Modules/NluController.cs:266-303 | the loops compute Pass2: enum matches, then the token as a number |
| Nlu.SelectComplete | Assets/VAI/Runtime/Scripts/Modules/NluController.cs:306-330 | the loop computes Select, the first limit complete candidates |
| Nlu.BuildTrie | Assets/VAI/Runtime/Scripts/Modules/NluController.cs:186-212 | a fresh trie holding exactly KeywordInfos of the definitions |
| Nlu.RunCommands | Assets/VAI/Runtime/Scripts/Modules/NluController.cs:356-371 | the loop computes the ExecutionReport of the commands against the registry's catalog |
| Nlu.NluController.constructor | Assets/VAI/Runtime/Scripts/Modules/NluController.cs:158-179 | not ready, no commands stored, limit 2 |
| Nlu.NluController.BuildTrieFromRegistry | Assets/VAI/Runtime/Scripts/Modules/NluController.cs:181-219 | an unparsable catalogue changes nothing; otherwise the definitions are replaced and the trie holds exactly their keyword records |
| Nlu.NluController.ProcessAsrResult | Assets/VAI/Runtime/Scripts/Modules/NluController.cs:225-331 | does nothing unless ready and given text; otherwise, if any function is named, the store becomes MatchCommands' commands |
| Nlu.NluController.ExecuteStoredCommands | Assets/VAI/Runtime/Scripts/Modules/NluController.cs:347-375 | "没有指令被执行。" when nothing is stored; otherwise the execution report of the stored commands, and the store is emptied |
| Nlu.NluController.ClearStoredCommands | Assets/VAI/Runtime/Scripts/Modules/NluController.cs:377-380 | empties the store and nothing else |
| AsrCommon.WaitAfterCancelReturnsAtOnce | Assets/VAI/Runtime/Scripts/Modules/AsrController.cs:625-639 | a wait entered after cancellation succeeds only if the condition already holds, and is otherwise cancelled at its first delay |
| AsrCommon.WaitSeesCondition | Assets/VAI/Runtime/Scripts/Modules/AsrController.cs:625-639 | without cancellation, a condition that becomes true within the timeout is seen at the first tick at which it holds |
| AsrCommon.WaitForCondition | Assets/VAI/Runtime/Scripts/Modules/AsrController.cs:625-639 | the polling loop yields Wait: success at the first tick the condition holds, a timeout after the allowed delays, or cancellation |
| AsrCommon.BufferLengthWraps | Assets/VAI/Scripts/Modules/AsrController.cs:313-318 | for distinct positions inside the clip, the length lies in 1..clip-1, and advancing the last position by it around the clip reaches the current position |
| AsrCommon.PollStep | Assets/VAI/Scripts/Modules/AsrController.cs:287-311 | a poll sends exactly the stretch from the last position, and moves the last position to the current one, when enough new samples lie between them |
| AsrCommon.PollAllChained | Assets/VAI/Scripts/AliyunAsrController.cs:262-285 | while the positions stay in the clip, the sent ranges are chained from the first position to the last: no audio is skipped or repeated |
| AsrCommon.WordsTextAppend | Assets/VAI/Scripts/AliyunAsrController.cs:364-373 | the text of a + b is the text of a followed by the text of b |
| AsrCommon.WordsTextLength | Assets/VAI/Scripts/AliyunAsrController.cs:364-373 | the text's length is the sum of the parts' lengths |
| AsrCommon.Unsigned | Assets/VAI/Runtime/Scripts/Modules/AsrController.cs:663-676 | the 16-bit pattern of a sample, in 0..65535 |
| AsrCommon.BytesRoundTrip | Assets/VAI/Runtime/Scripts/Modules/AsrController.cs:663-676 | the two little-endian bytes of a 16-bit sample decode back to the sample |
| AsrCommon.ConvertSamplesToPcmBytes | Assets/VAI/Runtime/Scripts/Modules/AsrController.cs:663-676 | two bytes per sample, low byte first, and each pair decodes to the quantised sample |
| AsrRuntime.ChunkCountSpec | Assets/VAI/Runtime/Scripts/Modules/AsrController.cs:451-454 | chunk i exists exactly when it starts inside the data |
| AsrRuntime.ChunkAt | Assets/VAI/Runtime/Scripts/Modules/AsrController.cs:454-456 | the i-th chunk: at most 1024 samples starting at i * 1024 |
| AsrRuntime.ChunksPrefix | Assets/VAI/Runtime/Scripts/Modules/AsrController.cs:451-501 | the first k chunks hold exactly the first min(k * 1024, \|data\|) samples, in order |
| AsrRuntime.ChunksCoverData | Assets/VAI/Runtime/Scripts/Modules/AsrController.cs:451-501 | all the chunks together are the fetched data |
| AsrRuntime.FirstReaching | Assets/VAI/Runtime/Scripts/Modules/AsrController.cs:478-492 | the first chunk after which the silence counter reaches the limit; None when no chunk does |
| AsrRuntime.FirstReachingSkips | Assets/VAI/Runtime/Scripts/Modules/AsrController.cs:478-492 | searching from a point before which no chunk reaches the limit finds the same chunk |
| AsrRuntime.IsSilentChunk | Assets/VAI/Runtime/Scripts/Modules/AsrController.cs:469-477 | true exactly when every sample's magnitude is within the threshold |
| AsrRuntime.SendChunks | Assets/VAI/Runtime/Scripts/Modules/AsrController.cs:449-503 | sends the chunks before the one at which silence times out (all of them otherwise); the returned counter has counted every chunk examined, the timing-out one included, and the elapsed samples are those of the sent chunks |
| AsrRuntime.CutChunk | Assets/VAI/Runtime/Scripts/Modules/AsrController.cs:451-456 | the samples copied at the current offset are exactly the next chunk of the data, and the offset moves to that chunk's end |
| AsrRuntime.CountSilence | Assets/VAI/Runtime/Scripts/Modules/AsrController.cs:468-485 | the silence counter grows by the chunk's length when every sample is quiet and is reset to zero otherwise |
| AsrRuntime.SilenceThroughStep | Assets/VAI/Runtime/Scripts/Modules/AsrController.cs:478-485 | the counter after a chunk is the counter before it, updated by that chunk alone |
| AsrRuntime.ReachedAt | Assets/VAI/Runtime/Scripts/Modules/AsrController.cs:486-492 | when no earlier chunk brought the counter to the limit, the chunk that does is the first such chunk, where the loop stops |
| AsrRuntime.AsrController.constructor | Assets/VAI/Runtime/Scripts/Modules/AsrController.cs:202-206 | idle, no socket, no pipeline |
| AsrRuntime.AsrController.StartRecognition | Assets/VAI/Runtime/Scripts/Modules/AsrController.cs:217-231 | ignored while a pipeline runs; otherwise both indices start at the spotter's current sample index and a new pipeline starts |
| AsrRuntime.AsrController.StopRecognition | Assets/VAI/Runtime/Scripts/Modules/AsrController.cs:233-239 | cancels the running pipeline, if any, and clears the spotter's queue |
| AsrRuntime.AsrController.ValidateAndInitialize | Assets/VAI/Runtime/Scripts/Modules/AsrController.cs:291-316 | resets the flags and the transcript, then fails when the API key is missing or the microphone is inactive |
| AsrRuntime.AsrController.EstablishWebSocketConnection | Assets/VAI/Runtime/Scripts/Modules/AsrController.cs:318-347 | succeeds exactly when the socket opens within 10 s; otherwise a timeout or a cancellation |
| AsrRuntime.AsrController.StartAsrTask | Assets/VAI/Runtime/Scripts/Modules/AsrController.cs:368-415 | sends run-task; succeeds exactly when task-started arrives within 10 s |
| AsrRuntime.AsrController.FinishAsrTask | Assets/VAI/Runtime/Scripts/Modules/AsrController.cs:518-541 | sends finish-task; the outcome of the wait for task-finished |
| AsrRuntime.AsrController.StreamAudioData | Assets/VAI/Runtime/Scripts/Modules/AsrController.cs:418-512 | always ends with the token cancelled: success only when the recording-time limit raised its event last, otherwise a cancellation, which comes only once nothing queued is left unsent; earlier events and earlier audio are kept, audio is added only while the socket is open and in chunks of 1 to 1024 samples, and the last-sent index never moves back |
| AsrRuntime.AsrController.PrepareRound | Assets/VAI/Runtime/Scripts/Modules/AsrController.cs:233-239 | a stop from outside requests cancellation and clears the spotter's queue before the microphone frame is appended; without a frame no new audio becomes pending; the events, the sent audio and the last-sent index are untouched |
| AsrRuntime.AsrController.SendRound | Assets/VAI/Runtime/Scripts/Modules/AsrController.cs:442-508 | with nothing fetched: the counter and the spotter are unchanged, and the round is the 50 ms wait or ends cancelled once cancellation was requested; with audio fetched: the chunks before a silence timeout are sent while the socket is open, the timeout raises its event, the counter is carried through every examined chunk and the last-sent index becomes the fetched total; either way nothing is left pending and the last-sent index never moves back |
| AsrRuntime.AsrController.SendPending | Assets/VAI/Runtime/Scripts/Modules/AsrController.cs:449-503 | sends the chunks SendChunks sends while the socket is open; raises the silence event and stops recognition (clearing the spotter's queue) exactly when silence times out, otherwise leaves cancellation and the spotter alone; the last-sent index becomes the fetched total even after a timeout, and the silence counter is returned |
| AsrRuntime.AsrController.HandleRecognitionResult | Assets/VAI/Runtime/Scripts/Modules/AsrController.cs:586-619 | a sentence with text is raised; one with an end time or a sentence end also stops recognition (cancellation requested, spotter's queue cleared); otherwise the spotter is untouched |
| AsrRuntime.AsrController.HandleWebSocketMessage | Assets/VAI/Runtime/Scripts/Modules/AsrController.cs:547-584 | task-started and task-finished set their flags, task-failed reports and finishes; result-generated and task-finished raise a sentence with text and stop recognition on an ending one; every other event leaves cancellation and the spotter alone; invalid JSON changes nothing |
| AsrRuntime.AsrController.HandleResultEvent | Assets/VAI/Runtime/Scripts/Modules/AsrController.cs:565-573 | only task-finished marks the recognition task finished; for both events a sentence with text is raised and an ending one stops recognition (cancellation requested, spotter's queue cleared); the socket, the sent audio and the transcript are left alone |
| AsrRuntime.AsrController.HandleSocketError | Assets/VAI/Runtime/Scripts/Modules/AsrController.cs:351-366 | reports a network failure and marks the recognition task finished |
| AsrRuntime.AsrController.CleanupWebSocket | Assets/VAI/Runtime/Scripts/Modules/AsrController.cs:641-651 | closes an open socket and forgets it |
| AsrRuntime.AsrController.ExecuteRecognitionPipeline | Assets/VAI/Runtime/Scripts/Modules/AsrController.cs:272-289 | steps run in order and the first failure is the result: a failed validation returns its error with socket, commands, events and audio untouched; a failed connection wait returns its timeout or cancellation with nothing sent; a failed start wait returns its timeout or cancellation after run-task only; once started, either the stream is cancelled after run-task alone, or finish-task follows a final max-recording event and the result is the finish wait, which, with the stop already requested, succeeds only if task-finished is seen at once |
| AsrRuntime.AsrController.RunRecognition | Assets/VAI/Runtime/Scripts/Modules/AsrController.cs:245-270 | a failure that is not a cancellation is reported with its user-friendly message; in every case the processing flag is cleared and the socket dropped |
| AsrRuntime.FinishWaitAfterStream | Assets/VAI/Runtime/Scripts/Modules/AsrController.cs:518-541 | after streaming the token is always cancelled, so the finish wait succeeds only when task-finished has already arrived |
| AsrLegacy.ReconstructTextFromWords | Assets/VAI/Scripts/Modules/AsrController.cs:418-430 | empty without a sentence or words; otherwise the words' texts and punctuation, trimmed |
| AsrLegacy.ReconstructIsStable | Assets/VAI/Scripts/Modules/AsrController.cs:418-430 | a reconstructed text, taken as a single word, reconstructs to itself |
| AsrLegacy.LegacyAsrController.constructor | Assets/VAI/Scripts/Modules/AsrController.cs:134-150 | idle, no socket, no pipeline |
| AsrLegacy.LegacyAsrController.StartRecognition | Assets/VAI/Scripts/Modules/AsrController.cs:134-144 | ignored while a pipeline runs; otherwise a pipeline starts with a fresh source |
| AsrLegacy.LegacyAsrController.StopRecognition | Assets/VAI/Scripts/Modules/AsrController.cs:146-150 | cancels the running pipeline, if any |
| AsrLegacy.LegacyAsrController.ValidateAndInitialize | Assets/VAI/Scripts/Modules/AsrController.cs:202-219 | resets the flags and the transcript, then fails when the spotter's clip is missing or not recording |
| AsrLegacy.LegacyAsrController.EstablishWebSocketConnection | Assets/VAI/Scripts/Modules/AsrController.cs:221-250 | succeeds exactly when the socket opens within 10 s |
| AsrLegacy.LegacyAsrController.StartAsrTask | Assets/VAI/Scripts/Modules/AsrController.cs:265-285 | succeeds exactly when task-started arrives within 10 s |
| AsrLegacy.LegacyAsrController.FinishAsrTask | Assets/VAI/Scripts/Modules/AsrController.cs:332-345 | the outcome of the 30 s wait for task-finished |
| AsrLegacy.LegacyAsrController.StreamAudioData | Assets/VAI/Scripts/Modules/AsrController.cs:287-330 | the clip is polled with the send rule (PollAll); sends reach the socket only while it is open; the stream ends cancelled |
| AsrLegacy.LegacyAsrController.HandleRecognitionResult | Assets/VAI/Scripts/Modules/AsrController.cs:394-416 | a non-empty reconstructed text becomes the last transcript and is raised |
| AsrLegacy.LegacyAsrController.HandleWebSocketMessage | Assets/VAI/Scripts/Modules/AsrController.cs:351-392 | dispatches on the event: flags, results, failures; invalid JSON changes nothing |
| AsrLegacy.LegacyAsrController.HandleSocketError | Assets/VAI/Scripts/Modules/AsrController.cs:252-263 | the error callback reports and marks the recognition task finished |
| AsrLegacy.LegacyAsrController.ExecuteRecognitionPipeline | Assets/VAI/Scripts/Modules/AsrController.cs:183-200 | steps run in order and the first failure is the result: with the microphone not recording it returns InvalidOperation with socket, commands, audio and events untouched; a failed connection or start wait returns its timeout or cancellation, with nothing sent or only run-task sent; after the start the audio sent is exactly the polled microphone data, finish-task is sent only when the stream ended by the stop, and the result is success exactly when the stream ended that way and task-finished is seen at once, never a finish timeout |
| AsrLegacy.LegacyAsrController.RunRecognition | Assets/VAI/Scripts/Modules/AsrController.cs:156-181 | a failure that is not a cancellation is reported; in every case the flag is cleared and the socket dropped |
| AliyunAsr.ReconstructTextFromWords | Assets/VAI/Scripts/AliyunAsrController.cs:364-373 | each word's text then its punctuation, untrimmed |
| AliyunAsr.LegacyReconstructionIsTrimmed | Assets/VAI/Scripts/AliyunAsrController.cs:364-373 | the earlier controller's text is this controller's text trimmed |
| AliyunAsr.AliyunAsrController.constructor | Assets/VAI/Scripts/AliyunAsrController.cs:124-127 | before Start: Idle, no task |
| AliyunAsr.AliyunAsrController.Start | Assets/VAI/Scripts/AliyunAsrController.cs:131-140 | Ready with a microphone controller, Error without one |
| AliyunAsr.AliyunAsrController.ResetTaskStatus | Assets/VAI/Scripts/AliyunAsrController.cs:479-485 | clears both task flags |
| AliyunAsr.AliyunAsrController.StartStreaming | Assets/VAI/Scripts/AliyunAsrController.cs:168-212 | ignored while Processing or Recording; otherwise Processing with a fresh source and reset flags; Error when the microphone is not recording |
| AliyunAsr.AliyunAsrController.StopStreaming | Assets/VAI/Scripts/AliyunAsrController.cs:181-188 | cancels the source unless it is missing or already cancelled |
| AliyunAsr.AliyunAsrController.Connect | Assets/VAI/Scripts/AliyunAsrController.cs:228-250 | succeeds exactly when the socket opens within 10 s; a missing connection fails with "WebSocket 连接未成功建立。" |
| AliyunAsr.AliyunAsrController.StartTask | Assets/VAI/Scripts/AliyunAsrController.cs:446-460 | succeeds exactly when task-started arrives within 10 s |
| AliyunAsr.AliyunAsrController.FinishTask | Assets/VAI/Scripts/AliyunAsrController.cs:463-477 | a finish not acknowledged within 60 s only warns and never fails |
| AliyunAsr.AliyunAsrController.StreamAudio | Assets/VAI/Scripts/AliyunAsrController.cs:259-285 | Recording; the clip is polled with the send rule (PollAll) and sends reach the socket while it is open |
| AliyunAsr.AliyunAsrController.StartStreamFinish | Assets/VAI/Scripts/AliyunAsrController.cs:255-290 | the steps of the body after the confirmed connection: a failed start wait returns its timeout or cancellation after run-task only, with the audio and events unchanged; after the start the state is Recording, the audio sent is exactly the polled microphone data (nothing when cancellation was already requested), finish-task is sent only when the stream ended by the stop, and the result is success exactly when that happened and task-finished was already or is at once seen, otherwise a cancellation |
| AliyunAsr.AliyunAsrController.RunTaskBody | Assets/VAI/Scripts/AliyunAsrController.cs:226-291 | steps run in order and the first failure is the result: a failed connection returns a connection failure (time-out, or a cancellation that lands at once) or a cancellation, with nothing sent and the state unchanged; a failed start wait returns its timeout or cancellation after run-task only; after the start the audio sent is exactly the polled microphone data, finish-task is sent only when the stream ended by the stop, and the body succeeds exactly when that happened and task-finished was already or is at once seen, never a finish timeout |
| AliyunAsr.AliyunAsrController.RunStreamingTask | Assets/VAI/Scripts/AliyunAsrController.cs:194-311 | every exception is caught; OnStreamingFinished is always raised, the state returns to Ready and the source is dropped |
| AliyunAsr.AliyunAsrController.HandleSocketError | Assets/VAI/Scripts/AliyunAsrController.cs:223 | marks the recognition task finished and raises nothing |
| AliyunAsr.AliyunAsrController.HandleMessage | Assets/VAI/Scripts/AliyunAsrController.cs:312-358 | task-started and task-failed set their flags; a non-empty result-generated text becomes the last transcript and is raised; task-finished sets the flag and raises its non-empty text without storing it |
| ToolCalls.FirstMessage | Assets/VAI/Scripts/Modules/LlmController.cs:321-330 | the first choice's message, or the exception message when the choices are missing or empty |
| ToolCalls.ParseLLMResponse | Assets/VAI/Scripts/Modules/LlmController.cs:321-355 | a non-empty tool_calls list wins; otherwise a legacy function_call becomes one function call with a fresh id when enabled; otherwise the content with no calls |
| ToolCalls.LocalFunctionResult | Assets/VAI/Scripts/apiFuncCalling.cs:440-445 | the handler's result for a registered function; otherwise the registry's failure message |
| ToolCalls.ExecuteLocalFunction | Assets/VAI/Scripts/Modules/LlmController.cs:457-470 | the catching revision never fails: a failure becomes "错误: 执行函数失败 - <message>"; the prototype propagates it |
| ToolCalls.ExecuteSingleToolCall | Assets/VAI/Scripts/Modules/LlmController.cs:405-421 | only calls of type "function" with a function run; anything else fails with the unsupported-type message |
| ToolCalls.ParallelResults | Assets/VAI/Scripts/Modules/LlmController.cs:360-379 | one result per call, in input order, the failure text standing in for a call that threw |
| ToolCalls.ExecuteToolCalls | Assets/VAI/Scripts/Modules/LlmController.cs:357-403 | the formatted report of the collected results and errors |
| ToolCalls.SequentialRunsEveryCall | Assets/VAI/Scripts/Modules/LlmController.cs:380-401 | without cancellation every call runs and leaves exactly one entry; a failing call does not stop later ones |
| ToolCalls.ModesAgreeWithoutFailures | Assets/VAI/Scripts/Modules/LlmController.cs:357-403 | when nothing fails and nothing is cancelled, both modes collect the same results |
| ToolCalls.ModesAgreeWhenAllFail | Assets/VAI/Scripts/Modules/LlmController.cs:357-403 | when every call fails, sequential mode's errors are parallel mode's results |
| ToolCalls.ParallelPrefix | Assets/VAI/Scripts/Modules/LlmController.cs:360-379 | the parallel results of all calls are those of all but the last, followed by one more |
| ToolCalls.SequentialAfterCancel | Assets/VAI/Scripts/Modules/LlmController.cs:380-401 | once cancelled, no later call runs: each adds the cancellation text to the errors, and the results are those of the calls before |
| ToolCalls.ReportLayout | Assets/VAI/Scripts/Modules/LlmController.cs:476-500 | the report is empty exactly when there is nothing to report; it opens with the counted success header, or the counted error header when nothing succeeded; both sections are present when both lists are non-empty |
| ToolCalls.ReportOpensWithSuccess | Assets/VAI/Scripts/Modules/LlmController.cs:476-500 | with results, the report starts with "成功执行了 <n> 个操作:" |
| ToolCalls.ReportOpensWithErrors | Assets/VAI/Scripts/Modules/LlmController.cs:476-500 | with only errors, the report starts with the counted error header |
| ToolCalls.ReportSeparatesSections | Assets/VAI/Scripts/Modules/LlmController.cs:476-500 | with both, the error section follows the results after an empty line |
| ToolCalls.ToolFor | Assets/VAI/Scripts/Modules/LlmController.cs:431-452 | a tool of type "function" with the function's name and description, its parameters in order, and every parameter required |
| ToolCalls.ToolDefinitions | Assets/VAI/Scripts/Modules/LlmController.cs:427-455 | one tool per registered function, in order |
| ToolCalls.RequiredIsEveryParameter | Assets/VAI/Scripts/Modules/LlmController.cs:440-449 | a name is required exactly when it is a parameter |
| ToolCalls.CommandOutcome | Assets/VAI/Scripts/Modules/LlmController.cs:248-267 | a failed request fails; tool calls give the report with hasToolCall; otherwise the content, or "模型返回了空响应" when null, without a tool call |
| ToolCalls.ProcessCommandInternal | Assets/VAI/Scripts/Modules/LlmController.cs:248-267 | returns CommandOutcome |
| ToolCalls.FormatUserFriendlyError | Assets/VAI/Scripts/Modules/LlmController.cs:502-512 | each message identifies its exception kind exactly: timeout, network, argument, invalid operation, anything else |
| ToolCalls.CompletionEvents | Assets/VAI/Scripts/Modules/LlmController.cs:216-246 | a result is raised as OnProcessingComplete; a cancellation raises nothing; another exception raises its user-friendly message as Error |
| ToolCalls.LlmController.constructor | Assets/VAI/Scripts/Modules/LlmController.cs:145-168 | not processing, no token, no cached tools |
| ToolCalls.LlmController.ProcessCommand | Assets/VAI/Scripts/Modules/LlmController.cs:187-203 | ignored while processing; a blank command raises "命令不能为空"; otherwise processing starts with a fresh token |
| ToolCalls.LlmController.CancelProcessing | Assets/VAI/Scripts/Modules/LlmController.cs:205-210 | cancels any token and clears the flag at once |
| ToolCalls.LlmController.GetToolDefinitions | Assets/VAI/Scripts/Modules/LlmController.cs:427-455 | computed from the registry on first use, then cached and returned unchanged |
| ToolCalls.LlmController.SendRequest | Assets/VAI/Scripts/Modules/LlmController.cs:269-283 | the request carries the tool definitions, taken from the cache when present |
| ToolCalls.LlmController.CompleteCommand | Assets/VAI/Scripts/Modules/LlmController.cs:216-246 | raises the CompletionEvents of the outcome, with a cancelled token making the outcome a cancellation; then clears the flag and the token |
| ToolCalls.LlmController.Conclude | Assets/VAI/Scripts/Modules/LlmController.cs:225-245 | raises the outcome's events, then the finally block clears the flag and the token |
| ToolCalls.ApiFuncCalling.constructor | Assets/VAI/Scripts/apiFuncCalling.cs:129-139 | not processing, no token |
| ToolCalls.ApiFuncCalling.StartCommand | Assets/VAI/Scripts/apiFuncCalling.cs:165-188 | false without change while processing; false for a blank command; otherwise processing starts |
| ToolCalls.ApiFuncCalling.CancelCurrentRequest | Assets/VAI/Scripts/apiFuncCalling.cs:220-227 | cancels only while processing |
| ToolCalls.ApiFuncCalling.FinishCommand | Assets/VAI/Scripts/apiFuncCalling.cs:188-215 | returns hasToolCall on success and false on any exception; a non-cancellation exception's message becomes LastError; the flag is cleared |
| ToolCalls.ApiFuncCalling.Settle | Assets/VAI/Scripts/apiFuncCalling.cs:193-214 | true exactly for a successful outcome that called a tool; only a non-cancellation failure sets LastError, to its user-facing message; the flag and token are cleared |
| VaiManager.MainInfoCleared | Assets/VAI/Runtime/Scripts/VaiManager.cs:30-36 | clears recognition, answer and error, and keeps the wake word and its confidence |
| VaiManager.ConversationData.constructor | Assets/VAI/Runtime/Scripts/VaiManager.cs:10-28 | a conversation with every field empty |
| VaiManager.ConversationData.Clear | Assets/VAI/Runtime/Scripts/VaiManager.cs:20-28 | every field becomes empty |
| VaiManager.ConversationData.ClearMainInfo | Assets/VAI/Runtime/Scripts/VaiManager.cs:30-36 | the conversation becomes MainInfoCleared of the old one |
| VaiManager.EnterLandsInState | Assets/VAI/Runtime/Scripts/VaiManager.cs:122-161 | a transition to the current state does nothing; any other lands in the requested state |
| VaiManager.IdleEntryResets | Assets/VAI/Runtime/Scripts/VaiManager.cs:131-137 | entering Idle clears the conversation and the stored commands, and stops the recogniser and the language model |
| VaiManager.ListeningEntryKeepsWakeWord | Assets/VAI/Runtime/Scripts/VaiManager.cs:139-145 | entering Listening keeps the wake word, clears the rest and the store, cancels pending returns and starts the recogniser |
| VaiManager.KeywordWakesOnlyWhenIdleOrDone | Assets/VAI/Runtime/Scripts/VaiManager.cs:172-183 | a keyword is accepted exactly in Idle, Success and Invalid, with confidence 0.9; elsewhere nothing changes |
| VaiManager.StreamingOutcomes | Assets/VAI/Runtime/Scripts/VaiManager.cs:185-211 | ignored outside Listening; text with 超时, 错误 or 失败 makes the interaction Invalid; other text is recorded and passed to the matcher when it is enabled |
| VaiManager.EndOfSpeechOrder | Assets/VAI/Runtime/Scripts/VaiManager.cs:213-237 | stored commands win and run (Success, the store empty); else non-blank text, or a disabled matcher, goes to the language model; else Invalid with "I'm here for you." |
| VaiManager.LlmResultOutcomes | Assets/VAI/Runtime/Scripts/VaiManager.cs:240-268 | counts only in Processing: an error or an answer without a tool call is Invalid; otherwise Success with the answer |
| VaiManager.ErrorsInvalidate | Assets/VAI/Runtime/Scripts/VaiManager.cs:270-284 | both error callbacks make the interaction Invalid with their prefixed message, from any state |
| VaiManager.EnterKeepsNoStaleReturn | Assets/VAI/Runtime/Scripts/VaiManager.cs:122-166 | no return to Idle is pending while Listening, across every transition |
| VaiManager.StreamingKeepsNoStaleReturn | Assets/VAI/Runtime/Scripts/VaiManager.cs:185-211 | streaming keeps that invariant |
| VaiManager.VAIManager.constructor | Assets/VAI/Runtime/Scripts/VaiManager.cs:62-82 | starts Idle with a cleared conversation, no calls made and no return pending; the store is the matcher's |
| VaiManager.VAIManager.TransitionToState | Assets/VAI/Runtime/Scripts/VaiManager.cs:122-161 | the view becomes Enter(old view, state) |
| VaiManager.VAIManager.EnterIdle | Assets/VAI/Runtime/Scripts/VaiManager.cs:132-139 | entering Idle clears the conversation record and the stored commands, stops recognition and cancels the model call, and keeps the keyword trie |
| VaiManager.VAIManager.EnterListening | Assets/VAI/Runtime/Scripts/VaiManager.cs:140-146 | entering Listening cancels pending returns to Idle, clears the main conversation fields and the stored commands, and starts recognition |
| VaiManager.VAIManager.ReturnToIdle | Assets/VAI/Runtime/Scripts/VaiManager.cs:163-166 | a scheduled return fires: one fewer pending, and the view enters Idle |
| VaiManager.VAIManager.HandleKeywordSpotted | Assets/VAI/Runtime/Scripts/VaiManager.cs:172-183 | the view becomes OnKeyword |
| VaiManager.VAIManager.ProcessEndOfSpeech | Assets/VAI/Runtime/Scripts/VaiManager.cs:213-237 | the view becomes EndOfSpeech against the registry's catalog |
| VaiManager.VAIManager.HandleAsrRecognitionStreaming | Assets/VAI/Runtime/Scripts/VaiManager.cs:185-211 | the view becomes OnStreaming of the sentence |
| VaiManager.VAIManager.HandleLlmProcessingComplete | Assets/VAI/Runtime/Scripts/VaiManager.cs:240-268 | the view becomes OnLlmResult |
| VaiManager.VAIManager.HandleAsrError | Assets/VAI/Runtime/Scripts/VaiManager.cs:270-276 | the view becomes OnAsrError |
| VaiManager.VAIManager.HandleLlmError | Assets/VAI/Runtime/Scripts/VaiManager.cs:278-284 | the view becomes OnLlmError |
| VaiManager.VAIManager.HandleAsrSilenceTimeout | Assets/VAI/Runtime/Scripts/VaiManager.cs:289-293 | the view enters Idle |
| VaiManager.VAIManager.HandleAsrMaxRecordingTimeReached | Assets/VAI/Runtime/Scripts/VaiManager.cs:296-300 | the view enters Processing |
| VaiManager.VAIManager.Shutdown | Assets/VAI/Runtime/Scripts/VaiManager.cs:84-105 | the view enters Shutdown, then the recogniser is stopped and the language model cancelled |
| AliyunManager.StatusText | Assets/VAI/Scripts/AliyunVoiceAssistManager.cs:243-260 | the status text is empty exactly in Idle |
| AliyunManager.TransitionLands | Assets/VAI/Scripts/AliyunVoiceAssistManager.cs:172-193 | a transition to the current state does nothing; any other lands at that time with exactly one UI update |
| AliyunManager.TransitionMonitoringAndRecovery | Assets/VAI/Scripts/AliyunVoiceAssistManager.cs:195-226 | entering ListeningForCommand starts monitoring with the last-sound time pushed back by the delay; leaving it stops monitoring; entering Invalid schedules recovery |
| AliyunManager.WakeWordOnlyInIdle | Assets/VAI/Scripts/AliyunVoiceAssistManager.cs:310-323 | a wake word is honoured exactly in Idle: listening, monitoring and the recogniser started |
| AliyunManager.StreamingFinishedOutsideListening | Assets/VAI/Scripts/AliyunVoiceAssistManager.cs:325-338 | outside ListeningForCommand the end of the stream only returns to Idle |
| AliyunManager.ResultTaskEndsIdle | Assets/VAI/Scripts/AliyunVoiceAssistManager.cs:392-441 | result processing always ends in Idle, monitoring off, the UI queue opening with ProcessingCommand and closing with Idle |
| AliyunManager.HandledStaysBusy | Assets/VAI/Scripts/AliyunVoiceAssistManager.cs:396-424 | between ProcessingCommand and Idle the manager is in ProcessingCommand, FunctionCalled or Invalid, does not monitor silence or call the recogniser, and only appends UI updates |
| AliyunManager.ResultTaskRejects | Assets/VAI/Scripts/AliyunVoiceAssistManager.cs:397-415 | a recogniser error, else a blank transcript, is shown through Invalid, and the model is not asked |
| AliyunManager.ResultTaskAsksModel | Assets/VAI/Scripts/AliyunVoiceAssistManager.cs:417-479 | a usable transcript is sent once; timeout and fault each show their message through Invalid; a tool call shows FunctionCalled; a plain answer returns to Idle |
| AliyunManager.SilenceStopsOnce | Assets/VAI/Scripts/AliyunVoiceAssistManager.cs:272-288 | silence past the threshold stops the recogniser once and ends monitoring; later checks do nothing |
| AliyunManager.SilenceCheckGuard | Assets/VAI/Scripts/AliyunVoiceAssistManager.cs:272-288 | the check acts only while monitoring in ListeningForCommand; sound moves the last-sound time |
| AliyunManager.WatchdogForcesIdle | Assets/VAI/Scripts/AliyunVoiceAssistManager.cs:290-304 | resets exactly an initialised manager that has been out of Idle past the limit |
| AliyunManager.TransitionKeepsConsistent | Assets/VAI/Scripts/AliyunVoiceAssistManager.cs:172-226 | transitions keep the invariant: monitoring only while listening, recovery pending only in Invalid or Idle |
| AliyunManager.HandlersKeepConsistent | Assets/VAI/Scripts/AliyunVoiceAssistManager.cs:266-367 | every handler keeps that invariant |
| AliyunManager.StreamingFinishedKeepsConsistent | Assets/VAI/Scripts/AliyunVoiceAssistManager.cs:325-338 | the streaming-finished handler, with the result task it starts, keeps that invariant |
| AliyunManager.AliyunVoiceAssistManager.constructor | Assets/VAI/Scripts/AliyunVoiceAssistManager.cs:14-76 | Idle, uninitialised, nothing queued |
| AliyunManager.AliyunVoiceAssistManager.InitializeAsync | Assets/VAI/Scripts/AliyunVoiceAssistManager.cs:102-131 | with every component, initialised and in Idle; without one, Invalid, uninitialised and with no new recovery pending |
| AliyunManager.AliyunVoiceAssistManager.TransitionToState | Assets/VAI/Scripts/AliyunVoiceAssistManager.cs:172-193 | the view becomes Transition(old view, state) |
| AliyunManager.AliyunVoiceAssistManager.ShowErrorMessage | Assets/VAI/Scripts/AliyunVoiceAssistManager.cs:481-492 | the view becomes ShowError |
| AliyunManager.AliyunVoiceAssistManager.ProcessLlmCommand | Assets/VAI/Scripts/AliyunVoiceAssistManager.cs:443-479 | the view becomes LlmCommand |
| AliyunManager.AliyunVoiceAssistManager.ProcessAsrResultTask | Assets/VAI/Scripts/AliyunVoiceAssistManager.cs:392-441 | the view becomes ResultTask |
| AliyunManager.AliyunVoiceAssistManager.OnWakeWordDetected | Assets/VAI/Scripts/AliyunVoiceAssistManager.cs:310-323 | the view becomes WakeWord |
| AliyunManager.AliyunVoiceAssistManager.OnAsrStreamingFinished | Assets/VAI/Scripts/AliyunVoiceAssistManager.cs:325-338 | the view becomes StreamingFinished |
| AliyunManager.AliyunVoiceAssistManager.RecoveryElapsed | Assets/VAI/Scripts/AliyunVoiceAssistManager.cs:494-502 | the pending recovery fires and returns to Idle |
| AliyunManager.AliyunVoiceAssistManager.HandleVadSilenceDetection | Assets/VAI/Scripts/AliyunVoiceAssistManager.cs:272-288 | the view becomes SilenceCheck |
| AliyunManager.AliyunVoiceAssistManager.ForceReset | Assets/VAI/Scripts/AliyunVoiceAssistManager.cs:511-516 | the view becomes Reset |
| AliyunManager.AliyunVoiceAssistManager.HandleWatchdogCheck | Assets/VAI/Scripts/AliyunVoiceAssistManager.cs:290-304 | the view becomes Watchdog |
| AliyunManager.AliyunVoiceAssistManager.Update | Assets/VAI/Scripts/AliyunVoiceAssistManager.cs:83-90 | the silence check, then the watchdog |
| AliyunManager.AliyunVoiceAssistManager.OnDestroy | Assets/VAI/Scripts/AliyunVoiceAssistManager.cs:133-163 | the manager enters Shutdown and any pending recovery is dropped |
| AliyunManager.AliyunVoiceAssistManager.GetCurrentState | Assets/VAI/Scripts/AliyunVoiceAssistManager.cs:521-524 | the current state, changing nothing |
| ModelFiles.ModelFilePath | Assets/VAI/Runtime/Scripts/com.eitan.sherpa-onnx-unity/Runtime/Core/Extensions/SherpaMetadataExtensions.cs:10-25 | an empty file name fails with "modelFile can't be Null or Empty"; a missing folder fails with "model Folder can't found"; otherwise the folder joined with the file |
| ModelFiles.FilePaths | Assets/VAI/Runtime/Scripts/com.eitan.sherpa-onnx-unity/Runtime/Core/Extensions/SherpaMetadataExtensions.cs:112-113 | one path per file, in order; the first failure ends the call |
| ModelFiles.ValidKeywords | Assets/VAI/Runtime/Scripts/com.eitan.sherpa-onnx-unity/Runtime/Core/Extensions/SherpaMetadataExtensions.cs:45-48 | the non-blank keywords, lower-cased, in order |
| ModelFiles.Words | Assets/VAI/Runtime/Scripts/com.eitan.sherpa-onnx-unity/Runtime/Core/Extensions/SherpaMetadataExtensions.cs:57-63 | non-empty words made only of ASCII letters and digits |
| ModelFiles.WordsOccur | Assets/VAI/Runtime/Scripts/com.eitan.sherpa-onnx-unity/Runtime/Core/Extensions/SherpaMetadataExtensions.cs:57-63 | every word of a file name occurs in the name |
| ModelFiles.LowerKeepsContains | Assets/VAI/Runtime/Scripts/com.eitan.sherpa-onnx-unity/Runtime/Core/Extensions/SherpaMetadataExtensions.cs:72-86 | lower-casing keeps an occurrence |
| ModelFiles.WordMatchAddsNothing | Assets/VAI/Runtime/Scripts/com.eitan.sherpa-onnx-unity/Runtime/Core/Extensions/SherpaMetadataExtensions.cs:75-95 | the word match adds no keyword beyond the substring match; the score is the number of distinct keywords in the lower-cased name |
| ModelFiles.Scores | Assets/VAI/Runtime/Scripts/com.eitan.sherpa-onnx-unity/Runtime/Core/Extensions/SherpaMetadataExtensions.cs:68-100 | each manifest entry's score, by position |
| ModelFiles.ScoredFrom | Assets/VAI/Runtime/Scripts/com.eitan.sherpa-onnx-unity/Runtime/Core/Extensions/SherpaMetadataExtensions.cs:95-99 | only entries with a positive score, in manifest order |
| ModelFiles.ScoredComplete | Assets/VAI/Runtime/Scripts/com.eitan.sherpa-onnx-unity/Runtime/Core/Extensions/SherpaMetadataExtensions.cs:95-99 | no scoring entry is dropped |
| ModelFiles.InsertRanked | Assets/VAI/Runtime/Scripts/com.eitan.sherpa-onnx-unity/Runtime/Core/Extensions/SherpaMetadataExtensions.cs:109-111 | inserting into a ranked sequence keeps it ranked and adds exactly that entry |
| ModelFiles.RankSorts | Assets/VAI/Runtime/Scripts/com.eitan.sherpa-onnx-unity/Runtime/Core/Extensions/SherpaMetadataExtensions.cs:109-111 | ranking orders by score descending, then length, then manifest order, and keeps every entry |
| ModelFiles.KeywordLookupEmpty | Assets/VAI/Runtime/Scripts/com.eitan.sherpa-onnx-unity/Runtime/Core/Extensions/SherpaMetadataExtensions.cs:38-53 | without files or usable keywords the lookup finds nothing |
| ModelFiles.RankKeepsEntries | Assets/VAI/Runtime/Scripts/com.eitan.sherpa-onnx-unity/Runtime/Core/Extensions/SherpaMetadataExtensions.cs:109-111 | ranking keeps every entry exactly once |
| ModelFiles.RankScored | Assets/VAI/Runtime/Scripts/com.eitan.sherpa-onnx-unity/Runtime/Core/Extensions/SherpaMetadataExtensions.cs:95-111 | the ranked scoring entries are each scoring entry once, in ranking order |
| ModelFiles.KeywordLookupNone | Assets/VAI/Runtime/Scripts/com.eitan.sherpa-onnx-unity/Runtime/Core/Extensions/SherpaMetadataExtensions.cs:103-106 | with files and usable keywords, the lookup finds nothing exactly when no entry scores |
| ModelFiles.KeywordLookupRanks | Assets/VAI/Runtime/Scripts/com.eitan.sherpa-onnx-unity/Runtime/Core/Extensions/SherpaMetadataExtensions.cs:36-116 | a successful lookup returns one path per scoring entry, each once, in ranking order |
| ModelFiles.IndicesBelow | Assets/VAI/Runtime/Scripts/com.eitan.sherpa-onnx-unity/Runtime/Core/Extensions/SherpaMetadataExtensions.cs:95-99 | entries at strictly increasing positions, the last at m, number at most m + 1 |
| ModelFiles.ValidExtensions | Assets/VAI/Runtime/Scripts/com.eitan.sherpa-onnx-unity/Runtime/Core/Extensions/SherpaMetadataExtensions.cs:126-131 | the non-blank extensions, each starting with a dot |
| ModelFiles.WithDot | Assets/VAI/Runtime/Scripts/com.eitan.sherpa-onnx-unity/Runtime/Core/Extensions/SherpaMetadataExtensions.cs:129 | a dot is added unless the extension starts with one |
| ModelFiles.WithExtension | Assets/VAI/Runtime/Scripts/com.eitan.sherpa-onnx-unity/Runtime/Core/Extensions/SherpaMetadataExtensions.cs:138-139 | the entries with a wanted extension, in manifest order |
| ModelFiles.WithExtensionAppend | Assets/VAI/Runtime/Scripts/com.eitan.sherpa-onnx-unity/Runtime/Core/Extensions/SherpaMetadataExtensions.cs:138-139 | the filter distributes over concatenation |
| ModelFiles.ModelFilesByExtension | Assets/VAI/Runtime/Scripts/com.eitan.sherpa-onnx-unity/Runtime/Core/Extensions/SherpaMetadataExtensions.cs:118-142 | empty without files or usable extensions; otherwise the paths of the entries with a wanted extension, in manifest order |
| GithubProxy.Environment.constructor | Assets/VAI/Runtime/Scripts/com.eitan.sherpa-onnx-unity/Runtime/API/SherpaOnnxUnityAPI.cs:34 | a store with the given proxy key and entries |
| GithubProxy.Environment.Set | Assets/VAI/Runtime/Scripts/com.eitan.sherpa-onnx-unity/Runtime/API/SherpaOnnxUnityAPI.cs:34 | the key maps to the value |
| GithubProxy.Environment.Remove | Assets/VAI/Runtime/Scripts/com.eitan.sherpa-onnx-unity/Runtime/API/SherpaOnnxUnityAPI.cs:40 | the key is removed |
| GithubProxy.NormalizedProxy | Assets/VAI/Runtime/Scripts/com.eitan.sherpa-onnx-unity/Runtime/API/SherpaOnnxUnityAPI.cs:21-35 | None exactly for a null or blank address; otherwise the trimmed address, ending in exactly one added "/" unless it already ends in one |
| GithubProxy.NormalizedProxyIdempotent | Assets/VAI/Runtime/Scripts/com.eitan.sherpa-onnx-unity/Runtime/API/SherpaOnnxUnityAPI.cs:21-35 | normalising a stored value stores the same value |
| GithubProxy.SetGithubProxy | Assets/VAI/Runtime/Scripts/com.eitan.sherpa-onnx-unity/Runtime/API/SherpaOnnxUnityAPI.cs:21-35 | a blank address removes the key; otherwise the key maps to NormalizedProxy |
| GithubProxy.ClearGithubProxy | Assets/VAI/Runtime/Scripts/com.eitan.sherpa-onnx-unity/Runtime/API/SherpaOnnxUnityAPI.cs:38-41 | removes the proxy key and keeps every other entry |
| DataProcessor.FirstEntry | Assets/VAI/Runtime/Scripts/jointbert/src/data_processor.py:64-66 | the first table entry with a pattern in the text; None exactly when no entry has one |
| DataProcessor.ExtractIntent | Assets/VAI/Runtime/Scripts/jointbert/src/data_processor.py:62-67 | the first intent with a pattern in the text, else "其他" |
| DataProcessor.FirstKeyword | Assets/VAI/Runtime/Scripts/jointbert/src/data_processor.py:76-77 | the first keyword occurring in the text |
| DataProcessor.MatchSlot | Assets/VAI/Runtime/Scripts/jointbert/src/data_processor.py:75-83 | the first value in table then keyword order with an occurring keyword, spanned at the keyword's first occurrence |
| DataProcessor.DigitsEnd | Assets/VAI/Runtime/Scripts/jointbert/src/data_processor.py:108 | the end of the run of digits |
| DataProcessor.FirstDigit | Assets/VAI/Runtime/Scripts/jointbert/src/data_processor.py:109 | the first digit at or after a position |
| DataProcessor.FractionIsNumeral | Assets/VAI/Runtime/Scripts/jointbert/src/data_processor.py:108 | digits, a ".", then digits form a numeral of the pattern that contains the "." |
| DataProcessor.NumberSpan | Assets/VAI/Runtime/Scripts/jointbert/src/data_processor.py:108-112 | the leftmost numeral, taken greedily: digits, with the fraction when "." and a digit follow |
| DataProcessor.ExtractEntities | Assets/VAI/Runtime/Scripts/jointbert/src/data_processor.py:69-114 | slots and positions name the same slots, all among objectName, transformType, hexColor and number |
| DataProcessor.KeywordSlots | Assets/VAI/Runtime/Scripts/jointbert/src/data_processor.py:74-105 | each keyword slot is present exactly when its table matches, with the matched value and span |
| DataProcessor.NumberSlotIsFirstNumeral | Assets/VAI/Runtime/Scripts/jointbert/src/data_processor.py:107-112 | the number slot is the text of the first numeral, with its span |
| DataProcessor.TurnLeftRightIsMoveLeft | Assets/VAI/Runtime/Scripts/jointbert/src/data_processor.py:86-94 | a sentence containing "左右转" is labelled moveleft, never yaw |
| DataProcessor.DefaultsFillOnlyGaps | Assets/VAI/Runtime/Scripts/jointbert/src/data_processor.py:129-143 | defaults never override an extracted slot; ModifyTransform and ChangeObjectColor records get all their slots |
| DataProcessor.SlotDict.constructor | Assets/VAI/Runtime/Scripts/jointbert/src/data_processor.py:71 | a dictionary with the given entries |
| DataProcessor.SlotDict.SetDefault | Assets/VAI/Runtime/Scripts/jointbert/src/data_processor.py:131-143 | sets the key only when it is missing |
| DataProcessor.ConvertSentenceToVai | Assets/VAI/Runtime/Scripts/jointbert/src/data_processor.py:116-145 | the record's intent is ExtractIntent, its text the input, its positions those extracted, and its slots the extracted ones with the intent's defaults filled in |

## Left out

- Logging (`Debug.Log*`), UI text and sound, Unity lifecycle plumbing, the main-thread
  dispatcher, and `Update`'s message-queue dispatch of the sockets are not modelled.
  They have no effect on the modelled state.
- Networking is not modelled. A WebSocket or HTTP exchange becomes an input: the tick at
  which the socket opens or an event arrives, or the parsed reply and its exception.
  JSON (de)serialisation is likewise an input, including JsonUtility's defaults for
  missing fields.
- Concurrency is not modelled. Every `async` method runs atomically from one `await` to
  the outcome it is given. Interleavings between awaits are not captured, except where
  the model splits a method (`LlmController.ProcessCommand`/`CompleteCommand`,
  `apiFuncCalling.StartCommand`/`FinishCommand`) so that a cancellation can fall in
  between.
- Floating point is abstracted:
  - time is counted in integer ticks (100 ms polls, 50 ms delays);
  - the `elapsed`, `connectTimeout` and `0.1f` float accumulations are exact;
  - samples are `real`, and the 0.003 silence threshold is an exact bound;
  - the float-to-short conversion of `ConvertSamplesToPcmBytes` is the parameter
    `quantize`;
  - `float.TryParse` is a parameter of the matcher.
- The Jieba tokeniser (`JiebaSegmenterHelper.Cut`) is a parameter. The word segmenter
  is not part of this model.
- The registered handlers' effects on scene objects (`FuncCallingList.ModifyTransform`,
  `ChangeObjectColor`) are a function parameter `Scene`. `FuncCallingList` is not part
  of this model.
- `SherpaPathResolver.GetModelRootPath`, `Path.Combine`, `Path.GetFileName` and
  `Path.GetExtension` are the parameters `PathOps`. `IsOnlineModel` calls into
  `SherpaUtils`, which is not part of this model.
- The Python script's file I/O (`process_dev_file` and the JSON writer) and its
  command-line entry point are left out. `index` is accepted and unused, as in the
  source.
- The order of keys in the Python dictionaries that are written out is not modelled:
  the slots are a `map`.
- `SherpaOnnxKeywords.Initialize`/`Shutdown` and keyword detection itself are left out.
  They load native models and forward events.
- Text.ToLower: `ToLowerInvariant` and `OrdinalIgnoreCase` are modelled on ASCII
  letters only. Other letters keep their case.
- DataProcessor.NumberSpan: Python's `\d` also matches non-ASCII decimal digits. The
  model matches ASCII digits only.
- Nlu.NluController.BuildTrieFromRegistry: the deserialised `Parameters` and `Keywords`
  lists are taken to be non-null. When one is null, the source's loop throws part-way
  through the build and keeps the definitions together with a partly filled trie; the
  model does not capture that partial trie.
- Nlu.FreeNumberParam: a parameter's `ParamType` and `ParamName` are taken to be non-null
  strings. The catalogue is deserialised without a null check, and in the source a null
  `ParamType` makes the `Equals` call at NluController.cs:291 throw, as does a null
  `ParamName` used as a dictionary key at lines 292 and 296. The model does not capture
  those exceptions.
- AsrRuntime.AsrController.StreamAudioData: the audio sent across all rounds is stated
  as a property (earlier audio kept; chunks of 1 to 1024 samples; nothing while the socket
  is not open), not as the exact sequence of chunks. The final last-sent index is stated
  only as never moving back, and the spotter's final queue is not stated. The exact
  effect is stated one round at a time, by PrepareRound, SendRound and SendPending,
  because a fold of all rounds over the microphone's frames exceeds the solver's resource
  limit.
- SampleBuffer.SherpaOnnxKeywords.OnFrameCollected: the sample count is an unbounded
  integer, and so is `AsrRuntime.AsrController`'s last-sent index. In the source both are
  `int` and wrap after 2^31 samples (about 37 hours at 16 kHz without a clear). The
  subtraction in `GetPcmDataSince` wraps as well, so its sample difference stays right
  while fewer than 2^31 samples are pending. The model does not represent the wrapped
  values.
- Nlu.MatchCommands: completeness is by argument count, as in the source. A command
  whose count reaches its parameter count with an argument for an undeclared name still
  counts as complete.
- VaiManager.VAIManager.constructor: `Startup`'s transition to Idle is a no-op,
  because the manager already starts in Idle. The model therefore starts Idle without
  the Idle entry calls.
- VaiManager.VAIManager.ReturnToIdle: `Invoke(nameof(ReturnToIdle), resultDisplayTime)`
  (VaiManager.cs:152, 156), with `resultDisplayTime` serialized at 4.0 s by default
  (VaiManager.cs:54), is modelled as a count of pending returns that fire on request;
  the delay itself is not modelled. A stale return can land in a
  later interaction's state; the model admits that, and NoStaleReturn shows it never
  happens while Listening.
- AliyunManager.AliyunVoiceAssistManager.InitializeAsync: `asrController.LastError`
  does not exist in `AliyunAsrController`, so the recogniser's error is an input. With a
  missing component the manager enters Invalid, and the `NullReferenceException` of the
  recovery task is caught. So no recovery is pending, and the uninitialised watchdog
  never resets it.
- VaiManager.VAIManager.HandleAsrRecognitionStreaming: requires a sentence with
  text. The recogniser raises only such sentences (`AsrController.cs` line 595); a null
  text in Listening would throw in the source.
- AliyunManager.Watchdog: the source tests `!= Idle` twice in its condition. The model
  keeps one test, which is equivalent.
- ToolCalls.FormatUserFriendlyError and the recognisers' `FormatUserFriendlyError`:
  .NET exception messages are abstracted to exception kinds with fixed messages.
- `AppendLine` is modelled as appending "\n". The platform newline is not modelled.
- `apiFuncCalling`'s tool-definition cache is never filled in the source, so the
  definitions are recomputed on each request; the model does the same.

=== FILE: asr_common.dfy ===
module AsrCommon {
  // What the three revisions of the recognition client share: the parsed server
  // records, the exceptions the pipelines raise, the polling wait, the microphone
  // ring-buffer arithmetic, word-by-word text reconstruction and the float-to-PCM16
  // packing.

  import opened Wrappers
  import opened Text

  /** `Word`: a recognised word and the punctuation that follows it (either may be null). */
  datatype Word = Word(text: Option<string>, punctuation: Option<string>)

  /** `Sentence`.  `sentenceEnd` is false in the revisions whose record has no such field;
      `beginTime`/`endTime` are null when the server omits them. */
  datatype Sentence = Sentence(
    text: Option<string>,
    beginTime: Option<int>,
    endTime: Option<int>,
    words: Option<seq<Word>>,
    sentenceEnd: bool)

  /** `ResponseHeader`: the event name and the optional error message. */
  datatype ResponseHeader = ResponseHeader(event: Option<string>, errorMessage: Option<string>)

  /** A server message after deserialisation: its header (null when absent) and the
      `payload.output.sentence` chain (null as soon as one link is null). */
  datatype ServerMessage = ServerMessage(header: Option<ResponseHeader>, sentence: Option<Sentence>)

  /** The exceptions the recognition pipelines raise or catch.  `TaskCanceled` is a
      subclass of `OperationCanceled`. */
  datatype Exception =
    | TimeoutError(message: string)
    | InvalidOperation(message: string)
    | OperationCanceled
    | TaskCanceled(message: string)
    | OtherError(message: string)
  {
    /** Is the exception caught by a `catch (OperationCanceledException)` clause? */
    predicate IsCancellation() {
      OperationCanceled? || TaskCanceled?
    }
  }

  /** The client's socket: none, created and connecting, open, or closed. */
  datatype SocketState = NoSocket | Connecting | Open | Closed

  // ----- Polling wait -----

  /** The outcome of a polling wait: the condition held at poll `tick`, the time ran out,
      or the delay after poll `tick` was cancelled. */
  datatype WaitOutcome = Satisfied(tick: nat) | TimedOut | Cancelled(tick: nat)

  /** Does the 100 ms delay after poll `k` end in cancellation?  `cancelTick` is the tick
      at which cancellation is requested: a request made during the delay after poll `k`
      has tick `k + 1`, one made before the wait started has tick 0. */
  predicate ThrowsAt(cancelTick: Option<nat>, k: nat) {
    cancelTick.Some? && cancelTick.value <= k + 1
  }

  /** The outcome of the wait from poll `k` on. */
  function WaitFrom(cond: nat -> bool, timeoutTicks: nat, cancelTick: Option<nat>, k: nat): WaitOutcome
    requires k <= timeoutTicks
    decreases timeoutTicks - k
  {
    if cond(k) then Satisfied(k)
    else if k == timeoutTicks then TimedOut
    else if ThrowsAt(cancelTick, k) then Cancelled(k)
    else WaitFrom(cond, timeoutTicks, cancelTick, k + 1)
  }

  /** The condition a wait for a server signal polls: the flag was already set when the
      wait began, or the signal arrives at tick `tick`. */
  function ArrivedBy(already: bool, tick: Option<nat>): nat -> bool {
    (k: nat) => already || (tick.Some? && k >= tick.value)
  }

  /** What an awaited step that waits with outcome `w` returns: success when the condition
      was seen, otherwise `timeout` or the cancellation of its delay. */
  function WaitResult(w: WaitOutcome, timeout: Exception): Result<(), Exception> {
    match w
    case Satisfied(_) => Success(())
    case TimedOut => Failure(timeout)
    case Cancelled(_) => Failure(OperationCanceled)
  }

  function Wait(cond: nat -> bool, timeoutTicks: nat, cancelTick: Option<nat>): WaitOutcome {
    WaitFrom(cond, timeoutTicks, cancelTick, 0)
  }

  /** A wait entered after cancellation was requested does not wait: it succeeds only if
      the condition already holds, and is otherwise cancelled at its first delay. */
  lemma WaitAfterCancelReturnsAtOnce(cond: nat -> bool, timeoutTicks: nat)
    requires timeoutTicks > 0
    ensures Wait(cond, timeoutTicks, Some(0)) == if cond(0) then Satisfied(0) else Cancelled(0)
  {
  }

  /** Without cancellation, a condition that becomes true at tick `t` within the timeout
      is seen at the first tick it holds. */
  lemma {:induction false} WaitSeesCondition(cond: nat -> bool, timeoutTicks: nat, t: nat, k: nat)
    requires k <= t <= timeoutTicks && cond(t)
    requires forall j :: k <= j < t ==> !cond(j)
    ensures WaitFrom(cond, timeoutTicks, None, k) == Satisfied(t)
    decreases t - k
  {
    if k < t {
      WaitSeesCondition(cond, timeoutTicks, t, k + 1);
    }
  }

  /** The polling loop of `WaitForCondition` (and of `WaitForTaskStart` and
      `WaitForTaskFinish`): the condition is checked every 100 ms, one tick, for at most
      `timeoutTicks` delays; `cond(k)` is its value at poll `k`.  Exactly one of the three
      outcomes describes every input. */
  method WaitForCondition(cond: nat -> bool, timeoutTicks: nat, cancelTick: Option<nat>) returns (r: WaitOutcome)
    ensures r == Wait(cond, timeoutTicks, cancelTick)
    ensures r.Satisfied? <==> exists k :: 0 <= k <= timeoutTicks && cond(k)
                                          && (forall j :: 0 <= j < k ==> !cond(j) && !ThrowsAt(cancelTick, j))
    ensures r.Satisfied? ==> r.tick <= timeoutTicks && cond(r.tick)
                             && forall j :: 0 <= j < r.tick ==> !cond(j) && !ThrowsAt(cancelTick, j)
    ensures r.TimedOut? ==> forall j :: 0 <= j <= timeoutTicks ==> !cond(j) && (j < timeoutTicks ==> !ThrowsAt(cancelTick, j))
    ensures r.Cancelled? ==> r.tick < timeoutTicks && ThrowsAt(cancelTick, r.tick)
                             && forall j :: 0 <= j <= r.tick ==> !cond(j) && (j < r.tick ==> !ThrowsAt(cancelTick, j))
  {
    var k := 0;
    while !cond(k) && k < timeoutTicks
      invariant 0 <= k <= timeoutTicks
      invariant forall j :: 0 <= j < k ==> !cond(j) && !ThrowsAt(cancelTick, j)
      invariant WaitFrom(cond, timeoutTicks, cancelTick, k) == Wait(cond, timeoutTicks, cancelTick)
    {
      if ThrowsAt(cancelTick, k) {
        return Cancelled(k);
      }
      k := k + 1;
    }
    if !cond(k) {
      return TimedOut;
    }
    r := Satisfied(k);
  }

  // ----- Microphone ring buffer -----

  /** `CalculateAudioBufferLength` (and the same expression inline): the number of
      samples from `last` up to `cur` in a looping clip of `clipSamples` samples. */
  function BufferLength(cur: int, last: int, clipSamples: int): int {
    if cur > last then cur - last else clipSamples - last + cur
  }

  /** For two distinct positions inside the clip the length is between 1 and
      `clipSamples - 1`, and advancing `last` by it around the clip reaches `cur`. */
  lemma BufferLengthWraps(cur: int, last: int, clipSamples: int)
    requires 0 <= cur < clipSamples && 0 <= last < clipSamples && cur != last
    ensures var n := BufferLength(cur, last, clipSamples);
      1 <= n <= clipSamples - 1 && (last + n) % clipSamples == cur
  {
    var n := BufferLength(cur, last, clipSamples);
    if cur < last {
      assert last + n == cur + clipSamples;
    }
  }

  // ----- Microphone polling send rule -----

  /** A send: `length` samples of the clip from position `start`. */
  datatype AudioRange = AudioRange(start: int, length: int)

  /** The polling state: the last position sent up to, and the sends so far. */
  datatype Poll = Poll(lastPosition: int, sent: seq<AudioRange>)

  /** One poll at clip position `cur`: when it differs from the last position and at
      least `minLength` samples lie between them, they are sent and the last position
      moves to `cur`; otherwise nothing changes. */
  function PollStep(clipSamples: int, minLength: int, p: Poll, cur: int): (r: Poll)
    ensures |r.sent| == |p.sent| || |r.sent| == |p.sent| + 1
    ensures r.sent[..|p.sent|] == p.sent
    ensures |r.sent| == |p.sent| <==> r == p
    ensures |r.sent| == |p.sent| + 1 ==>
              r.lastPosition == cur != p.lastPosition
              && r.sent[|p.sent|] == AudioRange(p.lastPosition, BufferLength(cur, p.lastPosition, clipSamples))
              && r.sent[|p.sent|].length >= minLength
  {
    if cur != p.lastPosition && BufferLength(cur, p.lastPosition, clipSamples) >= minLength then
      Poll(cur, p.sent + [AudioRange(p.lastPosition, BufferLength(cur, p.lastPosition, clipSamples))])
    else p
  }

  /** The polling state after polls at `positions`, in order. */
  function PollAll(clipSamples: int, minLength: int, p: Poll, positions: seq<int>): Poll {
    if positions == [] then p
    else PollStep(clipSamples, minLength, PollAll(clipSamples, minLength, p, positions[..|positions| - 1]), positions[|positions| - 1])
  }

  /** The ranges `sent` follow one another around the clip: the first starts at `first`,
      each starts where the one before it ends, and the last ends at `last`. */
  predicate Chained(clipSamples: int, first: int, sent: seq<AudioRange>, last: int)
    requires clipSamples > 0
  {
    if sent == [] then first == last
    else
      var r := sent[|sent| - 1];
      Chained(clipSamples, first, sent[..|sent| - 1], r.start) && (r.start + r.length) % clipSamples == last
  }

  /** While every polled position lies inside the clip, the send rule neither skips nor
      repeats audio: the sends are chained from the starting position to the last
      position, and each has at least `minLength` samples and between 1 and
      `clipSamples - 1`. */
  lemma {:induction false} PollAllChained(clipSamples: int, minLength: int, first: int, positions: seq<int>)
    requires 0 <= first < clipSamples
    requires forall i :: 0 <= i < |positions| ==> 0 <= positions[i] < clipSamples
    ensures var p := PollAll(clipSamples, minLength, Poll(first, []), positions);
      && 0 <= p.lastPosition < clipSamples
      && Chained(clipSamples, first, p.sent, p.lastPosition)
      && forall i :: 0 <= i < |p.sent| ==> minLength <= p.sent[i].length && 1 <= p.sent[i].length <= clipSamples - 1
  {
    if positions != [] {
      var init := positions[..|positions| - 1];
      var cur := positions[|positions| - 1];
      PollAllChained(clipSamples, minLength, first, init);
      var p := PollAll(clipSamples, minLength, Poll(first, []), init);
      var q := PollStep(clipSamples, minLength, p, cur);
      if q != p {
        BufferLengthWraps(cur, p.lastPosition, clipSamples);
        assert q.sent[..|q.sent| - 1] == p.sent;
      }
    }
  }

  // ----- Text reconstruction -----

  /** Each word's text then its punctuation, in order; a null part appends nothing. */
  function WordsText(words: seq<Word>): string {
    if words == [] then ""
    else
      var w := words[|words| - 1];
      WordsText(words[..|words| - 1]) + w.text.GetOr("") + w.punctuation.GetOr("")
  }

  /** Reconstruction is compositional: the text of `a + b` is the text of `a` followed
      by the text of `b`. */
  lemma {:induction false} WordsTextAppend(a: seq<Word>, b: seq<Word>)
    ensures WordsText(a + b) == WordsText(a) + WordsText(b)
  {
    if b == [] {
      assert a + b == a;
    } else {
      WordsTextAppend(a, b[..|b| - 1]);
      assert (a + b)[..|a + b| - 1] == a + b[..|b| - 1];
    }
  }

  /** The length of the reconstructed text is the sum of the parts' lengths. */
  function PartsLength(words: seq<Word>): nat {
    if words == [] then 0
    else
      var w := words[|words| - 1];
      PartsLength(words[..|words| - 1]) + |w.text.GetOr("")| + |w.punctuation.GetOr("")|
  }

  lemma {:induction false} WordsTextLength(words: seq<Word>)
    ensures |WordsText(words)| == PartsLength(words)
  {
    if words != [] {
      WordsTextLength(words[..|words| - 1]);
    }
  }

  // ----- PCM packing -----

  newtype byte = x: int | 0 <= x < 256

  /** A signed 16-bit sample, the result of `(short)(sample * short.MaxValue)`. */
  newtype Int16 = x: int | -32768 <= x < 32768

  /** The two bytes `BitConverter.GetBytes(short)` yields, little-endian, two's complement. */
  function LowByte(v: Int16): byte {
    (Unsigned(v) % 256) as byte
  }

  function HighByte(v: Int16): byte {
    (Unsigned(v) / 256) as byte
  }

  /** The 16 bits of `v` read as an unsigned number. */
  function Unsigned(v: Int16): (u: int)
    ensures 0 <= u < 65536
  {
    if v < 0 then (v as int) + 65536 else v as int
  }

  /** Reads a little-endian two's-complement 16-bit value back from its two bytes. */
  function FromBytes(lo: byte, hi: byte): int {
    var u := (hi as int) * 256 + (lo as int);
    if u >= 32768 then u - 65536 else u
  }

  /** The packing loses nothing: the two bytes of a sample decode to the sample. */
  lemma BytesRoundTrip(v: Int16)
    ensures FromBytes(LowByte(v), HighByte(v)) == v as int
  {
    var u := Unsigned(v);
    assert (HighByte(v) as int) * 256 + (LowByte(v) as int) == u;
  }

  /** `ConvertSamplesToPcmBytes`: two bytes per sample, low byte first.  The conversion
      of a float sample to a 16-bit value is the parameter `quantize`. */
  method ConvertSamplesToPcmBytes(samples: seq<real>, quantize: real -> Int16) returns (pcm: array<byte>)
    ensures fresh(pcm) && pcm.Length == 2 * |samples|
    ensures forall i :: 0 <= i < |samples| ==>
              pcm[2 * i] == LowByte(quantize(samples[i])) && pcm[2 * i + 1] == HighByte(quantize(samples[i]))
  {
    pcm := new byte[2 * |samples|];
    var byteIndex := 0;
    for i := 0 to |samples|
      invariant byteIndex == 2 * i
      invariant forall j :: 0 <= j < i ==>
                  pcm[2 * j] == LowByte(quantize(samples[j])) && pcm[2 * j + 1] == HighByte(quantize(samples[j]))
    {
      var intSample := quantize(samples[i]);
      pcm[byteIndex] := LowByte(intSample);
      byteIndex := byteIndex + 1;
      pcm[byteIndex] := HighByte(intSample);
      byteIndex := byteIndex + 1;
    }
  }
}

=== FILE: asr_legacy.dfy ===
module AsrLegacy {
  // The first recognition client (`AsrController` under Scripts/Modules): it polls the
  // microphone clip's write position, sends the samples between the last sent position
  // and the current one once there are at least 1024 of them, and dispatches the
  // server's task events.  The clip is a loop of `clipSamples` samples; an audio send is
  // recorded as the range of clip positions it reads.

  import opened Wrappers
  import opened Text
  import opened AsrCommon

  const MinChunkSize := 1024
  /** The start acknowledgement is awaited 10 s and the finish 30 s, in 100 ms ticks. */
  const StartTimeoutTicks := 100
  const FinishTimeoutTicks := 300
  const ConnectTimeoutTicks := 100

  const MicrophoneUnavailableMessage := "麦克风设备不可用"
  const ConnectTimeoutMessage := "WebSocket连接超时"
  const TimedOutSuffix := "超时"
  const StartDescription := "等待任务启动"
  const FinishDescription := "等待任务完成"
  const TaskFailedMessage := "ASR任务失败"
  const NetworkFailedMessage := "网络连接失败"

  /** `FormatUserFriendlyError`. */
  function FormatUserFriendlyError(e: Exception): string {
    match e
    case TimeoutError(_) => "连接超时，请检查网络"
    case InvalidOperation(_) => "设备错误，请重试"
    case _ => "处理失败，请重试"
  }

  /** The events the controller raises. */
  datatype LegacyEvent = RecognitionStreaming(text: string) | ErrorRaised(message: string)

  // ----- Text reconstruction -----

  /** `ReconstructTextFromWords`: empty when the sentence or its word list is missing,
      otherwise each word's text then its punctuation, trimmed. */
  function ReconstructTextFromWords(sentence: Option<Sentence>): (r: string)
    ensures sentence.None? || sentence.value.words.None? ==> r == ""
    ensures r != [] ==> !IsWhiteSpace(r[0]) && !IsWhiteSpace(r[|r| - 1])
    ensures sentence.Some? && sentence.value.words.Some?
            ==> (r == [] <==> IsBlank(WordsText(sentence.value.words.value)))
  {
    if sentence.None? || sentence.value.words.None? then ""
    else
      TrimProperties(WordsText(sentence.value.words.value));
      Trim(WordsText(sentence.value.words.value))
  }

  /** Reconstructing twice changes nothing: a reconstructed text, as the text of a single
      word, reconstructs to itself. */
  lemma ReconstructIsStable(sentence: Option<Sentence>)
    ensures var r := ReconstructTextFromWords(sentence);
      ReconstructTextFromWords(Some(Sentence(None, None, None, Some([Word(Some(r), None)]), false))) == r
  {
    var r := ReconstructTextFromWords(sentence);
    var single := [Word(Some(r), None)];
    assert WordsText(single) == WordsText(single[..0]) + r + "";
    assert WordsText(single) == r;
    TrimOfTrimmed(r);
  }

  /** When the pipeline's steps find their signals: ticks at which the socket opens, the
      start and the finish are acknowledged, and at which `StopRecognition` is called
      during those waits; whether the clip is recording; the clip position at the start
      of streaming and at each poll, the last poll being the one after which recognition
      is stopped. */
  datatype LegacyEnvironment = LegacyEnvironment(
    micRecording: bool,
    openTick: Option<nat>,
    connectStop: Option<nat>,
    startedTick: Option<nat>,
    startStop: Option<nat>,
    initialPosition: int,
    positions: seq<int>,
    finishedTick: Option<nat>,
    finishStop: Option<nat>)

  /** The pipeline's wait for the socket to open; `cancelled` says whether cancellation
      was requested before it. */
  function ConnectWait(env: LegacyEnvironment, cancelled: bool): WaitOutcome {
    Wait(ArrivedBy(false, env.openTick), ConnectTimeoutTicks, if cancelled then Some(0) else env.connectStop)
  }

  /** The pipeline's wait for `task-started`, which validation has just reset. */
  function StartWait(env: LegacyEnvironment, cancelled: bool): WaitOutcome {
    Wait(ArrivedBy(false, env.startedTick), StartTimeoutTicks, if cancelled then Some(0) else env.startStop)
  }

  /** `AsrController` (Scripts/Modules). */
  class LegacyAsrController {
    const clipSamples: int
    var isProcessing: bool
    var isTaskStarted: bool
    var isTaskFinished: bool
    var lastFinalTranscript: string
    var hasCts: bool
    var cancelRequested: bool
    var socket: SocketState
    var events: seq<LegacyEvent>
    var audioSent: seq<AudioRange>
    var commandsSent: seq<string>

    constructor(clipSamples: int)
      ensures this.clipSamples == clipSamples && !isProcessing && !hasCts && socket == NoSocket
      ensures events == [] && audioSent == [] && commandsSent == [] && lastFinalTranscript == ""
    {
      this.clipSamples := clipSamples;
      isProcessing := false;
      isTaskStarted := false;
      isTaskFinished := false;
      lastFinalTranscript := "";
      hasCts := false;
      cancelRequested := false;
      socket := NoSocket;
      events := [];
      audioSent := [];
      commandsSent := [];
    }

    /** `StartRecognition`: ignored while a pipeline runs; otherwise the pipeline starts
        with a fresh cancellation source. */
    method StartRecognition()
      modifies this
      ensures old(isProcessing) ==> hasCts == old(hasCts) && cancelRequested == old(cancelRequested)
      ensures !old(isProcessing) ==> hasCts && !cancelRequested
      ensures isProcessing
      ensures events == old(events) && audioSent == old(audioSent) && commandsSent == old(commandsSent)
      ensures socket == old(socket) && isTaskStarted == old(isTaskStarted) && isTaskFinished == old(isTaskFinished)
      ensures lastFinalTranscript == old(lastFinalTranscript)
    {
      if isProcessing {
        return;
      }
      isProcessing := true;
      hasCts := true;
      cancelRequested := false;
    }

    /** `StopRecognition`: cancels the current pipeline, if any. */
    method StopRecognition()
      modifies this
      ensures cancelRequested == (old(cancelRequested) || hasCts) && hasCts == old(hasCts)
      ensures isProcessing == old(isProcessing) && socket == old(socket)
      ensures isTaskStarted == old(isTaskStarted) && isTaskFinished == old(isTaskFinished)
      ensures events == old(events) && audioSent == old(audioSent) && commandsSent == old(commandsSent)
      ensures lastFinalTranscript == old(lastFinalTranscript)
    {
      if hasCts {
        cancelRequested := true;
      }
    }

    /** `ValidateAndInitialize`: resets the flags and the transcript, then fails when the
        spotter's clip is missing or not recording. */
    method ValidateAndInitialize(micRecording: bool) returns (r: Result<(), Exception>)
      modifies this
      ensures !isTaskStarted && !isTaskFinished && lastFinalTranscript == ""
      ensures r.Failure? <==> !micRecording
      ensures r.Failure? ==> r.error == InvalidOperation(MicrophoneUnavailableMessage)
      ensures isProcessing == old(isProcessing) && hasCts == old(hasCts) && cancelRequested == old(cancelRequested)
      ensures socket == old(socket) && events == old(events) && audioSent == old(audioSent)
      ensures commandsSent == old(commandsSent)
    {
      lastFinalTranscript := "";
      isTaskStarted := false;
      isTaskFinished := false;
      if !micRecording {
        return Failure(InvalidOperation(MicrophoneUnavailableMessage));
      }
      r := Success(());
    }

    function StopTick(external: Option<nat>): Option<nat>
      reads this
    {
      if cancelRequested then Some(0) else external
    }

    /** `EstablishWebSocketConnection`: waits up to 10 s for the socket to open. */
    method EstablishWebSocketConnection(openTick: Option<nat>, stop: Option<nat>) returns (r: Result<(), Exception>)
      modifies this
      ensures var w := Wait(ArrivedBy(false, openTick), ConnectTimeoutTicks, old(StopTick(stop)));
        && r == WaitResult(w, TimeoutError(ConnectTimeoutMessage))
        && socket == (if w.Satisfied? then Open else Connecting)
      ensures isProcessing == old(isProcessing) && hasCts == old(hasCts) && cancelRequested == old(cancelRequested)
      ensures isTaskStarted == old(isTaskStarted) && isTaskFinished == old(isTaskFinished)
      ensures events == old(events) && audioSent == old(audioSent) && commandsSent == old(commandsSent)
      ensures lastFinalTranscript == old(lastFinalTranscript)
    {
      socket := Connecting;
      var w := WaitForCondition(ArrivedBy(false, openTick), ConnectTimeoutTicks, StopTick(stop));
      if w.Satisfied? {
        socket := Open;
        r := Success(());
      } else if w.TimedOut? {
        r := Failure(TimeoutError(ConnectTimeoutMessage));
      } else {
        r := Failure(OperationCanceled);
      }
    }

    /** `StartAsrTask`: sends `run-task` and waits up to 10 s for `task-started`. */
    method StartAsrTask(startedTick: Option<nat>, stop: Option<nat>) returns (r: Result<(), Exception>)
      modifies this
      ensures commandsSent == old(commandsSent) + ["run-task"]
      ensures var w := Wait(ArrivedBy(old(isTaskStarted), startedTick),
                            StartTimeoutTicks, old(StopTick(stop)));
        && r == WaitResult(w, TimeoutError(StartDescription + TimedOutSuffix))
        && isTaskStarted == (old(isTaskStarted) || w.Satisfied?)
      ensures isProcessing == old(isProcessing) && hasCts == old(hasCts) && cancelRequested == old(cancelRequested)
      ensures socket == old(socket) && isTaskFinished == old(isTaskFinished)
      ensures events == old(events) && audioSent == old(audioSent)
      ensures lastFinalTranscript == old(lastFinalTranscript)
    {
      commandsSent := commandsSent + ["run-task"];
      var started := isTaskStarted;
      var w := WaitForCondition(ArrivedBy(started, startedTick),
                                StartTimeoutTicks, StopTick(stop));
      if w.Satisfied? {
        isTaskStarted := true;
        r := Success(());
      } else if w.TimedOut? {
        r := Failure(TimeoutError(StartDescription + TimedOutSuffix));
      } else {
        r := Failure(OperationCanceled);
      }
    }

    /** `FinishAsrTask`: sends `finish-task` and waits up to 30 s for the finished flag. */
    method FinishAsrTask(finishedTick: Option<nat>, stop: Option<nat>) returns (r: Result<(), Exception>)
      modifies this
      ensures commandsSent == old(commandsSent) + ["finish-task"]
      ensures var w := Wait(ArrivedBy(old(isTaskFinished), finishedTick),
                            FinishTimeoutTicks, old(StopTick(stop)));
        && r == WaitResult(w, TimeoutError(FinishDescription + TimedOutSuffix))
        && isTaskFinished == (old(isTaskFinished) || w.Satisfied?)
      ensures isProcessing == old(isProcessing) && hasCts == old(hasCts) && cancelRequested == old(cancelRequested)
      ensures socket == old(socket) && isTaskStarted == old(isTaskStarted)
      ensures events == old(events) && audioSent == old(audioSent)
      ensures lastFinalTranscript == old(lastFinalTranscript)
    {
      commandsSent := commandsSent + ["finish-task"];
      var finished := isTaskFinished;
      var w := WaitForCondition(ArrivedBy(finished, finishedTick),
                                FinishTimeoutTicks, StopTick(stop));
      if w.Satisfied? {
        isTaskFinished := true;
        r := Success(());
      } else if w.TimedOut? {
        r := Failure(TimeoutError(FinishDescription + TimedOutSuffix));
      } else {
        r := Failure(OperationCanceled);
      }
    }

    /** `StreamAudioData`: polls the clip position at each of `positions` and applies
        the send rule; a send reaches the socket only while it is open.  Recognition is
        stopped from outside during the 50 ms delay after the last poll, which throws, or
        before the first poll when there is none, in which case the loop is not entered. */
    method StreamAudioData(initialPosition: int, positions: seq<int>) returns (r: Result<(), Exception>)
      requires hasCts
      modifies this
      ensures cancelRequested && hasCts
      ensures r.Success? <==> old(cancelRequested) || positions == []
      ensures r.Failure? ==> r.error == OperationCanceled
      ensures audioSent == old(audioSent)
                           + (if old(cancelRequested) || socket != Open then []
                              else PollAll(clipSamples, MinChunkSize, Poll(initialPosition, []), positions).sent)
      ensures isProcessing == old(isProcessing) && socket == old(socket)
      ensures isTaskStarted == old(isTaskStarted) && isTaskFinished == old(isTaskFinished)
      ensures events == old(events) && commandsSent == old(commandsSent)
      ensures lastFinalTranscript == old(lastFinalTranscript)
    {
      if cancelRequested {
        return Success(());
      }
      if positions == [] {
        StopRecognition();
        return Success(());
      }
      var lastPosition := initialPosition;
      ghost var sent: seq<AudioRange> := [];
      var i := 0;
      while i < |positions|
        invariant 0 <= i <= |positions|
        invariant Poll(lastPosition, sent) == PollAll(clipSamples, MinChunkSize, Poll(initialPosition, []), positions[..i])
        invariant audioSent == old(audioSent) + (if socket == Open then sent else [])
        invariant !cancelRequested && hasCts
        invariant isProcessing == old(isProcessing) && socket == old(socket)
        invariant isTaskStarted == old(isTaskStarted) && isTaskFinished == old(isTaskFinished)
        invariant events == old(events) && commandsSent == old(commandsSent)
        invariant lastFinalTranscript == old(lastFinalTranscript)
      {
        var currentPosition := positions[i];
        assert positions[..i + 1][..i] == positions[..i];
        if currentPosition != lastPosition {
          var length := BufferLength(currentPosition, lastPosition, clipSamples);
          if length >= MinChunkSize {
            if socket == Open {
              audioSent := audioSent + [AudioRange(lastPosition, length)];
            }
            sent := sent + [AudioRange(lastPosition, length)];
            lastPosition := currentPosition;
          }
        }
        i := i + 1;
      }
      assert positions[..i] == positions;
      StopRecognition();
      r := Failure(OperationCanceled);
    }

    /** `HandleRecognitionResult`: a non-empty reconstructed text becomes the last
        transcript and is raised. */
    method HandleRecognitionResult(sentence: Option<Sentence>)
      modifies this
      ensures var text := ReconstructTextFromWords(sentence);
        && (text != "" ==> lastFinalTranscript == text && events == old(events) + [RecognitionStreaming(text)])
        && (text == "" ==> lastFinalTranscript == old(lastFinalTranscript) && events == old(events))
      ensures isTaskStarted == old(isTaskStarted) && isTaskFinished == old(isTaskFinished)
      ensures isProcessing == old(isProcessing) && socket == old(socket)
      ensures hasCts == old(hasCts) && cancelRequested == old(cancelRequested)
      ensures audioSent == old(audioSent) && commandsSent == old(commandsSent)
    {
      var recognizedText := ReconstructTextFromWords(sentence);
      if !IsNullOrEmpty(Some(recognizedText)) {
        lastFinalTranscript := recognizedText;
        events := events + [RecognitionStreaming(recognizedText)];
      }
    }

    /** `HandleWebSocketMessage`, given the parsed message (None when it is not valid
        JSON, which the handler catches). */
    method HandleWebSocketMessage(message: Option<ServerMessage>)
      modifies this
      ensures var ev := if message.Some? && message.value.header.Some? then message.value.header.value.event else None;
        && isTaskStarted == (old(isTaskStarted) || ev == Some("task-started"))
        && isTaskFinished == (old(isTaskFinished) || ev == Some("task-finished") || ev == Some("task-failed"))
        && (ev == Some("task-failed") ==> events == old(events) + [ErrorRaised(message.value.header.value.errorMessage.GetOr(TaskFailedMessage))]
                                          && lastFinalTranscript == old(lastFinalTranscript))
        && (ev != Some("task-failed") && ev != Some("result-generated") && ev != Some("task-finished")
            ==> events == old(events) && lastFinalTranscript == old(lastFinalTranscript))
        && ((ev == Some("result-generated") || ev == Some("task-finished"))
            ==> var text := ReconstructTextFromWords(message.value.sentence);
                events == old(events) + (if text != "" then [RecognitionStreaming(text)] else [])
                && lastFinalTranscript == (if text != "" then text else old(lastFinalTranscript)))
      ensures isProcessing == old(isProcessing) && socket == old(socket)
      ensures hasCts == old(hasCts) && cancelRequested == old(cancelRequested)
      ensures audioSent == old(audioSent) && commandsSent == old(commandsSent)
    {
      if message.None? || message.value.header.None? {
        return;
      }
      var header := message.value.header.value;
      if header.event == Some("task-started") {
        isTaskStarted := true;
      } else if header.event == Some("result-generated") || header.event == Some("task-finished") {
        if header.event == Some("task-finished") {
          isTaskFinished := true;
        }
        HandleRecognitionResult(message.value.sentence);
      } else if header.event == Some("task-failed") {
        isTaskFinished := true;
        events := events + [ErrorRaised(header.errorMessage.GetOr(TaskFailedMessage))];
      }
    }

    /** The socket's error callback. */
    method HandleSocketError()
      modifies this
      ensures events == old(events) + [ErrorRaised(NetworkFailedMessage)] && isTaskFinished
      ensures isTaskStarted == old(isTaskStarted) && isProcessing == old(isProcessing) && socket == old(socket)
      ensures cancelRequested == old(cancelRequested) && hasCts == old(hasCts)
      ensures audioSent == old(audioSent) && commandsSent == old(commandsSent)
      ensures lastFinalTranscript == old(lastFinalTranscript)
    {
      events := events + [ErrorRaised(NetworkFailedMessage)];
      isTaskFinished := true;
    }

    /** `ExecuteRecognitionPipeline`: validate, connect, start, stream, finish; the first
        failure ends it, and the steps after it leave no trace.  With `c` the cancellation
        state on entry, the connection and start waits are `ConnectWait(env, c)` and
        `StartWait(env, c)`.  Streaming ends only once recognition is stopped, so the
        finish step, when reached, runs with cancellation already requested: it succeeds
        only if `task-finished` is seen at its first poll and is cancelled otherwise, and
        never times out. */
    method ExecuteRecognitionPipeline(env: LegacyEnvironment) returns (r: Result<(), Exception>)
      requires hasCts
      modifies this
      ensures hasCts && isProcessing == old(isProcessing)
      ensures r.Success? ==> isTaskStarted && isTaskFinished && cancelRequested
      ensures |commandsSent| == |old(commandsSent)| + 2 ==> cancelRequested
      ensures r.Failure? && !r.error.IsCancellation() ==> r.error.TimeoutError? || r.error.InvalidOperation?
      ensures !env.micRecording
              ==> r == Failure(InvalidOperation(MicrophoneUnavailableMessage)) && !isTaskStarted && !isTaskFinished
                  && socket == old(socket) && commandsSent == old(commandsSent)
                  && audioSent == old(audioSent) && events == old(events)
      ensures var cw := ConnectWait(env, old(cancelRequested));
              env.micRecording && !cw.Satisfied?
              ==> r == WaitResult(cw, TimeoutError(ConnectTimeoutMessage)) && !isTaskStarted
                  && socket == Connecting && commandsSent == old(commandsSent)
                  && audioSent == old(audioSent) && events == old(events)
      ensures var cw := ConnectWait(env, old(cancelRequested));
              var sw := StartWait(env, old(cancelRequested));
              env.micRecording && cw.Satisfied? && !sw.Satisfied?
              ==> r == WaitResult(sw, TimeoutError(StartDescription + TimedOutSuffix)) && !isTaskStarted
                  && socket == Open && commandsSent == old(commandsSent) + ["run-task"]
                  && audioSent == old(audioSent) && events == old(events)
      ensures var cw := ConnectWait(env, old(cancelRequested));
              var sw := StartWait(env, old(cancelRequested));
              var streamed := old(cancelRequested) || env.positions == [];
              env.micRecording && cw.Satisfied? && sw.Satisfied?
              ==> socket == Open && isTaskStarted && cancelRequested && events == old(events)
                  && audioSent == old(audioSent)
                                  + (if old(cancelRequested) then []
                                     else PollAll(clipSamples, MinChunkSize, Poll(env.initialPosition, []), env.positions).sent)
                  && commandsSent == old(commandsSent) + (if streamed then ["run-task", "finish-task"] else ["run-task"])
                  && r == (if streamed && env.finishedTick == Some(0) then Success(()) else Failure(OperationCanceled))
    {
      ghost var c := cancelRequested;
      r := ValidateAndInitialize(env.micRecording);
      if r.Failure? {
        return;
      }
      r := EstablishWebSocketConnection(env.openTick, env.connectStop);
      assert r == WaitResult(ConnectWait(env, c), TimeoutError(ConnectTimeoutMessage));
      if r.Failure? {
        return;
      }
      ghost var commands := commandsSent;
      r := StartAsrTask(env.startedTick, env.startStop);
      assert r == WaitResult(StartWait(env, c), TimeoutError(StartDescription + TimedOutSuffix));
      assert commandsSent == commands + ["run-task"];
      if r.Failure? {
        return;
      }
      r := StreamAudioData(env.initialPosition, env.positions);
      if r.Failure? {
        return;
      }
      assert !isTaskFinished && cancelRequested;
      WaitAfterCancelReturnsAtOnce(ArrivedBy(false, env.finishedTick), FinishTimeoutTicks);
      r := FinishAsrTask(env.finishedTick, env.finishStop);
      assert commandsSent == commands + ["run-task", "finish-task"];
    }

    /** `StartStreamingAsync` after its prologue: a failure that is not a cancellation
        is reported as a user-friendly error; in every case the processing flag is
        cleared and the socket dropped. */
    method RunRecognition(env: LegacyEnvironment) returns (outcome: Result<(), Exception>)
      requires isProcessing && hasCts
      modifies this
      ensures !isProcessing && socket == NoSocket
      ensures outcome.Failure? && !outcome.error.IsCancellation()
              ==> |events| > 0 && events[|events| - 1] == ErrorRaised(FormatUserFriendlyError(outcome.error))
    {
      outcome := ExecuteRecognitionPipeline(env);
      if outcome.Failure? && !outcome.error.IsCancellation() {
        events := events + [ErrorRaised(FormatUserFriendlyError(outcome.error))];
      }
      isProcessing := false;
      socket := NoSocket;
    }
  }
}

=== FILE: asr_runtime.dfy ===
module AsrRuntime {
  // The current recognition client (`VAI.AsrController` under Runtime): it reads the
  // keyword spotter's sample queue from the wake point on, streams it in chunks of 1024
  // samples, stops on silence or when the recording is too long, and dispatches the
  // server's task events.  Socket I/O is replaced by the socket's state and the list of
  // chunks sent; time is counted in samples at 16 kHz (streaming) or in 100 ms ticks
  // (waits).

  import opened Wrappers
  import opened Text
  import opened AsrCommon
  import opened SampleBuffer

  const ChunkSize := 1024
  /** `Task.Delay(50)` when no audio is pending: 0.05 s, i.e. 800 samples at 16 kHz. */
  const IdleWaitSamples := 800
  /** The connection wait and the start acknowledgement wait: 10 s of 100 ms ticks. */
  const ConnectTimeoutTicks := 100
  const StartTimeoutTicks := 100

  const ApiKeyMissingMessage := "API Key not found, please add DASHSCOPE_API_KEY to environment variables"
  const MicrophoneUnavailableMessage := "Microphone device is not available."
  const ConnectTimeoutMessage := "WebSocket connection timed out."
  const StartTimeoutMessage := "Waiting for task to start timed out."
  const FinishTimeoutMessage := "Waiting for task to finish timed out."
  const TaskFailedMessage := "ASR task failed"
  const NetworkFailedMessage := "Network connection failed."

  /** The events the controller raises (through the main-thread dispatcher or directly). */
  datatype AsrEvent =
    | RecognitionStreaming(sentence: Sentence)
    | ErrorRaised(message: string)
    | SilenceTimeoutRaised
    | MaxRecordingTimeRaised

  /** `FormatUserFriendlyError`. */
  function FormatUserFriendlyError(e: Exception): string {
    match e
    case TimeoutError(_) => "Connection timed out, please check your network."
    case InvalidOperation(_) => "Device error, please try again."
    case _ => "Processing failed, please try again."
  }

  // ----- Chunking -----

  /** The audio sent so far extends `before` by chunks of 1 to 1024 samples, and only
      when the socket is open. */
  predicate SentAfter(before: seq<seq<real>>, after: seq<seq<real>>, open: bool) {
    && |after| >= |before| && after[..|before|] == before
    && (!open ==> after == before)
    && (forall i :: |before| <= i < |after| ==> 1 <= |after[i]| <= ChunkSize)
  }

  /** Sending the first `k` chunks of some data, when the socket is open, is sending
      chunks of 1 to 1024 samples. */
  lemma SentChunks(before: seq<seq<real>>, data: seq<real>, k: nat, open: bool)
    requires k <= |Chunks(data)|
    ensures SentAfter(before, before + (if open then Chunks(data)[..k] else []), open)
  {
    var after := before + (if open then Chunks(data)[..k] else []);
    assert after[..|before|] == before;
    forall i | |before| <= i < |after|
      ensures 1 <= |after[i]| <= ChunkSize
    {
      assert after[i] == Chunks(data)[i - |before|];
    }
  }

  /** Sending in two stretches is sending in one. */
  lemma SentAfterTrans(a: seq<seq<real>>, b: seq<seq<real>>, c: seq<seq<real>>, open: bool)
    requires SentAfter(a, b, open) && SentAfter(b, c, open)
    ensures SentAfter(a, c, open)
  {
    assert c[..|a|] == c[..|b|][..|a|];
    forall i | |a| <= i < |b|
      ensures 1 <= |c[i]| <= ChunkSize
    {
      assert c[i] == c[..|b|][i];
    }
  }

  function ChunkCount(n: nat): nat {
    (n + ChunkSize - 1) / ChunkSize
  }

  /** Chunk `i` exists exactly when it starts inside the data. */
  lemma ChunkCountSpec(n: nat, i: nat)
    ensures i < ChunkCount(n) <==> i * ChunkSize < n
  {
    var q := ChunkCount(n);
    assert q * ChunkSize <= n + ChunkSize - 1 < (q + 1) * ChunkSize;
    if i < q {
      assert i * ChunkSize <= (q - 1) * ChunkSize;
    } else {
      assert i * ChunkSize >= q * ChunkSize;
    }
  }

  /** The `i`-th chunk the send loop cuts from `data`. */
  function ChunkAt(data: seq<real>, i: nat): (r: seq<real>)
    requires i < ChunkCount(|data|)
    ensures 1 <= |r| <= ChunkSize
  {
    data[i * ChunkSize .. Min((i + 1) * ChunkSize, |data|)]
  }

  /** The chunks of `data`, in order. */
  function Chunks(data: seq<real>): (r: seq<seq<real>>)
    ensures |r| == ChunkCount(|data|)
    ensures forall i :: 0 <= i < |r| ==> r[i] == ChunkAt(data, i)
  {
    seq(ChunkCount(|data|), i requires 0 <= i < ChunkCount(|data|) => ChunkAt(data, i))
  }

  /** The samples of a list of chunks, in order. */
  function Flatten(cs: seq<seq<real>>): seq<real> {
    if cs == [] then [] else Flatten(cs[..|cs| - 1]) + cs[|cs| - 1]
  }

  /** The first `k` chunks hold exactly the first `min(k * 1024, |data|)` samples, in
      order: the chunks are contiguous and nothing is skipped or repeated. */
  lemma {:induction false} ChunksPrefix(data: seq<real>, k: nat)
    requires k <= ChunkCount(|data|)
    ensures Flatten(Chunks(data)[..k]) == data[..Min(k * ChunkSize, |data|)]
  {
    if k > 0 {
      var cs := Chunks(data);
      ChunksPrefix(data, k - 1);
      assert cs[..k][..k - 1] == cs[..k - 1];
      assert cs[..k][k - 1] == ChunkAt(data, k - 1);
      assert data[..Min(k * ChunkSize, |data|)]
             == data[..Min((k - 1) * ChunkSize, |data|)] + ChunkAt(data, k - 1);
    }
  }

  /** All the chunks together are the fetched data. */
  lemma ChunksCoverData(data: seq<real>)
    ensures Flatten(Chunks(data)) == data
  {
    var cs := Chunks(data);
    ChunksPrefix(data, |cs|);
    assert cs[..|cs|] == cs;
  }

  // ----- Silence counting -----

  /** `silenceThreshold`: a sample whose magnitude exceeds it is not silence. */
  const SilenceThreshold: real := 0.003

  predicate IsQuiet(v: real) {
    -SilenceThreshold <= v <= SilenceThreshold
  }

  /** Is every sample of the chunk within the silence threshold? */
  predicate AllQuiet(chunk: seq<real>) {
    forall i :: 0 <= i < |chunk| ==> IsQuiet(chunk[i])
  }

  /** The silence counter after one chunk: grown by the chunk's length when it is all
      quiet, reset otherwise. */
  function SilenceAfter(count: int, chunk: seq<real>): int {
    if AllQuiet(chunk) then count + |chunk| else 0
  }

  /** The silence counter after a list of chunks. */
  function SilenceAfterAll(count: int, chunks: seq<seq<real>>): int {
    if chunks == [] then count
    else SilenceAfter(SilenceAfterAll(count, chunks[..|chunks| - 1]), chunks[|chunks| - 1])
  }

  /** The silence counter just after chunk `j`. */
  function SilenceThrough(count: int, chunks: seq<seq<real>>, j: nat): int
    requires j < |chunks|
  {
    SilenceAfterAll(count, chunks[..j + 1])
  }

  /** The counter just after chunk `i` is the counter before it, updated by it. */
  lemma SilenceThroughStep(count: int, chunks: seq<seq<real>>, i: nat)
    requires i < |chunks|
    ensures SilenceThrough(count, chunks, i) == SilenceAfter(SilenceAfterAll(count, chunks[..i]), chunks[i])
  {
    assert chunks[..i + 1][..i] == chunks[..i];
  }

  /** The index of the first chunk after which the counter reaches `limit`, if any. */
  function FirstReaching(chunks: seq<seq<real>>, count: int, limit: int, from: nat := 0): (r: Option<nat>)
    requires from <= |chunks|
    ensures r.Some? ==> from <= r.value < |chunks| && SilenceThrough(count, chunks, r.value) >= limit
                        && forall j :: from <= j < r.value ==> SilenceThrough(count, chunks, j) < limit
    ensures r.None? ==> forall j :: from <= j < |chunks| ==> SilenceThrough(count, chunks, j) < limit
    decreases |chunks| - from
  {
    if from == |chunks| then None
    else if SilenceThrough(count, chunks, from) >= limit then Some(from)
    else FirstReaching(chunks, count, limit, from + 1)
  }

  /** `FirstReaching` from an index before which no chunk reaches the limit is
      `FirstReaching` from the start. */
  lemma {:induction false} FirstReachingSkips(chunks: seq<seq<real>>, count: int, limit: int, i: nat)
    requires i <= |chunks|
    requires forall j :: 0 <= j < i ==> SilenceThrough(count, chunks, j) < limit
    ensures FirstReaching(chunks, count, limit, i) == FirstReaching(chunks, count, limit)
    decreases i
  {
    if i > 0 {
      FirstReachingSkips(chunks, count, limit, i - 1);
    }
  }

  /** The first chunk to reach the limit is the one that does when none before it did. */
  lemma ReachedAt(chunks: seq<seq<real>>, count: int, limit: int, i: nat)
    requires i < |chunks| && SilenceThrough(count, chunks, i) >= limit
    requires forall j :: 0 <= j < i ==> SilenceThrough(count, chunks, j) < limit
    ensures FirstReaching(chunks, count, limit) == Some(i)
  {
    FirstReachingSkips(chunks, count, limit, i);
  }

  /** The silence scan of one chunk: stops at the first loud sample. */
  method IsSilentChunk(chunk: seq<real>) returns (isSilent: bool)
    ensures isSilent <==> AllQuiet(chunk)
  {
    isSilent := true;
    var i := 0;
    while i < |chunk|
      invariant 0 <= i <= |chunk|
      invariant forall j :: 0 <= j < i ==> IsQuiet(chunk[j])
    {
      if !IsQuiet(chunk[i]) {
        isSilent := false;
        return;
      }
      i := i + 1;
    }
  }

  /** One step of the chunk loop: the chunk that starts at `offset`, and the offset
      after it. */
  method CutChunk(data: seq<real>, offset: nat, i: nat) returns (chunk: seq<real>, next: nat)
    requires offset == Min(i * ChunkSize, |data|) && offset < |data|
    ensures i < ChunkCount(|data|) && chunk == Chunks(data)[i]
    ensures next == Min((i + 1) * ChunkSize, |data|) && offset < next
  {
    ChunkCountSpec(|data|, i);
    var sendLen := Min(ChunkSize, |data| - offset);
    chunk := data[offset..offset + sendLen];
    assert chunk == ChunkAt(data, i);
    next := offset + sendLen;
  }

  /** The silence counter update for one chunk. */
  method CountSilence(count: int, chunk: seq<real>) returns (r: int)
    ensures r == SilenceAfter(count, chunk)
  {
    var isSilent := IsSilentChunk(chunk);
    if isSilent {
      r := count + |chunk|;
    } else {
      r := 0;
    }
  }

  /** The chunk loop of `StreamAudioData` for one fetch: cuts `data` into chunks of at
      most 1024 samples and updates the silence counter per chunk; when the counter
      reaches `silenceSampleLimit` the loop stops before that chunk is sent.  `sent` is
      what goes on the socket when it is open; `sentSamples` what `elapsed` grows by. */
  method SendChunks(data: seq<real>, silence0: int, silenceSampleLimit: int)
    returns (sent: seq<seq<real>>, silence: int, sentSamples: nat, timedOut: bool)
    ensures var chunks := Chunks(data);
            var f := FirstReaching(chunks, silence0, silenceSampleLimit);
            var k := if f.Some? then f.value else |chunks|;
      && timedOut == f.Some?
      && sent == chunks[..k]
      && silence == SilenceAfterAll(silence0, chunks[..if f.Some? then k + 1 else k])
      && sentSamples == Min(k * ChunkSize, |data|)
      && (f.None? ==> sentSamples == |data|)
  {
    var chunks := Chunks(data);
    silence := silence0;
    timedOut := false;
    sent := [];
    var offset := 0;
    var i := 0;
    while offset < |data|
      invariant 0 <= i <= |chunks| && offset == Min(i * ChunkSize, |data|)
      invariant sent == chunks[..i]
      invariant silence == SilenceAfterAll(silence0, chunks[..i])
      invariant forall j :: 0 <= j < i ==> SilenceThrough(silence0, chunks, j) < silenceSampleLimit
      decreases |data| - offset
    {
      var chunk, next := CutChunk(data, offset, i);
      SilenceThroughStep(silence0, chunks, i);
      silence := CountSilence(silence, chunk);
      if silence >= silenceSampleLimit {
        timedOut := true;
        ReachedAt(chunks, silence0, silenceSampleLimit, i);
        sentSamples := offset;
        return;
      }
      assert chunks[..i + 1] == chunks[..i] + [chunk];
      sent := sent + [chunk];
      offset := next;
      i := i + 1;
    }
    ChunkCountSpec(|data|, i);
    assert chunks[..i] == chunks;
    FirstReachingSkips(chunks, silence0, silenceSampleLimit, i);
    sentSamples := offset;
  }

  /** A recognition result whose sentence carries text is raised to the listeners. */
  predicate Surfaced(sentence: Option<Sentence>) {
    sentence.Some? && !IsNullOrEmpty(sentence.value.text)
  }

  /** A raised sentence with an end time, or one that ends the sentence, also stops
      recognition. */
  predicate StopsOn(sentence: Option<Sentence>) {
    Surfaced(sentence) && (sentence.value.endTime.Some? || sentence.value.sentenceEnd)
  }

  /** Does `ValidateAndInitialize` throw?  `hasVad` says whether the spotter exists. */
  predicate ValidationFails(env: Environment, hasVad: bool) {
    IsNullOrEmpty(env.apiKey) || !hasVad || !env.micActive
  }

  /** The exception `ValidateAndInitialize` throws: the key is checked first. */
  function ValidationError(env: Environment): Exception {
    InvalidOperation(if IsNullOrEmpty(env.apiKey) then ApiKeyMissingMessage else MicrophoneUnavailableMessage)
  }

  /** The pipeline's wait for the socket to open; `cancelled` says whether cancellation
      was requested before it. */
  function ConnectWait(env: Environment, cancelled: bool): WaitOutcome {
    Wait(ArrivedBy(false, env.openTick), ConnectTimeoutTicks, if cancelled then Some(0) else env.connectStop)
  }

  /** The pipeline's wait for `task-started`, which validation has just reset. */
  function StartWait(env: Environment, cancelled: bool): WaitOutcome {
    Wait(ArrivedBy(false, env.startedTick), StartTimeoutTicks, if cancelled then Some(0) else env.startStop)
  }

  /** When the pipeline's steps find their signals: the tick at which the socket opens,
      the server acknowledges the start, or reports the finish (each counted from the
      start of its wait), the ticks at which `StopRecognition` is called from outside
      during those waits, the streaming round before which it is called, the API key in
      the environment and whether the microphone is active. */
  datatype Environment = Environment(
    apiKey: Option<string>,
    micActive: bool,
    openTick: Option<nat>,
    connectStop: Option<nat>,
    startedTick: Option<nat>,
    startStop: Option<nat>,
    streamStop: Option<nat>,
    finishedTick: Option<nat>,
    finishStop: Option<nat>)

  /** `VAI.AsrController` (Runtime).  `vad` is the keyword spotter whose sample queue is
      streamed; `hasCts` says whether a cancellation source exists and `cancelRequested`
      whether the current one was cancelled. */
  class AsrController {
    const vad: SherpaOnnxKeywords?
    /** `(int)(SilenceTimeoutSeconds * 16000)`. */
    const silenceSampleLimit: int
    /** `maxRecordingTime` in samples (streaming) and in ticks (finish wait). */
    const maxRecordingSamples: int
    const maxRecordingTicks: nat

    var isProcessing: bool
    var isTaskStarted: bool
    var isTaskFinished: bool
    var asrStartSampleIndex: int
    var lastSentSampleIndex: int
    var lastFinalTranscript: string
    var hasCts: bool
    var cancelRequested: bool
    var socket: SocketState
    /** Events raised, oldest first. */
    var events: seq<AsrEvent>
    /** Audio chunks sent on the socket, and the recognition task commands sent, in order. */
    var audioSent: seq<seq<real>>
    var commandsSent: seq<string>

    ghost predicate Valid()
      reads this, vad
    {
      (vad != null ==> vad.Valid())
      && asrStartSampleIndex >= 0 && lastSentSampleIndex >= 0
    }

    constructor(vad: SherpaOnnxKeywords?, silenceSampleLimit: int, maxRecordingSamples: int, maxRecordingTicks: nat)
      requires vad != null ==> vad.Valid()
      ensures Valid() && this.vad == vad && !isProcessing && !hasCts && socket == NoSocket
      ensures this.silenceSampleLimit == silenceSampleLimit && this.maxRecordingSamples == maxRecordingSamples
      ensures this.maxRecordingTicks == maxRecordingTicks
      ensures events == [] && audioSent == [] && commandsSent == [] && lastFinalTranscript == ""
    {
      this.vad := vad;
      this.silenceSampleLimit := silenceSampleLimit;
      this.maxRecordingSamples := maxRecordingSamples;
      this.maxRecordingTicks := maxRecordingTicks;
      isProcessing := false;
      isTaskStarted := false;
      isTaskFinished := false;
      asrStartSampleIndex := 0;
      lastSentSampleIndex := 0;
      lastFinalTranscript := "";
      hasCts := false;
      cancelRequested := false;
      socket := NoSocket;
      events := [];
      audioSent := [];
      commandsSent := [];
    }

    /** `StartRecognition`: ignored while a pipeline runs; otherwise both indices start
        at the spotter's current sample index (0 without a spotter) and the pipeline
        starts with a fresh cancellation source. */
    method StartRecognition()
      requires Valid()
      modifies this
      ensures Valid()
      ensures old(isProcessing) ==> isProcessing && asrStartSampleIndex == old(asrStartSampleIndex)
                                    && lastSentSampleIndex == old(lastSentSampleIndex)
                                    && hasCts == old(hasCts) && cancelRequested == old(cancelRequested)
      ensures !old(isProcessing) ==> isProcessing && hasCts && !cancelRequested
                                     && asrStartSampleIndex == (if vad != null then vad.CurrentSampleIndex() else 0)
                                     && lastSentSampleIndex == asrStartSampleIndex
      ensures events == old(events) && audioSent == old(audioSent) && commandsSent == old(commandsSent)
      ensures socket == old(socket) && isTaskStarted == old(isTaskStarted) && isTaskFinished == old(isTaskFinished)
      ensures lastFinalTranscript == old(lastFinalTranscript)
    {
      if isProcessing {
        return;
      }
      asrStartSampleIndex := if vad != null then vad.CurrentSampleIndex() else 0;
      lastSentSampleIndex := asrStartSampleIndex;
      isProcessing := true;
      hasCts := true;
      cancelRequested := false;
    }

    /** `StopRecognition`: cancels the current pipeline, if any, and clears the
        spotter's sample queue. */
    method StopRecognition()
      requires Valid()
      modifies this, vad
      ensures Valid()
      ensures cancelRequested == (old(cancelRequested) || hasCts) && hasCts == old(hasCts)
      ensures vad != null ==> vad.written == [] && vad.totalSampleCount == 0 && vad.hasClip == old(vad.hasClip)
      ensures isProcessing == old(isProcessing) && socket == old(socket)
      ensures isTaskStarted == old(isTaskStarted) && isTaskFinished == old(isTaskFinished)
      ensures events == old(events) && audioSent == old(audioSent) && commandsSent == old(commandsSent)
      ensures lastSentSampleIndex == old(lastSentSampleIndex) && asrStartSampleIndex == old(asrStartSampleIndex)
      ensures lastFinalTranscript == old(lastFinalTranscript)
    {
      if hasCts {
        cancelRequested := true;
      }
      if vad != null {
        vad.ClearAudioBuffer();
      }
    }

    /** `ValidateAndInitialize`: resets the flags and the transcript, then fails when the
        API key is missing or the microphone is not active. */
    method ValidateAndInitialize(apiKey: Option<string>, micActive: bool) returns (r: Result<(), Exception>)
      modifies this
      ensures !isTaskStarted && !isTaskFinished && lastFinalTranscript == ""
      ensures r.Failure? <==> IsNullOrEmpty(apiKey) || vad == null || !micActive
      ensures r.Failure? ==> r.error == InvalidOperation(
                if IsNullOrEmpty(apiKey) then ApiKeyMissingMessage else MicrophoneUnavailableMessage)
      ensures isProcessing == old(isProcessing) && hasCts == old(hasCts) && cancelRequested == old(cancelRequested)
      ensures socket == old(socket) && events == old(events) && audioSent == old(audioSent)
      ensures commandsSent == old(commandsSent) && lastSentSampleIndex == old(lastSentSampleIndex)
      ensures asrStartSampleIndex == old(asrStartSampleIndex)
    {
      lastFinalTranscript := "";
      isTaskStarted := false;
      isTaskFinished := false;
      if IsNullOrEmpty(apiKey) {
        return Failure(InvalidOperation(ApiKeyMissingMessage));
      }
      if vad == null || !micActive {
        return Failure(InvalidOperation(MicrophoneUnavailableMessage));
      }
      r := Success(());
    }

    /** The cancellation tick a wait sees: 0 when the source is already cancelled. */
    function StopTick(external: Option<nat>): Option<nat>
      reads this
    {
      if cancelRequested then Some(0) else external
    }

    /** `EstablishWebSocketConnection`: waits up to 10 s for the socket to open. */
    method EstablishWebSocketConnection(openTick: Option<nat>, stop: Option<nat>) returns (r: Result<(), Exception>)
      modifies this
      ensures var w := Wait(ArrivedBy(false, openTick), ConnectTimeoutTicks, old(StopTick(stop)));
        && r == WaitResult(w, TimeoutError(ConnectTimeoutMessage))
        && socket == (if w.Satisfied? then Open else Connecting)
      ensures isProcessing == old(isProcessing) && hasCts == old(hasCts) && cancelRequested == old(cancelRequested)
      ensures isTaskStarted == old(isTaskStarted) && isTaskFinished == old(isTaskFinished)
      ensures events == old(events) && audioSent == old(audioSent) && commandsSent == old(commandsSent)
      ensures lastSentSampleIndex == old(lastSentSampleIndex) && asrStartSampleIndex == old(asrStartSampleIndex)
      ensures lastFinalTranscript == old(lastFinalTranscript)
    {
      socket := Connecting;
      var w := WaitForCondition(ArrivedBy(false, openTick), ConnectTimeoutTicks, StopTick(stop));
      if w.Satisfied? {
        socket := Open;
        r := Success(());
      } else if w.TimedOut? {
        r := Failure(TimeoutError(ConnectTimeoutMessage));
      } else {
        r := Failure(OperationCanceled);
      }
    }

    /** `StartAsrTask`: sends `run-task` and waits up to 10 s for `task-started`. */
    method StartAsrTask(startedTick: Option<nat>, stop: Option<nat>) returns (r: Result<(), Exception>)
      modifies this
      ensures commandsSent == old(commandsSent) + ["run-task"]
      ensures var w := Wait(ArrivedBy(old(isTaskStarted), startedTick),
                            StartTimeoutTicks, old(StopTick(stop)));
        && r == WaitResult(w, TimeoutError(StartTimeoutMessage))
        && isTaskStarted == (old(isTaskStarted) || w.Satisfied?)
      ensures isProcessing == old(isProcessing) && hasCts == old(hasCts) && cancelRequested == old(cancelRequested)
      ensures socket == old(socket) && isTaskFinished == old(isTaskFinished)
      ensures events == old(events) && audioSent == old(audioSent)
      ensures lastSentSampleIndex == old(lastSentSampleIndex) && asrStartSampleIndex == old(asrStartSampleIndex)
      ensures lastFinalTranscript == old(lastFinalTranscript)
    {
      commandsSent := commandsSent + ["run-task"];
      var started := isTaskStarted;
      var w := WaitForCondition(ArrivedBy(started, startedTick),
                                StartTimeoutTicks, StopTick(stop));
      if w.Satisfied? {
        isTaskStarted := true;
        r := Success(());
      } else if w.TimedOut? {
        r := Failure(TimeoutError(StartTimeoutMessage));
      } else {
        r := Failure(OperationCanceled);
      }
    }

    /** `FinishAsrTask`: sends `finish-task` and waits up to `maxRecordingTime` for
        `task-finished` (or a failure, or a socket error, which set the same flag). */
    method FinishAsrTask(finishedTick: Option<nat>, stop: Option<nat>) returns (r: Result<(), Exception>)
      modifies this
      ensures commandsSent == old(commandsSent) + ["finish-task"]
      ensures var w := Wait(ArrivedBy(old(isTaskFinished), finishedTick),
                            maxRecordingTicks, old(StopTick(stop)));
        && r == WaitResult(w, TimeoutError(FinishTimeoutMessage))
        && isTaskFinished == (old(isTaskFinished) || w.Satisfied?)
      ensures isProcessing == old(isProcessing) && hasCts == old(hasCts) && cancelRequested == old(cancelRequested)
      ensures socket == old(socket) && isTaskStarted == old(isTaskStarted)
      ensures events == old(events) && audioSent == old(audioSent)
      ensures lastSentSampleIndex == old(lastSentSampleIndex) && asrStartSampleIndex == old(asrStartSampleIndex)
      ensures lastFinalTranscript == old(lastFinalTranscript)
    {
      commandsSent := commandsSent + ["finish-task"];
      var finished := isTaskFinished;
      var w := WaitForCondition(ArrivedBy(finished, finishedTick),
                                maxRecordingTicks, StopTick(stop));
      if w.Satisfied? {
        isTaskFinished := true;
        r := Success(());
      } else if w.TimedOut? {
        r := Failure(TimeoutError(FinishTimeoutMessage));
      } else {
        r := Failure(OperationCanceled);
      }
    }

    /** `StreamAudioData`, as rounds of polling: before round `n` the microphone has
        written `mic[n]` (nothing once `mic` is exhausted), and `StopRecognition` is called
        from outside before round `stop`.  Each round ends the recording when it has
        lasted `maxRecordingSamples`; otherwise it sends what the queue holds since the
        last sent index (a silence timeout raises its event and stops recognition, and the
        loop goes on) or, when nothing is pending, waits 50 ms, a wait that throws once
        cancellation was requested.  Either way the stream ends with cancellation
        requested. */
    method StreamAudioData(mic: seq<seq<real>>, stop: Option<nat>)
      returns (r: Result<(), Exception>)
      requires Valid() && hasCts
      modifies this, vad
      ensures Valid() && hasCts && cancelRequested
      ensures r.Success? ==> |events| > |old(events)| && events[|events| - 1] == MaxRecordingTimeRaised
      ensures r.Failure? ==> r.error == OperationCanceled
      ensures r.Failure? ==> !Pending()
      ensures |events| >= |old(events)| && events[..|old(events)|] == old(events)
      ensures SentAfter(old(audioSent), audioSent, socket == Open)
      ensures lastSentSampleIndex >= old(lastSentSampleIndex)
      ensures isProcessing == old(isProcessing) && socket == old(socket) && commandsSent == old(commandsSent)
      ensures isTaskStarted == old(isTaskStarted) && isTaskFinished == old(isTaskFinished)
    {
      var silenceSampleCount := 0;
      var elapsed := 0;
      var round := 0;
      while true
        invariant Valid() && hasCts
        invariant |events| >= |old(events)| && events[..|old(events)|] == old(events)
        invariant SentAfter(old(audioSent), audioSent, socket == Open)
        invariant lastSentSampleIndex >= old(lastSentSampleIndex)
        invariant isProcessing == old(isProcessing) && socket == old(socket) && commandsSent == old(commandsSent)
        invariant isTaskStarted == old(isTaskStarted) && isTaskFinished == old(isTaskFinished)
        decreases (if round < |mic| then |mic| - round else 0),
                  maxRecordingSamples - elapsed + (if Pending() then 1 else 0)
      {
        if elapsed >= maxRecordingSamples {
          events := events + [MaxRecordingTimeRaised];
          StopRecognition();
          return Success(());
        }
        PrepareRound(if round < |mic| then Some(mic[round]) else None, stop == Some(round));
        var advance, cancelled;
        ghost var sentBefore := audioSent;
        silenceSampleCount, advance, cancelled := SendRound(silenceSampleCount);
        SentAfterTrans(old(audioSent), sentBefore, audioSent, socket == Open);
        if cancelled {
          return Failure(OperationCanceled);
        }
        elapsed := elapsed + advance;
        round := round + 1;
      }
    }

    /** The start of a round of the streaming loop after the recording-time check: a
        stop from outside, then the microphone's write into the spotter's queue. */
    method PrepareRound(frame: Option<seq<real>>, stopNow: bool)
      requires Valid() && hasCts
      modifies this, vad
      ensures Valid() && hasCts
      ensures cancelRequested == (old(cancelRequested) || stopNow)
      ensures vad != null ==> vad.hasClip == old(vad.hasClip)
                              && vad.written == (if stopNow then [] else old(vad.written))
                                                + (if vad.hasClip && frame.Some? then frame.value else [])
      ensures frame.None? && Pending() ==> old(Pending())
      ensures events == old(events) && audioSent == old(audioSent) && lastSentSampleIndex == old(lastSentSampleIndex)
      ensures isProcessing == old(isProcessing) && socket == old(socket) && commandsSent == old(commandsSent)
      ensures isTaskStarted == old(isTaskStarted) && isTaskFinished == old(isTaskFinished)
    {
      if stopNow {
        StopRecognition();
      }
      assert vad != null ==> vad.written == (if stopNow then [] else old(vad.written))
                             && vad.hasClip == old(vad.hasClip);
      assert cancelRequested == (old(cancelRequested) || stopNow);
      if vad != null && frame.Some? {
        vad.OnFrameCollected(frame.value);
      }
    }

    /** The rest of a round: the samples queued since the last sent index are fetched;
        when there are some, their chunks are sent and the silence counter is carried
        through them; otherwise the 50 ms wait, which is cancelled once cancellation was
        requested.  `advance` is the recording time the round adds, in samples. */
    method SendRound(silence0: int) returns (silence: int, advance: nat, cancelled: bool)
      requires Valid() && hasCts
      modifies this, vad
      ensures Valid() && hasCts
      ensures var data := old(Fetched());
              var chunks := Chunks(data);
              var f := FirstReaching(chunks, silence0, silenceSampleLimit);
              var k := if f.Some? then f.value else |chunks|;
        && (data == [] ==> silence == silence0 && cancelled == old(cancelRequested)
                           && advance == (if cancelled then 0 else IdleWaitSamples)
                           && lastSentSampleIndex == old(lastSentSampleIndex) && cancelRequested == old(cancelRequested)
                           && audioSent == old(audioSent) && events == old(events)
                           && (vad != null ==> unchanged(vad)))
        && (data != [] ==> !cancelled
                           && silence == SilenceAfterAll(silence0, chunks[..if f.Some? then k + 1 else k])
                           && lastSentSampleIndex == old(vad.totalSampleCount)
                           && audioSent == old(audioSent) + (if socket == Open then chunks[..k] else [])
                           && events == old(events) + (if f.Some? then [SilenceTimeoutRaised] else [])
                           && advance == Min(k * ChunkSize, |data|))
      ensures cancelled ==> cancelRequested
      ensures !Pending() && lastSentSampleIndex >= old(lastSentSampleIndex)
      ensures !cancelled ==> advance > 0 || old(Pending())
      ensures SentAfter(old(audioSent), audioSent, socket == Open)
      ensures isProcessing == old(isProcessing) && socket == old(socket) && commandsSent == old(commandsSent)
      ensures isTaskStarted == old(isTaskStarted) && isTaskFinished == old(isTaskFinished)
    {
      ghost var data := Fetched();
      silence := silence0;
      cancelled := false;
      var newData: seq<real> := [];
      var newLastSampleIndex := 0;
      if vad != null {
        newData, newLastSampleIndex := vad.GetPcmDataSince(lastSentSampleIndex);
      }
      assert newData == data;
      if |newData| > 0 {
        assert vad != null && newLastSampleIndex == vad.totalSampleCount;
        ghost var chunks := Chunks(data);
        ghost var f := FirstReaching(chunks, silence0, silenceSampleLimit);
        ghost var examined := chunks[..if f.Some? then f.value + 1 else |chunks|];
        silence, advance := SendPending(newData, newLastSampleIndex, silence0);
        assert Chunks(newData) == chunks;
        assert silence == SilenceAfterAll(silence0, examined);
      } else if cancelRequested {
        cancelled := true;
        advance := 0;
      } else {
        advance := IdleWaitSamples;
      }
    }

    /** The sending half of a round: the chunks of `data`, fetched up to sample index
        `newLast`, are sent until silence times out, which raises its event and stops
        recognition; either way the last sent index then moves to `newLast`, and the
        silence counter has counted every chunk examined, the timing-out one included. */
    method SendPending(data: seq<real>, newLast: int, silence0: int) returns (silence: int, advance: nat)
      requires Valid() && hasCts && vad != null && newLast == vad.totalSampleCount
      modifies this, vad
      ensures Valid() && hasCts && !Pending()
      ensures lastSentSampleIndex == newLast
      ensures var chunks := Chunks(data);
              var f := FirstReaching(chunks, silence0, silenceSampleLimit);
              var k := if f.Some? then f.value else |chunks|;
        && audioSent == old(audioSent) + (if socket == Open then chunks[..k] else [])
        && events == old(events) + (if f.Some? then [SilenceTimeoutRaised] else [])
        && silence == SilenceAfterAll(silence0, chunks[..if f.Some? then k + 1 else k])
        && (f.Some? ==> cancelRequested && vad.written == [] && vad.totalSampleCount == 0)
        && (f.None? ==> cancelRequested == old(cancelRequested) && unchanged(vad))
        && advance == Min(k * ChunkSize, |data|)
        && (|data| > 0 && f.None? ==> advance > 0)
      ensures SentAfter(old(audioSent), audioSent, socket == Open)
      ensures isProcessing == old(isProcessing) && socket == old(socket) && commandsSent == old(commandsSent)
      ensures isTaskStarted == old(isTaskStarted) && isTaskFinished == old(isTaskFinished)
    {
      var sent, timedOut;
      sent, silence, advance, timedOut := SendChunks(data, silence0, silenceSampleLimit);
      SentChunks(audioSent, data, |sent|, socket == Open);
      if socket == Open {
        audioSent := audioSent + sent;
      }
      if timedOut {
        events := events + [SilenceTimeoutRaised];
        StopRecognition();
      }
      lastSentSampleIndex := newLast;
    }

    /** The audio a round fetches: what the spotter has queued since the last sent index. */
    ghost function Fetched(): seq<real>
      reads this, vad
    {
      if vad == null then [] else PcmDataSince(vad.queue, vad.totalSampleCount, lastSentSampleIndex).0
    }

    /** Is there audio in the spotter's queue that has not been sent? */
    predicate Pending()
      reads this, vad
    {
      vad != null && vad.totalSampleCount > lastSentSampleIndex
    }

    /** `HandleRecognitionResult`: a sentence with text is raised and, when it carries an
        end time or ends the sentence, stops recognition. */
    method HandleRecognitionResult(sentence: Option<Sentence>)
      requires Valid()
      modifies this, vad
      ensures Valid()
      ensures events == old(events) + (if Surfaced(sentence) then [RecognitionStreaming(sentence.value)] else [])
      ensures cancelRequested == (old(cancelRequested) || (StopsOn(sentence) && hasCts))
      ensures !StopsOn(sentence) && vad != null ==> unchanged(vad)
      ensures StopsOn(sentence) && vad != null ==> vad.written == [] && vad.totalSampleCount == 0
      ensures hasCts == old(hasCts) && isProcessing == old(isProcessing) && socket == old(socket)
      ensures isTaskStarted == old(isTaskStarted) && isTaskFinished == old(isTaskFinished)
      ensures audioSent == old(audioSent) && commandsSent == old(commandsSent)
      ensures lastSentSampleIndex == old(lastSentSampleIndex) && lastFinalTranscript == old(lastFinalTranscript)
    {
      if sentence.Some? && !IsNullOrEmpty(sentence.value.text) {
        events := events + [RecognitionStreaming(sentence.value)];
        if sentence.value.endTime.Some? || sentence.value.sentenceEnd {
          StopRecognition();
        }
      }
    }

    /** `HandleWebSocketMessage`, given the parsed message (None when it is not valid
        JSON, which the handler catches): dispatches on the header's event. */
    method HandleWebSocketMessage(message: Option<ServerMessage>)
      requires Valid()
      modifies this, vad
      ensures Valid()
      ensures var ev := if message.Some? && message.value.header.Some? then message.value.header.value.event else None;
        && isTaskStarted == (old(isTaskStarted) || ev == Some("task-started"))
        && isTaskFinished == (old(isTaskFinished) || ev == Some("task-finished") || ev == Some("task-failed"))
        && (ev == Some("task-failed") ==> events == old(events) + [ErrorRaised(message.value.header.value.errorMessage.GetOr(TaskFailedMessage))])
        && (ev != Some("task-failed") && ev != Some("result-generated") && ev != Some("task-finished")
            ==> events == old(events) && cancelRequested == old(cancelRequested))
        && (ev != Some("result-generated") && ev != Some("task-finished")
            ==> cancelRequested == old(cancelRequested) && (vad != null ==> unchanged(vad)))
        && ((ev == Some("result-generated") || ev == Some("task-finished"))
            ==> var s := message.value.sentence;
                && events == old(events) + (if Surfaced(s) then [RecognitionStreaming(s.value)] else [])
                && cancelRequested == (old(cancelRequested) || (StopsOn(s) && hasCts))
                && (!StopsOn(s) && vad != null ==> unchanged(vad))
                && (StopsOn(s) && vad != null ==> vad.written == [] && vad.totalSampleCount == 0))
      ensures hasCts == old(hasCts) && isProcessing == old(isProcessing) && socket == old(socket)
      ensures audioSent == old(audioSent) && commandsSent == old(commandsSent)
      ensures lastSentSampleIndex == old(lastSentSampleIndex) && lastFinalTranscript == old(lastFinalTranscript)
    {
      if message.None? || message.value.header.None? {
        return;
      }
      var header := message.value.header.value;
      if header.event == Some("task-started") {
        isTaskStarted := true;
      } else if header.event == Some("result-generated") || header.event == Some("task-finished") {
        HandleResultEvent(header.event == Some("task-finished"), message.value.sentence);
      } else if header.event == Some("task-failed") {
        isTaskFinished := true;
        events := events + [ErrorRaised(header.errorMessage.GetOr(TaskFailedMessage))];
      }
    }

    /** The `result-generated` and `task-finished` branch of `HandleWebSocketMessage`:
        the latter also marks the recognition task finished; both handle the sentence. */
    method HandleResultEvent(finished: bool, sentence: Option<Sentence>)
      requires Valid()
      modifies this, vad
      ensures Valid()
      ensures isTaskStarted == old(isTaskStarted) && isTaskFinished == (old(isTaskFinished) || finished)
      ensures events == old(events) + (if Surfaced(sentence) then [RecognitionStreaming(sentence.value)] else [])
      ensures cancelRequested == (old(cancelRequested) || (StopsOn(sentence) && hasCts))
      ensures !StopsOn(sentence) && vad != null ==> unchanged(vad)
      ensures StopsOn(sentence) && vad != null ==> vad.written == [] && vad.totalSampleCount == 0
      ensures hasCts == old(hasCts) && isProcessing == old(isProcessing) && socket == old(socket)
      ensures audioSent == old(audioSent) && commandsSent == old(commandsSent)
      ensures lastSentSampleIndex == old(lastSentSampleIndex) && lastFinalTranscript == old(lastFinalTranscript)
    {
      if finished {
        isTaskFinished := true;
      }
      HandleRecognitionResult(sentence);
    }

    /** The socket's error callback: reports a network failure and marks the recognition task finished. */
    method HandleSocketError()
      modifies this
      ensures events == old(events) + [ErrorRaised(NetworkFailedMessage)] && isTaskFinished
      ensures isTaskStarted == old(isTaskStarted) && isProcessing == old(isProcessing) && socket == old(socket)
      ensures cancelRequested == old(cancelRequested) && hasCts == old(hasCts)
      ensures audioSent == old(audioSent) && commandsSent == old(commandsSent)
      ensures lastSentSampleIndex == old(lastSentSampleIndex) && lastFinalTranscript == old(lastFinalTranscript)
    {
      events := events + [ErrorRaised(NetworkFailedMessage)];
      isTaskFinished := true;
    }

    /** `CleanupWebSocket`: closes an open socket and forgets it. */
    method CleanupWebSocket()
      requires Valid()
      modifies this
      ensures Valid() && socket == NoSocket
      ensures isTaskStarted == old(isTaskStarted) && isTaskFinished == old(isTaskFinished)
      ensures isProcessing == old(isProcessing) && cancelRequested == old(cancelRequested) && hasCts == old(hasCts)
      ensures events == old(events) && audioSent == old(audioSent) && commandsSent == old(commandsSent)
      ensures lastSentSampleIndex == old(lastSentSampleIndex) && lastFinalTranscript == old(lastFinalTranscript)
    {
      socket := NoSocket;
    }

    /** `ExecuteRecognitionPipeline`: validate, connect, start the recognition task, stream, finish;
        the first failure ends it, and the steps after it leave no trace.  With `c` the
        cancellation state on entry, the connection and start waits are `ConnectWait(env, c)`
        and `StartWait(env, c)`; the finish wait follows the stream, which always ends with
        cancellation requested. */
    method ExecuteRecognitionPipeline(env: Environment, mic: seq<seq<real>>)
      returns (r: Result<(), Exception>)
      requires Valid() && hasCts
      modifies this, vad
      ensures Valid() && hasCts && isProcessing == old(isProcessing)
      ensures r.Success? ==> isTaskStarted && isTaskFinished
      ensures r.Failure? && !r.error.IsCancellation() ==> r.error.TimeoutError? || r.error.InvalidOperation?
      ensures ValidationFails(env, vad != null)
              ==> r == Failure(ValidationError(env)) && !isTaskStarted && !isTaskFinished
                  && socket == old(socket) && commandsSent == old(commandsSent)
                  && events == old(events) && audioSent == old(audioSent)
      ensures var cw := ConnectWait(env, old(cancelRequested));
              !ValidationFails(env, vad != null) && !cw.Satisfied?
              ==> r == WaitResult(cw, TimeoutError(ConnectTimeoutMessage)) && !isTaskStarted
                  && socket == Connecting && commandsSent == old(commandsSent)
                  && events == old(events) && audioSent == old(audioSent)
      ensures var cw := ConnectWait(env, old(cancelRequested));
              var sw := StartWait(env, old(cancelRequested));
              !ValidationFails(env, vad != null) && cw.Satisfied? && !sw.Satisfied?
              ==> r == WaitResult(sw, TimeoutError(StartTimeoutMessage)) && !isTaskStarted
                  && socket == Open && commandsSent == old(commandsSent) + ["run-task"]
                  && events == old(events) && audioSent == old(audioSent)
      ensures var cw := ConnectWait(env, old(cancelRequested));
              var sw := StartWait(env, old(cancelRequested));
              !ValidationFails(env, vad != null) && cw.Satisfied? && sw.Satisfied?
              ==> socket == Open && isTaskStarted && cancelRequested
                  && |events| >= |old(events)| && events[..|old(events)|] == old(events)
                  && ((r == Failure(OperationCanceled) && commandsSent == old(commandsSent) + ["run-task"])
                      || (commandsSent == old(commandsSent) + ["run-task", "finish-task"]
                          && |events| > |old(events)| && events[|events| - 1] == MaxRecordingTimeRaised
                          && r == WaitResult(Wait(ArrivedBy(false, env.finishedTick), maxRecordingTicks, Some(0)),
                                             TimeoutError(FinishTimeoutMessage))))
    {
      ghost var c := cancelRequested;
      r := ValidateAndInitialize(env.apiKey, env.micActive);
      if r.Failure? {
        return;
      }
      assert !ValidationFails(env, vad != null);
      r := EstablishWebSocketConnection(env.openTick, env.connectStop);
      assert r == WaitResult(ConnectWait(env, c), TimeoutError(ConnectTimeoutMessage));
      if r.Failure? {
        return;
      }
      ghost var commands := commandsSent;
      r := StartAsrTask(env.startedTick, env.startStop);
      assert r == WaitResult(StartWait(env, c), TimeoutError(StartTimeoutMessage));
      assert commandsSent == commands + ["run-task"];
      if r.Failure? {
        return;
      }
      r := StreamAudioData(mic, env.streamStop);
      if r.Failure? {
        return;
      }
      ghost var streamed := events;
      assert !isTaskFinished && cancelRequested;
      r := FinishAsrTask(env.finishedTick, env.finishStop);
      assert events == streamed;
      assert commandsSent == commands + ["run-task", "finish-task"];
      assert r == WaitResult(Wait(ArrivedBy(false, env.finishedTick), maxRecordingTicks, Some(0)),
                             TimeoutError(FinishTimeoutMessage));
    }

    /** `StartStreamingAsync` after its prologue: runs the pipeline, reports a failure
        that is not a cancellation as a user-friendly error, and in every case clears
        the processing flag and drops the socket. */
    method RunRecognition(env: Environment, mic: seq<seq<real>>)
      returns (outcome: Result<(), Exception>)
      requires Valid() && isProcessing && hasCts
      modifies this, vad
      ensures Valid() && !isProcessing && socket == NoSocket
      ensures outcome.Failure? && !outcome.error.IsCancellation()
              ==> |events| > 0 && events[|events| - 1] == ErrorRaised(FormatUserFriendlyError(outcome.error))
    {
      outcome := ExecuteRecognitionPipeline(env, mic);
      if outcome.Failure? && !outcome.error.IsCancellation() {
        events := events + [ErrorRaised(FormatUserFriendlyError(outcome.error))];
      }
      isProcessing := false;
      CleanupWebSocket();
    }
  }

  /** `StreamAudioData` always ends with the token cancelled, so the wait of
      `FinishAsrTask` that follows it does not wait for `task-finished`: it succeeds only
      when the flag is already set (or set at its very first poll) and is otherwise
      cancelled at once, whatever the timeout. */
  lemma FinishWaitAfterStream(finished: bool, finishedTick: Option<nat>, timeoutTicks: nat)
    requires timeoutTicks > 0
    ensures var w := Wait(ArrivedBy(finished, finishedTick), timeoutTicks, Some(0));
      w == if finished || finishedTick == Some(0) then Satisfied(0) else Cancelled(0)
  {
    WaitAfterCancelReturnsAtOnce(ArrivedBy(finished, finishedTick), timeoutTicks);
  }
}

=== FILE: data_processor.dfy ===
module DataProcessor {
  // The rule-based labeller that turns plain command sentences into intent/slot
  // training records (`VAIDataProcessor`): the intent is the first whose pattern occurs
  // in the sentence, each slot category contributes the first value whose keyword
  // occurs, the first number is the `number` slot, and the slots the intent needs are
  // completed with defaults.  A pattern table is a dictionary in insertion order: a
  // sequence of (value, keywords) pairs.

  import opened Wrappers
  import opened Text

  type Table = seq<(string, seq<string>)>

  const IntentPatterns: Table := [
    ("ChangeObjectColor", ["颜色", "color", "变成", "上色"]),
    ("ModifyTransform", ["移动", "旋转", "缩放", "变", "调整", "挪", "位移", "挪动", "位置", "移动到", "移"])
  ]

  const ObjectPatterns: Table := [
    ("cube", ["方块", "立方体", "正方体", "cube"]),
    ("sphere", ["球", "球体", "圆球", "sphere"]),
    ("capsule", ["胶囊", "capsule"]),
    ("main camera", ["镜头", "摄像机"])
  ]

  const TransformPatterns: Table := [
    ("moveleft", ["向左", "往左", "左", "左边", "左移", "往左边"]),
    ("moveright", ["向右", "往右", "右", "右边", "右移", "往右边"]),
    ("moveforward", ["向前", "往前", "前", "前面", "前边", "前边儿"]),
    ("movebackward", ["向后", "往后", "后面", "后", "后边", "后边儿"]),
    ("moveup", ["向上", "往上", "上边", "上移", "上"]),
    ("movedown", ["向下", "往下", "下"]),
    ("pitch", ["俯仰", "抬头", "低头"]),
    ("yaw", ["偏航", "转向", "左右转"]),
    ("roll", ["翻滚", "侧倾", "旋转"]),
    ("scale", ["放大", "缩小", "变大", "变小"])
  ]

  const ColorPatterns: Table := [
    ("#FF0000", ["红色", "红"]),
    ("#00FF00", ["绿色", "绿"]),
    ("#0000FF", ["蓝色", "蓝"]),
    ("#FFFF00", ["黄色", "黄"]),
    ("#00FFFF", ["青色", "青", "蓝绿"]),
    ("#FF00FF", ["紫色", "紫", "品红"]),
    ("#FFFFFF", ["白色", "白"]),
    ("#000000", ["黑色", "黑"]),
    ("#FFA500", ["橙色", "橙"]),
    ("#A52A2A", ["棕色", "褐色", "棕"])
  ]

  const OtherIntent := "其他"

  /** A `VAIDataProcessor`: its four pattern tables. */
  datatype Processor = Processor(intentPatterns: Table, objectPatterns: Table,
                                 transformPatterns: Table, colorPatterns: Table)

  /** The processor `__init__` builds. */
  const Default := Processor(IntentPatterns, ObjectPatterns, TransformPatterns, ColorPatterns)

  /** `any(pattern in text for pattern in patterns)`. */
  predicate AnyIn(patterns: seq<string>, text: string) {
    exists j :: 0 <= j < |patterns| && Contains(text, patterns[j])
  }

  /** The position of the first entry of `table` one of whose keywords occurs in `text`. */
  function FirstEntry(table: Table, text: string): (r: Option<nat>)
    ensures r.Some? ==> r.value < |table| && AnyIn(table[r.value].1, text)
                        && forall i :: 0 <= i < r.value ==> !AnyIn(table[i].1, text)
    ensures r.None? <==> forall i :: 0 <= i < |table| ==> !AnyIn(table[i].1, text)
  {
    if table == [] then None
    else if AnyIn(table[0].1, text) then Some(0)
    else
      var rest := FirstEntry(table[1..], text);
      assert forall i :: 1 <= i < |table| ==> table[i] == table[1..][i - 1];
      if rest.None? then None else Some(rest.value + 1)
  }

  /** `extract_intent`: the first intent, in table order, with a pattern in the text;
      otherwise "其他". */
  function ExtractIntent(table: Table, text: string): (r: string)
    ensures FirstEntry(table, text).Some? ==> r == table[FirstEntry(table, text).value].0
    ensures FirstEntry(table, text).None? ==> r == OtherIntent
  {
    match FirstEntry(table, text)
    case None => OtherIntent
    case Some(i) => table[i].0
  }

  /** The first keyword of `keywords` that occurs in `text`. */
  function FirstKeyword(keywords: seq<string>, text: string): (r: Option<nat>)
    ensures r.Some? ==> r.value < |keywords| && Contains(text, keywords[r.value])
                        && forall j :: 0 <= j < r.value ==> !Contains(text, keywords[j])
    ensures r.None? <==> !AnyIn(keywords, text)
  {
    if keywords == [] then None
    else if Contains(text, keywords[0]) then Some(0)
    else
      var rest := FirstKeyword(keywords[1..], text);
      assert forall j :: 1 <= j < |keywords| ==> keywords[j] == keywords[1..][j - 1];
      if rest.None? then None else Some(rest.value + 1)
  }

  /** A span `[start, end]` of the text. */
  datatype Span = Span(start: nat, end: nat)

  /** A slot category's match: the value and the span of the first occurrence of the
      keyword that selected it. */
  datatype SlotMatch = SlotMatch(value: string, span: Span)

  /** One slot category of `extract_entities`: the first value, in table order then
      keyword order, one of whose keywords occurs; its span is that keyword's first
      occurrence. */
  function MatchSlot(table: Table, text: string): (r: Option<SlotMatch>)
    ensures r.None? <==> FirstEntry(table, text).None?
    ensures r.Some? ==>
      var i := FirstEntry(table, text).value;
      var j := FirstKeyword(table[i].1, text).value;
      var kw := table[i].1[j];
      r.value.value == table[i].0
      && r.value.span.end == r.value.span.start + |kw| <= |text|
      && text[r.value.span.start..r.value.span.end] == kw
      && forall p :: 0 <= p < r.value.span.start ==> !OccursAt(text, kw, p)
  {
    match FirstEntry(table, text)
    case None => None
    case Some(i) =>
      var j := FirstKeyword(table[i].1, text).value;
      var kw := table[i].1[j];
      var start := IndexOf(text, kw).value;
      Some(SlotMatch(table[i].0, Span(start, start + |kw|)))
  }

  // ---------------------------------------------------------------------------------
  // The number slot: the first match of `\d+(?:\.\d+)?`

  /** The end of the run of digits starting at `i`. */
  function DigitsEnd(s: string, i: nat): (r: nat)
    requires i <= |s|
    ensures i <= r <= |s| && (forall k :: i <= k < r ==> IsDigit(s[k])) && (r < |s| ==> !IsDigit(s[r]))
    decreases |s| - i
  {
    if i < |s| && IsDigit(s[i]) then DigitsEnd(s, i + 1) else i
  }

  /** The first position at or after `i` holding a digit. */
  function FirstDigit(s: string, i: nat): (r: Option<nat>)
    requires i <= |s|
    ensures r.Some? ==> i <= r.value < |s| && IsDigit(s[r.value]) && forall k :: i <= k < r.value ==> !IsDigit(s[k])
    ensures r.None? ==> forall k :: i <= k < |s| ==> !IsDigit(s[k])
    decreases |s| - i
  {
    if i == |s| then None else if IsDigit(s[i]) then Some(i) else FirstDigit(s, i + 1)
  }

  /** Is `t` a decimal numeral: digits, optionally followed by "." and digits? */
  predicate IsNumeral(t: string) {
    (t != [] && forall k :: 0 <= k < |t| ==> IsDigit(t[k]))
    || exists d :: 0 < d < |t| - 1 && t[d] == '.' && (forall k :: 0 <= k < d ==> IsDigit(t[k]))
                   && forall k :: d < k < |t| ==> IsDigit(t[k])
  }

  /** Digits, a ".", then digits form a numeral that contains the ".". */
  lemma FractionIsNumeral(text: string, i: nat, e: nat, f: nat)
    requires i < e && e + 1 < f <= |text| && text[e] == '.'
    requires forall k :: i <= k < e ==> IsDigit(text[k])
    requires forall k :: e < k < f ==> IsDigit(text[k])
    ensures IsNumeral(text[i..f]) && '.' in text[i..f]
  {
    var t := text[i..f];
    var d := e - i;
    assert t[d] == '.';
    forall k | 0 <= k < d
      ensures IsDigit(t[k])
    {
      assert t[k] == text[i + k];
    }
    forall k | d < k < |t|
      ensures IsDigit(t[k])
    {
      assert t[k] == text[i + k];
    }
    assert 0 < d < |t| - 1;
  }

  /** `re.search(r'(\d+(?:\.\d+)?)', text)`: the leftmost match, greedy: the run of
      digits at the first digit, extended by a fraction when "." and a digit follow. */
  function NumberSpan(text: string): (r: Option<Span>)
    ensures r.None? <==> forall k :: 0 <= k < |text| ==> !IsDigit(text[k])
    ensures r.Some? ==> r.value.start < r.value.end <= |text| && IsNumeral(text[r.value.start..r.value.end])
                        && forall k :: 0 <= k < r.value.start ==> !IsDigit(text[k])
    ensures r.Some? && r.value.end < |text| ==> !IsDigit(text[r.value.end])
    ensures r.Some? && r.value.end + 1 < |text| && text[r.value.end] == '.' && IsDigit(text[r.value.end + 1])
            ==> '.' in text[r.value.start..r.value.end]
  {
    match FirstDigit(text, 0)
    case None => None
    case Some(i) =>
      var e := DigitsEnd(text, i);
      if e + 1 < |text| && text[e] == '.' && IsDigit(text[e + 1]) then
        var f := DigitsEnd(text, e + 1);
        FractionIsNumeral(text, i, e, f);
        Some(Span(i, f))
      else
        Some(Span(i, e))
  }

  // ---------------------------------------------------------------------------------
  // Entities and records

  /** `extract_entities`: the slots found and their spans. */
  datatype Entities = Entities(slots: map<string, string>, positions: map<string, Span>)

  function AddSlot(e: Entities, name: string, m: Option<SlotMatch>): (r: Entities)
    ensures e.slots.Keys == e.positions.Keys ==> r.slots.Keys == r.positions.Keys
    ensures r.slots.Keys <= e.slots.Keys + {name}
  {
    if m.None? then e else Entities(e.slots[name := m.value.value], e.positions[name := m.value.span])
  }

  function NumberSlot(e: Entities, text: string): (r: Entities)
    ensures e.slots.Keys == e.positions.Keys ==> r.slots.Keys == r.positions.Keys
    ensures r.slots.Keys <= e.slots.Keys + {"number"}
  {
    match NumberSpan(text)
    case None => e
    case Some(sp) => Entities(e.slots["number" := text[sp.start..sp.end]], e.positions["number" := sp])
  }

  function ExtractEntities(p: Processor, text: string): (r: Entities)
    ensures r.slots.Keys == r.positions.Keys
    ensures r.slots.Keys <= {"objectName", "transformType", "hexColor", "number"}
  {
    var e := AddSlot(Entities(map[], map[]), "objectName", MatchSlot(p.objectPatterns, text));
    var e := AddSlot(e, "transformType", MatchSlot(p.transformPatterns, text));
    var e := AddSlot(e, "hexColor", MatchSlot(p.colorPatterns, text));
    NumberSlot(e, text)
  }

  /** Each keyword slot is present exactly when its table matches, with the matched
      value and the first occurrence of the matched keyword as its span. */
  lemma KeywordSlots(p: Processor, text: string)
    ensures var e := ExtractEntities(p, text);
      SlotAgrees(e, "objectName", MatchSlot(p.objectPatterns, text))
      && SlotAgrees(e, "transformType", MatchSlot(p.transformPatterns, text))
      && SlotAgrees(e, "hexColor", MatchSlot(p.colorPatterns, text))
  {
  }

  predicate SlotAgrees(e: Entities, name: string, m: Option<SlotMatch>) {
    (name in e.slots <==> m.Some?)
    && (m.Some? ==> e.slots[name] == m.value.value && name in e.positions && e.positions[name] == m.value.span)
  }

  /** The number slot is the text of the first numeral, spanned. */
  lemma NumberSlotIsFirstNumeral(p: Processor, text: string)
    ensures var e := ExtractEntities(p, text);
      ("number" in e.slots <==> exists k :: 0 <= k < |text| && IsDigit(text[k]))
      && ("number" in e.slots ==>
            var sp := NumberSpan(text).value;
            e.positions["number"] == sp && e.slots["number"] == text[sp.start..sp.end]
            && IsNumeral(e.slots["number"]))
  {
  }

  /** The transform table is tried in order and "左" belongs to moveleft, so a sentence
      saying "左右转" is labelled moveleft, never yaw. */
  lemma TurnLeftRightIsMoveLeft(text: string)
    requires Contains(text, "左右转")
    ensures MatchSlot(TransformPatterns, text).Some?
    ensures MatchSlot(TransformPatterns, text).value.value == "moveleft"
  {
    var i :| 0 <= i <= |text| && OccursAt(text, "左右转", i);
    assert text[i..i + 1] == "左" by {
      assert text[i..i + 3][..1] == text[i..i + 1];
    }
    assert OccursAt(text, "左", i);
    assert TransformPatterns[0].1[2] == "左";
    assert AnyIn(TransformPatterns[0].1, text);
  }

  /** The slots after `convert_sentence_to_vai` fills in the defaults its intent needs. */
  function WithDefaults(intent: string, slots: map<string, string>): map<string, string> {
    if intent == "ModifyTransform" then
      var s := if "objectName" in slots then slots else slots["objectName" := "cube"];
      var s := if "transformType" in s then s else s["transformType" := "moveup"];
      if "number" in s then s else s["number" := "1"]
    else if intent == "ChangeObjectColor" then
      var s := if "objectName" in slots then slots else slots["objectName" := "cube"];
      if "hexColor" in s then s else s["hexColor" := "#FF0000"]
    else slots
  }

  /** Defaults never override an extracted slot; a ModifyTransform record always has
      objectName, transformType and number (cube, moveup and "1" when missing), a
      ChangeObjectColor record objectName and hexColor (cube and #FF0000), and any other
      intent keeps exactly the extracted slots. */
  lemma DefaultsFillOnlyGaps(intent: string, slots: map<string, string>)
    ensures var r := WithDefaults(intent, slots);
      slots.Keys <= r.Keys && (forall k :: k in slots ==> r[k] == slots[k])
      && (intent == "ModifyTransform" ==>
            r.Keys == slots.Keys + {"objectName", "transformType", "number"}
            && ("objectName" !in slots ==> r["objectName"] == "cube")
            && ("transformType" !in slots ==> r["transformType"] == "moveup")
            && ("number" !in slots ==> r["number"] == "1"))
      && (intent == "ChangeObjectColor" ==>
            r.Keys == slots.Keys + {"objectName", "hexColor"}
            && ("objectName" !in slots ==> r["objectName"] == "cube")
            && ("hexColor" !in slots ==> r["hexColor"] == "#FF0000"))
      && (intent != "ModifyTransform" && intent != "ChangeObjectColor" ==> r == slots)
  {
  }

  /** The slots dictionary of a record; `convert_sentence_to_vai` puts it in the record
      and then adds the defaults to it through the same reference. */
  class SlotDict {
    var values: map<string, string>

    constructor(values: map<string, string>)
      ensures this.values == values
    {
      this.values := values;
    }

    method SetDefault(key: string, value: string)
      modifies this
      ensures values == if key in old(values) then old(values) else old(values)[key := value]
    {
      if key !in values {
        values := values[key := value];
      }
    }
  }

  /** A record of the training data. */
  datatype VaiRecord = VaiRecord(intent: string, text: string, slots: SlotDict, positions: map<string, Span>)

  /** `convert_sentence_to_vai` (the index argument is unused). */
  method ConvertSentenceToVai(p: Processor, text: string, index: int) returns (result: VaiRecord)
    ensures fresh(result.slots)
    ensures result.intent == ExtractIntent(p.intentPatterns, text) && result.text == text
    ensures result.positions == ExtractEntities(p, text).positions
    ensures result.slots.values == WithDefaults(result.intent, ExtractEntities(p, text).slots)
  {
    var intent := ExtractIntent(p.intentPatterns, text);
    var e := ExtractEntities(p, text);
    var entities := new SlotDict(e.slots);
    result := VaiRecord(intent, text, entities, e.positions);
    if intent == "ModifyTransform" {
      entities.SetDefault("objectName", "cube");
      entities.SetDefault("transformType", "moveup");
      entities.SetDefault("number", "1");
    } else if intent == "ChangeObjectColor" {
      entities.SetDefault("objectName", "cube");
      entities.SetDefault("hexColor", "#FF0000");
    }
  }
}

=== FILE: dictionaries.dfy ===
module Dictionaries {
  // The C# `Dictionary<string, V>` as the modelled code uses it: a finite map whose
  // enumeration order is the order in which keys were first added (overwriting a key
  // keeps its place, no entry is ever removed).

  import opened Wrappers

  datatype Dict<V> = Dict(keys: seq<string>, entries: map<string, V>) {

    /** The keys are distinct and are exactly the keys of the map. */
    ghost predicate Valid() {
      (forall i, j :: 0 <= i < j < |keys| ==> keys[i] != keys[j])
      && (forall k :: k in entries <==> k in keys)
    }

    /** Number of entries (`Count`). */
    function Count(): nat {
      |keys|
    }

    predicate ContainsKey(k: string) {
      k in entries
    }

    /** `TryGetValue`. */
    function Get(k: string): Option<V> {
      if k in entries then Some(entries[k]) else None
    }

    /** The indexer assignment `d[k] = v`: last writer wins, a new key goes to the end. */
    function Put(k: string, v: V): (r: Dict<V>)
      requires Valid()
      ensures r.Valid()
      ensures r.Get(k) == Some(v)
      ensures forall k' :: k' != k ==> r.Get(k') == Get(k')
      ensures r.Count() == Count() + (if ContainsKey(k) then 0 else 1)
      ensures |r.keys| >= |keys| && r.keys[..|keys|] == keys
    {
      if k in entries then Dict(keys, entries[k := v]) else Dict(keys + [k], entries[k := v])
    }

    /** `Values`, in enumeration order. */
    function Values(): (r: seq<V>)
      requires Valid()
      ensures |r| == Count()
      ensures forall i :: 0 <= i < |r| ==> Get(keys[i]) == Some(r[i])
    {
      seq(|keys|, i requires 0 <= i < |keys| => entries[keys[i]])
    }
  }

  /** The empty dictionary. */
  function Empty<V>(): (r: Dict<V>)
    ensures r.Valid() && r.Count() == 0
    ensures forall k :: r.Get(k) == None
  {
    Dict([], map[])
  }
}

=== FILE: github_proxy.dfy ===
module GithubProxy {
  // The GitHub download proxy setting of `SherpaOnnxUnityAPI`: the proxy address is
  // trimmed and given a trailing slash before it is stored under its key in the
  // package's environment store; a null or blank address clears the key.

  import opened Wrappers
  import opened Text

  /** The key/value store behind `SherpaOnnxEnvironment.Set` and `Remove`; the key under
      which the proxy is kept (`BuiltinKeys.GithubProxy`) is not part of this model, so
      it is a field. */
  class Environment {
    const githubProxyKey: string
    var values: map<string, string>

    constructor(githubProxyKey: string, values: map<string, string>)
      ensures this.githubProxyKey == githubProxyKey && this.values == values
    {
      this.githubProxyKey := githubProxyKey;
      this.values := values;
    }

    method Set(key: string, value: string)
      modifies this
      ensures values == old(values)[key := value]
    {
      values := values[key := value];
    }

    method Remove(key: string)
      modifies this
      ensures values == old(values) - {key}
    {
      values := values - {key};
    }
  }

  /** The value `SetGithubProxy` stores: None when the trimmed address is null or
      empty; otherwise the trimmed address, with "/" appended unless it already ends
      with one. */
  function NormalizedProxy(proxy: Option<string>): (r: Option<string>)
    ensures r.None? <==> IsNullOrWhiteSpace(proxy)
    ensures r.Some? ==> EndsWith(r.value, "/") && StartsWith(r.value, Trim(proxy.value))
    ensures r.Some? ==> r.value == Trim(proxy.value) || r.value == Trim(proxy.value) + "/"
    ensures r.Some? && EndsWith(Trim(proxy.value), "/") ==> r.value == Trim(proxy.value)
  {
    if proxy.None? then None
    else
      var p := Trim(proxy.value);
      TrimProperties(proxy.value);
      if p == "" then None
      else if EndsWith(p, "/") then Some(p)
      else
        assert (p + "/")[..|p|] == p;
        Some(p + "/")
  }

  /** Normalising is idempotent: storing a stored value again stores the same string. */
  lemma NormalizedProxyIdempotent(proxy: Option<string>)
    requires NormalizedProxy(proxy).Some?
    ensures NormalizedProxy(NormalizedProxy(proxy)) == NormalizedProxy(proxy)
  {
    var x := NormalizedProxy(proxy).value;
    var p := Trim(proxy.value);
    TrimProperties(proxy.value);
    assert x[0] == p[0];
    TrimOfTrimmed(x);
  }

  /** `SetGithubProxy`. */
  method SetGithubProxy(env: Environment, proxy: Option<string>)
    modifies env
    ensures NormalizedProxy(proxy).None? ==> env.values == old(env.values) - {env.githubProxyKey}
    ensures NormalizedProxy(proxy).Some? ==>
      env.values == old(env.values)[env.githubProxyKey := NormalizedProxy(proxy).value]
  {
    var trimmed := if proxy.None? then None else Some(Trim(proxy.value));
    if IsNullOrEmpty(trimmed) {
      ClearGithubProxy(env);
      return;
    }
    var p := trimmed.value;
    if !EndsWith(p, "/") {
      p := p + "/";
    }
    env.Set(env.githubProxyKey, p);
  }

  /** `ClearGithubProxy`: removes the proxy key and nothing else. */
  method ClearGithubProxy(env: Environment)
    modifies env
    ensures env.values == old(env.values) - {env.githubProxyKey}
    ensures forall k :: k in old(env.values) && k != env.githubProxyKey ==> k in env.values && env.values[k] == old(env.values)[k]
  {
    env.Remove(env.githubProxyKey);
  }
}

=== FILE: keyword_trie.dfy ===
module KeywordTrie {
  // `NluUtils`: the keyword records and the character trie that maps an exact keyword
  // to every record inserted under it.

  import opened Wrappers
  import Registry

  /** `KeywordInfo`: a keyword and what it stands for.  A function-name synonym has no
      parameter name and a null mapped value; an enum keyword has both. */
  datatype KeywordInfo = KeywordInfo(
    keyword: string,
    functionName: string,
    parameterName: Option<string>,
    mappedValue: Registry.Value)

  /** A trie node: children by character, and the records whose keyword ends here. */
  datatype TrieNode = TrieNode(children: map<char, TrieNode>, infos: seq<KeywordInfo>)

  const EmptyNode := TrieNode(map[], [])

  /** The records stored at the node reached by following `s` from `node`, or none when
      the path leaves the trie. */
  function Lookup(node: TrieNode, s: string): seq<KeywordInfo>
    decreases |s|
  {
    if s == [] then node.infos
    else if s[0] in node.children then Lookup(node.children[s[0]], s[1..])
    else []
  }

  /** The trie after `Insert(info)` below `node`, following `key`: missing nodes are
      created and `info` is appended at the end of the path. */
  function InsertAt(node: TrieNode, key: string, info: KeywordInfo): TrieNode
    decreases |key|
  {
    if key == [] then TrieNode(node.children, node.infos + [info])
    else
      var child := if key[0] in node.children then node.children[key[0]] else EmptyNode;
      TrieNode(node.children[key[0] := InsertAt(child, key[1..], info)], node.infos)
  }

  /** No path of the empty trie holds a record. */
  lemma LookupEmpty(s: string)
    ensures Lookup(EmptyNode, s) == []
  {
  }

  /** Inserting a record adds it at the end of exactly one path's list, the path of the
      inserted key, and changes no other path. */
  lemma {:induction false} LookupInsertAt(node: TrieNode, key: string, info: KeywordInfo, s: string)
    ensures Lookup(InsertAt(node, key, info), s)
            == Lookup(node, s) + (if s == key then [info] else [])
    decreases |key|
  {
    if key != [] && s != [] {
      var child := if key[0] in node.children then node.children[key[0]] else EmptyNode;
      if s[0] == key[0] {
        LookupInsertAt(child, key[1..], info, s[1..]);
        if key[0] !in node.children {
          LookupEmpty(s[1..]);
        }
        assert s == key <==> s[1..] == key[1..] by {
          if s[1..] == key[1..] {
            assert s == [s[0]] + s[1..] && key == [key[0]] + key[1..];
          }
        }
      }
    }
  }

  /** The records of `infos` whose keyword is `s`, in order. */
  function WithKeyword(infos: seq<KeywordInfo>, s: string): (r: seq<KeywordInfo>)
    ensures |r| <= |infos|
    ensures forall x :: x in r ==> x in infos && x.keyword == s
  {
    if infos == [] then []
    else WithKeyword(infos[..|infos| - 1], s)
         + (if infos[|infos| - 1].keyword == s then [infos[|infos| - 1]] else [])
  }

  /** The trie obtained by inserting `infos` in order into an empty trie. */
  function InsertAll(infos: seq<KeywordInfo>): TrieNode {
    if infos == [] then EmptyNode
    else InsertAt(InsertAll(infos[..|infos| - 1]), infos[|infos| - 1].keyword, infos[|infos| - 1])
  }

  /** Exact lookup: after inserting `infos`, the path of `s` holds exactly the records
      inserted with keyword `s`, in insertion order.  A prefix of a keyword, or a string
      that leaves the trie, holds nothing. */
  lemma {:induction false} LookupInsertAll(infos: seq<KeywordInfo>, s: string)
    ensures Lookup(InsertAll(infos), s) == WithKeyword(infos, s)
  {
    if infos == [] {
      LookupEmpty(s);
    } else {
      var init := infos[..|infos| - 1];
      var last := infos[|infos| - 1];
      LookupInsertAll(init, s);
      LookupInsertAt(InsertAll(init), last.keyword, last, s);
    }
  }

  /** `NluUtils.Trie`. */
  class Trie {
    var root: TrieNode
    /** Every record inserted so far, in order. */
    ghost var inserted: seq<KeywordInfo>

    ghost predicate Valid()
      reads this
    {
      root == InsertAll(inserted)
    }

    constructor()
      ensures Valid() && inserted == []
    {
      root := EmptyNode;
      inserted := [];
    }

    /** `Insert(info)`: files `info` under its keyword. */
    method Insert(info: KeywordInfo)
      requires Valid()
      modifies this
      ensures Valid() && inserted == old(inserted) + [info]
    {
      root := InsertAt(root, info.keyword, info);
      inserted := inserted + [info];
      assert inserted[..|inserted| - 1] == old(inserted);
    }

    /** `Search(phrase)`: walks the trie character by character; the records inserted
        with keyword `phrase` exactly, in insertion order. */
    method Search(phrase: string) returns (r: seq<KeywordInfo>)
      requires Valid()
      ensures r == WithKeyword(inserted, phrase)
    {
      var node := root;
      var i := 0;
      LookupInsertAll(inserted, phrase);
      while i < |phrase|
        invariant 0 <= i <= |phrase|
        invariant Lookup(node, phrase[i..]) == Lookup(root, phrase)
      {
        if phrase[i] !in node.children {
          return [];
        }
        assert phrase[i..][1..] == phrase[i + 1..];
        node := node.children[phrase[i]];
        i := i + 1;
      }
      r := node.infos;
    }
  }
}

=== FILE: model_files.dfy ===
module ModelFiles {
  // Locating a model's files from its manifest entry (`SherpaMetadataExtensions`): the
  // path of a named file, the files ranked by how many keywords their names carry, and
  // the files with given extensions.
  //
  // The model-folder lookup (`SherpaPathResolver.GetModelRootPath` of the model id) is
  // given as its answer, `folder`; `System.IO.Path.Combine`, `GetFileName` and
  // `GetExtension` are given as functions.  A thrown exception is a `Failure` carrying
  // its message.

  import opened Wrappers
  import opened Text

  const EmptyFileMessage := "modelFile can't be Null or Empty"
  const MissingFolderMessage := "model Folder can't found"

  /** The file-system helpers the lookups rely on. */
  datatype PathOps = PathOps(
    combine: (string, string) -> string,
    fileName: string -> string,
    extension: string -> string)

  /** `GetModelFilePath`: throws on a null or empty file name, then on a missing model
      folder; otherwise the folder joined with the file. */
  function ModelFilePath(folder: Option<string>, modelFile: Option<string>, ops: PathOps): (r: Result<string, string>)
    ensures IsNullOrEmpty(modelFile) ==> r == Failure(EmptyFileMessage)
    ensures !IsNullOrEmpty(modelFile) && IsNullOrEmpty(folder) ==> r == Failure(MissingFolderMessage)
    ensures r.Success? <==> !IsNullOrEmpty(modelFile) && !IsNullOrEmpty(folder)
    ensures r.Success? ==> r.value == ops.combine(folder.value, modelFile.value)
  {
    if IsNullOrEmpty(modelFile) then Failure(EmptyFileMessage)
    else if IsNullOrEmpty(folder) then Failure(MissingFolderMessage)
    else Success(ops.combine(folder.value, modelFile.value))
  }

  /** `.Select(GetModelFilePath).ToArray()`: the paths of `files` in order; the first
      file that throws ends the whole call with its exception. */
  function FilePaths(folder: Option<string>, files: seq<string>, ops: PathOps): (r: Result<seq<string>, string>)
    ensures r.Success? <==> files == [] || (!IsNullOrEmpty(folder) && forall i :: 0 <= i < |files| ==> files[i] != "")
    ensures r.Success? ==> |r.value| == |files|
                           && forall i :: 0 <= i < |files| ==> r.value[i] == ops.combine(folder.value, files[i])
    ensures r.Failure? ==> r.error == EmptyFileMessage || r.error == MissingFolderMessage
  {
    if files == [] then Success([])
    else
      match ModelFilePath(folder, Some(files[0]), ops)
      case Failure(e) => Failure(e)
      case Success(p) =>
        match FilePaths(folder, files[1..], ops)
        case Failure(e) => Failure(e)
        case Success(ps) => Success([p] + ps)
  }

  // ---------------------------------------------------------------------------------
  // Keyword ranking

  /** The non-blank keywords, lower-cased, in order. */
  function ValidKeywords(keywords: seq<Option<string>>): (r: seq<string>)
    ensures forall k :: k in r <==> exists i :: 0 <= i < |keywords| && !IsNullOrWhiteSpace(keywords[i])
                                                && k == ToLower(keywords[i].value)
    ensures forall k :: k in r ==> k != []
  {
    if keywords == [] then []
    else
      var rest := ValidKeywords(keywords[1..]);
      assert forall i :: 1 <= i < |keywords| ==> keywords[i] == keywords[1..][i - 1];
      if IsNullOrWhiteSpace(keywords[0]) then rest else [ToLower(keywords[0].value)] + rest
  }

  /** The longest prefix of `s` made of ASCII letters and digits. */
  function Run(s: string): (r: string)
    ensures |r| <= |s| && r == s[..|r|] && forall i :: 0 <= i < |r| ==> IsAsciiLetterOrDigit(r[i])
    ensures |r| < |s| ==> !IsAsciiLetterOrDigit(s[|r|])
    ensures s != [] && IsAsciiLetterOrDigit(s[0]) ==> r != []
  {
    if s != [] && IsAsciiLetterOrDigit(s[0]) then [s[0]] + Run(s[1..]) else []
  }

  /** `SplitIntoWords`: splitting at runs of characters outside `[a-zA-Z0-9]` and
      dropping empty pieces leaves the maximal runs of letters and digits. */
  function Words(s: string): (r: seq<string>)
    ensures forall k :: 0 <= k < |r| ==> r[k] != [] && forall i :: 0 <= i < |r[k]| ==> IsAsciiLetterOrDigit(r[k][i])
    decreases |s|
  {
    if s == [] then []
    else if !IsAsciiLetterOrDigit(s[0]) then Words(s[1..])
    else
      var w := Run(s);
      [w] + Words(s[|w|..])
  }

  lemma ContainsInSuffix(s: string, k: nat, w: string)
    requires k <= |s| && Contains(s[k..], w)
    ensures Contains(s, w)
  {
    var i :| 0 <= i <= |s[k..]| && OccursAt(s[k..], w, i);
    assert s[k..][i..i + |w|] == s[i + k..i + k + |w|];
    assert OccursAt(s, w, i + k);
  }

  /** Every word of a file name occurs in it. */
  lemma {:induction false} WordsOccur(s: string)
    ensures forall w :: w in Words(s) ==> Contains(s, w)
    decreases |s|
  {
    if s == [] {
    } else if !IsAsciiLetterOrDigit(s[0]) {
      WordsOccur(s[1..]);
      forall w | w in Words(s) ensures Contains(s, w) {
        ContainsInSuffix(s, 1, w);
      }
    } else {
      var r := Run(s);
      WordsOccur(s[|r|..]);
      forall w | w in Words(s) ensures Contains(s, w) {
        if w == r {
          assert OccursAt(s, w, 0);
        } else {
          ContainsInSuffix(s, |r|, w);
        }
      }
    }
  }

  /** Lower-casing keeps an occurrence. */
  lemma LowerKeepsContains(s: string, w: string)
    requires Contains(s, w)
    ensures Contains(ToLower(s), ToLower(w))
  {
    var i :| 0 <= i <= |s| && OccursAt(s, w, i);
    assert ToLower(s)[i..i + |w|] == ToLower(w);
    assert OccursAt(ToLower(s), ToLower(w), i);
  }

  function LowerAll(ws: seq<string>): (r: seq<string>)
    ensures |r| == |ws| && forall i :: 0 <= i < |ws| ==> r[i] == ToLower(ws[i])
  {
    seq(|ws|, i requires 0 <= i < |ws| => ToLower(ws[i]))
  }

  /** The keywords a file matches: those contained in its lower-cased name (method 1)
      or equal to one of its lower-cased words (method 2). */
  function MatchedKeywords(name: string, valid: seq<string>): set<string> {
    set k | k in valid && (Contains(ToLower(name), k) || k in LowerAll(Words(name)))
  }

  /** A file's score: the number of distinct keywords it matches. */
  function Score(name: string, valid: seq<string>): nat {
    |MatchedKeywords(name, valid)|
  }

  /** The word match never adds a keyword the substring match missed: each word occurs
      in the name, so its lower-case form occurs in the lower-cased name.  A file's score
      is the number of distinct keywords its lower-cased name contains. */
  lemma WordMatchAddsNothing(name: string, valid: seq<string>)
    ensures MatchedKeywords(name, valid) == set k | k in valid && Contains(ToLower(name), k)
  {
    WordsOccur(name);
    var ws := Words(name);
    forall k | k in valid && k in LowerAll(ws) ensures Contains(ToLower(name), k) {
      var i :| 0 <= i < |ws| && LowerAll(ws)[i] == k;
      LowerKeepsContains(name, ws[i]);
    }
  }

  /** A scored manifest entry: its position, the entry itself and its score. */
  datatype Entry = Entry(index: nat, file: string, score: nat)

  /** The score of every manifest entry, by position. */
  function Scores(files: seq<string>, valid: seq<string>, ops: PathOps): (r: seq<nat>)
    ensures |r| == |files| && forall i :: 0 <= i < |files| ==> r[i] == Score(ops.fileName(files[i]), valid)
  {
    seq(|files|, i requires 0 <= i < |files| => Score(ops.fileName(files[i]), valid))
  }

  /** The entries from position `from` on with a positive score, in manifest order. */
  function ScoredFrom(files: seq<string>, scores: seq<nat>, from: nat): (r: seq<Entry>)
    requires |scores| == |files| && from <= |files|
    ensures forall k :: 0 <= k < |r| ==> from <= r[k].index < |files| && r[k].file == files[r[k].index]
                                         && r[k].score == scores[r[k].index] > 0
    ensures forall k, l :: 0 <= k < l < |r| ==> r[k].index < r[l].index
    decreases |files| - from
  {
    if from == |files| then []
    else
      var rest := ScoredFrom(files, scores, from + 1);
      if scores[from] > 0 then [Entry(from, files[from], scores[from])] + rest else rest
  }

  /** No scoring entry is dropped. */
  lemma {:induction false} ScoredComplete(files: seq<string>, scores: seq<nat>, from: nat, i: nat)
    requires |scores| == |files| && from <= i < |files| && scores[i] > 0
    ensures exists k :: 0 <= k < |ScoredFrom(files, scores, from)| && ScoredFrom(files, scores, from)[k].index == i
    decreases i - from
  {
    var r := ScoredFrom(files, scores, from);
    if from == i {
      assert r[0].index == i;
    } else {
      ScoredComplete(files, scores, from + 1, i);
      var rest := ScoredFrom(files, scores, from + 1);
      var k :| 0 <= k < |rest| && rest[k].index == i;
      if scores[from] > 0 {
        assert r == [Entry(from, files[from], scores[from])] + rest;
        assert r[k + 1] == rest[k];
      } else {
        assert r == rest;
      }
    }
  }

  /** The ranking order: higher score first, then the shorter entry, then manifest order
      (the sort is stable). */
  predicate Before(a: Entry, b: Entry) {
    a.score > b.score
    || (a.score == b.score && (|a.file| < |b.file| || (|a.file| == |b.file| && a.index < b.index)))
  }

  predicate Ranked(es: seq<Entry>) {
    forall i, j :: 0 <= i < j < |es| ==> Before(es[i], es[j])
  }

  function Insert(x: Entry, es: seq<Entry>): seq<Entry> {
    if es == [] then [x]
    else if Before(x, es[0]) then [x] + es
    else [es[0]] + Insert(x, es[1..])
  }

  /** Inserting an entry whose position differs from every ranked entry's keeps the
      sequence ranked and adds exactly that entry. */
  lemma {:induction false} InsertRanked(x: Entry, es: seq<Entry>)
    requires Ranked(es) && forall e :: e in es ==> e.index != x.index
    ensures Ranked(Insert(x, es)) && multiset(Insert(x, es)) == multiset(es) + multiset{x}
  {
    if es == [] {
    } else if Before(x, es[0]) {
    } else {
      assert es == [es[0]] + es[1..];
      InsertRanked(x, es[1..]);
      var rest := Insert(x, es[1..]);
      forall e | e in rest ensures Before(es[0], e) {
        assert e in multiset(rest);
        if e != x {
          assert e in es[1..];
        }
      }
    }
  }

  /** `OrderByDescending(score).ThenBy(entry length)`, a stable sort. */
  function Rank(es: seq<Entry>): seq<Entry> {
    if es == [] then [] else Insert(es[0], Rank(es[1..]))
  }

  /** Ranking entries at distinct positions orders them and keeps every entry. */
  lemma {:induction false} RankSorts(es: seq<Entry>)
    requires forall i, j :: 0 <= i < j < |es| ==> es[i].index != es[j].index
    ensures Ranked(Rank(es)) && multiset(Rank(es)) == multiset(es)
  {
    if es != [] {
      assert es == [es[0]] + es[1..];
      RankSorts(es[1..]);
      var rest := Rank(es[1..]);
      forall e | e in rest ensures e.index != es[0].index {
        assert e in multiset(es[1..]);
      }
      InsertRanked(es[0], rest);
    }
  }

  function Files(es: seq<Entry>): (r: seq<string>)
    ensures |r| == |es| && forall i :: 0 <= i < |es| ==> r[i] == es[i].file
  {
    seq(|es|, i requires 0 <= i < |es| => es[i].file)
  }

  /** `GetModelFilePathByKeywords`: None when the manifest has no files, no keyword is
      usable or no file scores; otherwise the paths of the scoring entries, ranked. */
  function ModelFilePathByKeywords(folder: Option<string>, files: Option<seq<string>>, keywords: seq<Option<string>>,
                                   ops: PathOps): Result<Option<seq<string>>, string>
  {
    if files.None? || files.value == [] then Success(None)
    else
      var valid := ValidKeywords(keywords);
      if valid == [] then Success(None)
      else
        var scored := ScoredFrom(files.value, Scores(files.value, valid, ops), 0);
        if scored == [] then Success(None)
        else
          match FilePaths(folder, Files(Rank(scored)), ops)
          case Failure(e) => Failure(e)
          case Success(paths) => Success(Some(paths))
  }

  /** Without files or usable keywords the keyword lookup finds nothing. */
  lemma KeywordLookupEmpty(folder: Option<string>, files: Option<seq<string>>, keywords: seq<Option<string>>,
                           ops: PathOps)
    requires files.None? || files.value == [] || forall i :: 0 <= i < |keywords| ==> IsNullOrWhiteSpace(keywords[i])
    ensures ModelFilePathByKeywords(folder, files, keywords, ops) == Success(None)
  {
  }

  /** Ranking keeps every entry exactly once. */
  lemma RankKeepsEntries(es: seq<Entry>)
    requires forall i, j :: 0 <= i < j < |es| ==> es[i].index != es[j].index
    ensures Ranked(Rank(es)) && |Rank(es)| == |es|
    ensures forall k :: 0 <= k < |Rank(es)| ==> Rank(es)[k] in es
    ensures forall j :: 0 <= j < |es| ==> es[j] in Rank(es)
  {
    RankSorts(es);
    var ranked := Rank(es);
    assert |ranked| == |multiset(ranked)| == |multiset(es)| == |es|;
    forall k | 0 <= k < |ranked| ensures ranked[k] in es {
      assert ranked[k] in multiset(es);
    }
    forall j | 0 <= j < |es| ensures es[j] in ranked {
      assert es[j] in multiset(ranked);
    }
  }

  /** Ranking the scoring entries keeps each of them exactly once, in ranking order. */
  lemma RankScored(files: seq<string>, scores: seq<nat>)
    requires |scores| == |files|
    ensures var scored := ScoredFrom(files, scores, 0);
      var ranked := Rank(scored);
      Ranked(ranked) && |ranked| == |scored| <= |files|
      && (forall k :: 0 <= k < |ranked| ==> ranked[k] in scored)
      && (forall i :: 0 <= i < |files| && scores[i] > 0 ==> exists k :: 0 <= k < |ranked| && ranked[k].index == i)
  {
    var scored := ScoredFrom(files, scores, 0);
    RankKeepsEntries(scored);
    var ranked := Rank(scored);
    forall i | 0 <= i < |files| && scores[i] > 0
      ensures exists k :: 0 <= k < |ranked| && ranked[k].index == i
    {
      ScoredComplete(files, scores, 0, i);
      var j :| 0 <= j < |scored| && scored[j].index == i;
      assert scored[j] in ranked;
    }
    IndicesBound(scored, |files|);
  }

  /** With files and usable keywords, the lookup finds nothing exactly when no entry
      scores. */
  lemma KeywordLookupNone(folder: Option<string>, files: seq<string>, keywords: seq<Option<string>>, ops: PathOps)
    requires files != [] && ValidKeywords(keywords) != []
    ensures var scores := Scores(files, ValidKeywords(keywords), ops);
      ModelFilePathByKeywords(folder, Some(files), keywords, ops) == Success(None)
      <==> forall i :: 0 <= i < |files| ==> scores[i] == 0
  {
    var scores := Scores(files, ValidKeywords(keywords), ops);
    var scored := ScoredFrom(files, scores, 0);
    if scored != [] {
      assert scored[0].score > 0;
    } else {
      forall i | 0 <= i < |files| ensures scores[i] == 0 {
        if scores[i] > 0 {
          ScoredComplete(files, scores, 0, i);
        }
      }
    }
  }

  /** When it finds something and does not throw, the lookup returns one path per
      scoring entry, each entry exactly once, in ranking order. */
  lemma KeywordLookupRanks(folder: Option<string>, files: seq<string>, keywords: seq<Option<string>>, ops: PathOps)
    requires files != [] && ValidKeywords(keywords) != []
    requires ModelFilePathByKeywords(folder, Some(files), keywords, ops).Success?
    requires ModelFilePathByKeywords(folder, Some(files), keywords, ops).value.Some?
    ensures var paths := ModelFilePathByKeywords(folder, Some(files), keywords, ops).value.value;
      var scores := Scores(files, ValidKeywords(keywords), ops);
      var ranked := Rank(ScoredFrom(files, scores, 0));
      Ranked(ranked) && 0 < |paths| == |ranked| <= |files|
      && (forall k :: 0 <= k < |ranked| ==>
            ranked[k].index < |files| && paths[k] == ops.combine(folder.value, files[ranked[k].index])
            && ranked[k].score == scores[ranked[k].index] > 0)
      && (forall i :: 0 <= i < |files| && scores[i] > 0 ==> exists k :: 0 <= k < |ranked| && ranked[k].index == i)
  {
    var scores := Scores(files, ValidKeywords(keywords), ops);
    var scored := ScoredFrom(files, scores, 0);
    var ranked := Rank(scored);
    RankScored(files, scores);
    var paths := ModelFilePathByKeywords(folder, Some(files), keywords, ops).value.value;
    assert FilePaths(folder, Files(ranked), ops) == Success(paths);
  }

  lemma IndicesBound(es: seq<Entry>, n: nat)
    requires forall k :: 0 <= k < |es| ==> es[k].index < n
    requires forall k, l :: 0 <= k < l < |es| ==> es[k].index < es[l].index
    ensures |es| <= n
  {
    if es != [] {
      var last := es[|es| - 1];
      IndicesBelow(es, last.index);
    }
  }

  lemma {:induction false} IndicesBelow(es: seq<Entry>, m: nat)
    requires es != [] && es[|es| - 1].index == m
    requires forall k, l :: 0 <= k < l < |es| ==> es[k].index < es[l].index
    ensures |es| <= m + 1
    decreases |es|
  {
    if |es| > 1 {
      var front := es[..|es| - 1];
      assert front[|front| - 1].index < m;
      IndicesBelow(front, front[|front| - 1].index);
    }
  }

  // ---------------------------------------------------------------------------------
  // Extension filter

  /** The non-blank extensions, each given a leading dot unless it has one. */
  function ValidExtensions(extensions: seq<Option<string>>): (r: seq<string>)
    ensures forall e :: e in r ==> StartsWith(e, ".")
    ensures forall i :: 0 <= i < |extensions| && !IsNullOrWhiteSpace(extensions[i])
                        ==> WithDot(extensions[i].value) in r
    ensures forall e :: e in r ==> exists i :: 0 <= i < |extensions| && !IsNullOrWhiteSpace(extensions[i])
                                              && e == WithDot(extensions[i].value)
  {
    if extensions == [] then []
    else
      var rest := ValidExtensions(extensions[1..]);
      assert forall i :: 1 <= i < |extensions| ==> extensions[i] == extensions[1..][i - 1];
      if IsNullOrWhiteSpace(extensions[0]) then rest else [WithDot(extensions[0].value)] + rest
  }

  function WithDot(e: string): (r: string)
    ensures StartsWith(r, ".")
    ensures StartsWith(e, ".") ==> r == e
    ensures !StartsWith(e, ".") ==> r == "." + e
  {
    if StartsWith(e, ".") then e else "." + e
  }

  /** Membership in the case-insensitive extension set. */
  predicate HasExtension(file: string, valid: seq<string>, ops: PathOps) {
    exists e :: e in valid && EqualsIgnoreCase(ops.extension(file), e)
  }

  /** The manifest entries with a wanted extension, in manifest order. */
  function WithExtension(files: seq<string>, valid: seq<string>, ops: PathOps): (r: seq<string>)
    ensures |r| <= |files|
    ensures forall f :: f in r <==> f in files && HasExtension(f, valid, ops)
  {
    if files == [] then []
    else
      var rest := WithExtension(files[1..], valid, ops);
      assert forall f :: f in files <==> f == files[0] || f in files[1..];
      if HasExtension(files[0], valid, ops) then [files[0]] + rest else rest
  }

  lemma {:induction false} WithExtensionAppend(a: seq<string>, b: seq<string>, valid: seq<string>, ops: PathOps)
    ensures WithExtension(a + b, valid, ops) == WithExtension(a, valid, ops) + WithExtension(b, valid, ops)
    decreases |a|
  {
    if a == [] {
      assert a + b == b;
    } else {
      assert (a + b)[1..] == a[1..] + b;
      WithExtensionAppend(a[1..], b, valid, ops);
    }
  }

  /** `GetModelFilesByExtensionName`: empty without files or usable extensions;
      otherwise the paths of the entries with a wanted extension, in manifest order. */
  function ModelFilesByExtension(folder: Option<string>, files: Option<seq<string>>, extensions: seq<Option<string>>,
                                 ops: PathOps): (r: Result<seq<string>, string>)
    ensures files.None? || files.value == [] || ValidExtensions(extensions) == [] ==> r == Success([])
    ensures r.Success? && files.Some? ==> |r.value| <= |files.value|
    ensures r.Success? && files.Some? && ValidExtensions(extensions) != [] ==>
      var kept := WithExtension(files.value, ValidExtensions(extensions), ops);
      |r.value| == |kept| && (kept != [] ==> folder.Some?)
      && forall i :: 0 <= i < |kept| ==> r.value[i] == ops.combine(folder.value, kept[i])
  {
    if files.None? || files.value == [] then Success([])
    else
      var valid := ValidExtensions(extensions);
      if valid == [] then Success([])
      else FilePaths(folder, WithExtension(files.value, valid, ops), ops)
  }
}

=== FILE: nlu.dfy ===
module Nlu {
  // The keyword-driven command matcher of NluController.  Each declared command becomes
  // keyword records in a trie; a tokenised sentence is matched in passes over name
  // synonyms, enum keywords, numbers and completeness, and the complete commands are
  // stored until they are executed against the registry.

  import opened Wrappers
  import opened Text
  import opened Dictionaries
  import opened Registry
  import opened KeywordTrie

  // ----- Function definitions (the JSON registry) -----

  /** One allowed value of an enum parameter and the keywords that name it. */
  datatype EnumValue = EnumValue(value: Value, keywords: seq<string>)

  /** A parameter of a function definition; `enumValues` is absent for free parameters. */
  datatype ParamDef = ParamDef(paramName: string, paramType: string, enumValues: Option<seq<EnumValue>>)

  /** A function definition: its name, the synonyms that name it in speech, and its
      parameters. */
  datatype FunctionDef = FunctionDef(name: string, nameSynonyms: Option<seq<string>>, parameters: seq<ParamDef>)

  /** `FunctionCallCommand`. */
  datatype Command = Command(
    functionName: string,
    arguments: Dict<Value>,
    confidence: real,
    matchedKeywords: seq<string>)

  predicate HasDef(defs: seq<FunctionDef>, name: string) {
    exists i :: 0 <= i < |defs| && defs[i].name == name
  }

  /** `defs.First(f => f.Name == name)`. */
  function FirstDef(defs: seq<FunctionDef>, name: string): (r: FunctionDef)
    requires HasDef(defs, name)
    ensures r in defs && r.name == name
  {
    if defs[0].name == name then defs[0] else FirstDef(defs[1..], name)
  }

  // ----- Keyword records (BuildTrieFromRegistry) -----

  /** The records for a definition's name synonyms: no parameter, null value. */
  function SynonymInfos(d: FunctionDef): (r: seq<KeywordInfo>)
    ensures forall x :: x in r ==> x.functionName == d.name && x.parameterName.None? && x.mappedValue == Null
  {
    if d.nameSynonyms.None? then []
    else
      var syns := d.nameSynonyms.value;
      seq(|syns|, i requires 0 <= i < |syns| => KeywordInfo(syns[i], d.name, None, Null))
  }

  /** The records for the keywords of one enum value. */
  function EnumValueInfos(fname: string, pname: string, e: EnumValue): (r: seq<KeywordInfo>)
    ensures forall x :: x in r ==> x.functionName == fname && x.parameterName == Some(pname) && x.mappedValue == e.value
  {
    seq(|e.keywords|, i requires 0 <= i < |e.keywords| => KeywordInfo(e.keywords[i], fname, Some(pname), e.value))
  }

  /** The records for every enum keyword of a parameter, enum value by enum value. */
  function EnumInfos(fname: string, pname: string, es: seq<EnumValue>): (r: seq<KeywordInfo>)
    ensures forall x :: x in r ==> x.functionName == fname && x.parameterName == Some(pname)
  {
    if es == [] then []
    else EnumInfos(fname, pname, es[..|es| - 1]) + EnumValueInfos(fname, pname, es[|es| - 1])
  }

  /** The records for the enum keywords of a list of parameters. */
  function ParamInfos(fname: string, ps: seq<ParamDef>): (r: seq<KeywordInfo>)
    ensures forall x :: x in r ==> x.functionName == fname && x.parameterName.Some?
  {
    if ps == [] then []
    else
      var p := ps[|ps| - 1];
      ParamInfos(fname, ps[..|ps| - 1])
      + (if p.enumValues.None? then [] else EnumInfos(fname, p.paramName, p.enumValues.value))
  }

  /** The records inserted for one definition: its synonyms, then its enum keywords. */
  function DefInfos(d: FunctionDef): (r: seq<KeywordInfo>)
    ensures forall x :: x in r ==> x.functionName == d.name
  {
    SynonymInfos(d) + ParamInfos(d.name, d.parameters)
  }

  /** Every record inserted into the trie by `BuildTrieFromRegistry`, in insertion order. */
  function KeywordInfos(defs: seq<FunctionDef>): (r: seq<KeywordInfo>)
    ensures forall x :: x in r ==> HasDef(defs, x.functionName)
    ensures forall x :: x in r && x.parameterName.None? ==> x.mappedValue == Null
  {
    if defs == [] then []
    else
      var init := defs[..|defs| - 1];
      var r := KeywordInfos(init) + DefInfos(defs[|defs| - 1]);
      assert forall x :: x in KeywordInfos(init) ==> HasDef(defs, x.functionName) by {
        forall x | x in KeywordInfos(init) ensures HasDef(defs, x.functionName) {
          var i :| 0 <= i < |init| && init[i].name == x.functionName;
          assert defs[i] == init[i];
        }
      }
      assert forall x :: x in DefInfos(defs[|defs| - 1]) ==> HasDef(defs, x.functionName);
      r
  }

  /** Every name synonym of every definition is inserted with the definition's name, no
      parameter and a null value. */
  lemma {:induction false} SynonymsInserted(defs: seq<FunctionDef>, i: nat, j: nat)
    requires i < |defs| && defs[i].nameSynonyms.Some? && j < |defs[i].nameSynonyms.value|
    ensures KeywordInfo(defs[i].nameSynonyms.value[j], defs[i].name, None, Null) in KeywordInfos(defs)
  {
    var init := defs[..|defs| - 1];
    if i < |defs| - 1 {
      assert init[i] == defs[i];
      SynonymsInserted(init, i, j);
    } else {
      assert SynonymInfos(defs[i])[j] == KeywordInfo(defs[i].nameSynonyms.value[j], defs[i].name, None, Null);
    }
  }

  /** Every keyword of every enum value is inserted with its function, its parameter and
      the enum value. */
  lemma {:induction false} EnumKeywordsInserted(defs: seq<FunctionDef>, i: nat, p: nat, e: nat, k: nat)
    requires i < |defs| && p < |defs[i].parameters|
    requires defs[i].parameters[p].enumValues.Some?
    requires e < |defs[i].parameters[p].enumValues.value|
    requires k < |defs[i].parameters[p].enumValues.value[e].keywords|
    ensures var pd := defs[i].parameters[p];
      var ev := pd.enumValues.value[e];
      KeywordInfo(ev.keywords[k], defs[i].name, Some(pd.paramName), ev.value) in KeywordInfos(defs)
  {
    var init := defs[..|defs| - 1];
    if i < |defs| - 1 {
      assert init[i] == defs[i];
      EnumKeywordsInserted(init, i, p, e, k);
    } else {
      ParamKeywordInserted(defs[i].name, defs[i].parameters, p, e, k);
    }
  }

  lemma {:induction false} ParamKeywordInserted(fname: string, ps: seq<ParamDef>, p: nat, e: nat, k: nat)
    requires p < |ps| && ps[p].enumValues.Some?
    requires e < |ps[p].enumValues.value| && k < |ps[p].enumValues.value[e].keywords|
    ensures var ev := ps[p].enumValues.value[e];
      KeywordInfo(ev.keywords[k], fname, Some(ps[p].paramName), ev.value) in ParamInfos(fname, ps)
  {
    if p < |ps| - 1 {
      assert ps[..|ps| - 1][p] == ps[p];
      ParamKeywordInserted(fname, ps[..|ps| - 1], p, e, k);
    } else {
      EnumKeywordInserted(fname, ps[p].paramName, ps[p].enumValues.value, e, k);
    }
  }

  lemma {:induction false} EnumKeywordInserted(fname: string, pname: string, es: seq<EnumValue>, e: nat, k: nat)
    requires e < |es| && k < |es[e].keywords|
    ensures KeywordInfo(es[e].keywords[k], fname, Some(pname), es[e].value) in EnumInfos(fname, pname, es)
  {
    if e < |es| - 1 {
      assert es[..|es| - 1][e] == es[e];
      EnumKeywordInserted(fname, pname, es[..|es| - 1], e, k);
    } else {
      assert EnumValueInfos(fname, pname, es[e])[k] == KeywordInfo(es[e].keywords[k], fname, Some(pname), es[e].value);
    }
  }

  // ----- First-occurrence deduplication -----

  /** Appends to `d` each element of `s` that is not already present, in order. */
  function AddNew(d: seq<string>, s: seq<string>): (r: seq<string>)
  {
    if s == [] then d
    else
      var r := AddNew(d, s[..|s| - 1]);
      if s[|s| - 1] in r then r else r + [s[|s| - 1]]
  }

  /** LINQ `Distinct()`: the first occurrence of every element, in order. */
  function Distinct(s: seq<string>): seq<string> {
    AddNew([], s)
  }

  predicate NoDuplicates(s: seq<string>) {
    forall i, j :: 0 <= i < j < |s| ==> s[i] != s[j]
  }

  /** `AddNew` keeps `d` as a prefix, adds only elements of `s`, every element of `s` ends
      up present, and nothing is added twice. */
  lemma {:induction false} AddNewProperties(d: seq<string>, s: seq<string>)
    ensures var r := AddNew(d, s);
      |r| >= |d| && r[..|d|] == d
      && (forall x :: x in r <==> x in d || x in s)
      && (NoDuplicates(d) ==> NoDuplicates(r))
  {
    if s != [] {
      AddNewProperties(d, s[..|s| - 1]);
      var r := AddNew(d, s[..|s| - 1]);
      assert forall x :: x in s <==> x in s[..|s| - 1] || x == s[|s| - 1] by {
        assert s == s[..|s| - 1] + [s[|s| - 1]];
      }
      if s[|s| - 1] !in r {
        assert (r + [s[|s| - 1]])[..|d|] == r[..|d|];
      }
    }
  }

  /** `Distinct` has no duplicates and the same elements as its input. */
  lemma DistinctProperties(s: seq<string>)
    ensures NoDuplicates(Distinct(s))
    ensures forall x :: x in Distinct(s) <==> x in s
  {
    AddNewProperties([], s);
  }

  /** Adding `a` then `b` is adding `a + b`. */
  lemma {:induction false} AddNewAppend(d: seq<string>, a: seq<string>, b: seq<string>)
    ensures AddNew(AddNew(d, a), b) == AddNew(d, a + b)
  {
    if b == [] {
      assert a + b == a;
    } else {
      AddNewAppend(d, a, b[..|b| - 1]);
      assert (a + b)[..|a + b| - 1] == a + b[..|b| - 1];
    }
  }

  /** Deduplicating `s` first does not change what `AddNew` adds. */
  lemma {:induction false} AddNewDistinct(d: seq<string>, s: seq<string>)
    ensures AddNew(d, Distinct(s)) == AddNew(d, s)
  {
    if s != [] {
      var init := s[..|s| - 1];
      var x := s[|s| - 1];
      var e := Distinct(init);
      AddNewDistinct(d, init);
      if x in e {
        DistinctProperties(init);
        AddNewProperties(d, init);
      } else {
        assert (e + [x])[..|e + [x]| - 1] == e;
      }
    }
  }

  // ----- Pass 1: candidates from function-name synonyms -----

  function CommandNames(cands: seq<Command>): (r: seq<string>)
    ensures |r| == |cands| && forall i :: 0 <= i < |cands| ==> r[i] == cands[i].functionName
  {
    seq(|cands|, i requires 0 <= i < |cands| => cands[i].functionName)
  }

  /** A new candidate for `name`, found through keyword `segment`. */
  function NewCommand(name: string, segment: string): Command {
    Command(name, Empty(), 0.0, [segment])
  }

  /** Function names of the synonym records among `matches`, in order (with repeats). */
  function SynonymNames(matches: seq<KeywordInfo>): seq<string> {
    if matches == [] then []
    else
      var m := matches[|matches| - 1];
      SynonymNames(matches[..|matches| - 1]) + (if m.parameterName.None? then [m.functionName] else [])
  }

  /** Adds a candidate for each name in `names` that has none yet. */
  function AddCandidates(cands: seq<Command>, names: seq<string>, segment: string): (r: seq<Command>)
    ensures CommandNames(r) == AddNew(CommandNames(cands), names)
    ensures |r| >= |cands| && r[..|cands|] == cands
    ensures forall i :: |cands| <= i < |r| ==> r[i] == NewCommand(r[i].functionName, segment)
  {
    if names == [] then cands
    else
      var r := AddCandidates(cands, names[..|names| - 1], segment);
      var name := names[|names| - 1];
      if name in CommandNames(r) then r
      else
        assert CommandNames(r + [NewCommand(name, segment)]) == CommandNames(r) + [name];
        r + [NewCommand(name, segment)]
  }

  /** Pass 1 over the first tokens: the candidates found so far. */
  function Pass1(infos: seq<KeywordInfo>, segments: seq<string>): (r: seq<Command>)
    ensures forall i :: 0 <= i < |r| ==> r[i].arguments == Empty() && r[i].confidence == 0.0
  {
    if segments == [] then []
    else
      var seg := segments[|segments| - 1];
      AddCandidates(Pass1(infos, segments[..|segments| - 1]), Distinct(SynonymNames(WithKeyword(infos, seg))), seg)
  }

  /** A synonym name is the function of one of the matched records. */
  lemma {:induction false} SynonymNamesFrom(matches: seq<KeywordInfo>)
    ensures forall n :: n in SynonymNames(matches) ==> exists x :: x in matches && x.functionName == n
  {
    if matches != [] {
      SynonymNamesFrom(matches[..|matches| - 1]);
    }
  }

  /** Every function named by a token's synonym is the function of an inserted record. */
  lemma {:induction false} AllSynonymNamesFrom(infos: seq<KeywordInfo>, segments: seq<string>)
    ensures forall n :: n in AllSynonymNames(infos, segments) ==> exists x :: x in infos && x.functionName == n
  {
    if segments != [] {
      AllSynonymNamesFrom(infos, segments[..|segments| - 1]);
      SynonymNamesFrom(WithKeyword(infos, segments[|segments| - 1]));
    }
  }

  /** All function names named by synonyms of the tokens, in token order (with repeats). */
  function AllSynonymNames(infos: seq<KeywordInfo>, segments: seq<string>): seq<string> {
    if segments == [] then []
    else AllSynonymNames(infos, segments[..|segments| - 1])
         + SynonymNames(WithKeyword(infos, segments[|segments| - 1]))
  }

  /** Pass 1 yields one candidate per distinct function named by a synonym among the
      tokens, in the order the functions are first named, without duplicates. */
  lemma {:induction false} Pass1Names(infos: seq<KeywordInfo>, segments: seq<string>)
    ensures CommandNames(Pass1(infos, segments)) == Distinct(AllSynonymNames(infos, segments))
    ensures NoDuplicates(CommandNames(Pass1(infos, segments)))
    ensures forall n :: n in CommandNames(Pass1(infos, segments)) <==> n in AllSynonymNames(infos, segments)
  {
    if segments != [] {
      var init := segments[..|segments| - 1];
      var seg := segments[|segments| - 1];
      var names := SynonymNames(WithKeyword(infos, seg));
      Pass1Names(infos, init);
      AddNewDistinct(CommandNames(Pass1(infos, init)), names);
      AddNewAppend([], AllSynonymNames(infos, init), names);
    }
    DistinctProperties(AllSynonymNames(infos, segments));
  }

  /** Every candidate of pass 1 names a defined function, so looking its definition up
      never fails. */
  lemma Pass1HasDefs(defs: seq<FunctionDef>, segments: seq<string>)
    ensures AllDefined(defs, Pass1(KeywordInfos(defs), segments))
  {
    var infos := KeywordInfos(defs);
    var r := Pass1(infos, segments);
    Pass1Names(infos, segments);
    AllSynonymNamesFrom(infos, segments);
    forall i | 0 <= i < |r| ensures HasDef(defs, r[i].functionName) {
      var n := CommandNames(r)[i];
      assert n in CommandNames(r);
      assert n in AllSynonymNames(infos, segments);
      var x :| x in infos && x.functionName == n;
    }
  }

  // ----- Pass 2a: enum keywords -----

  ghost predicate WellFormed(cands: seq<Command>) {
    forall i :: 0 <= i < |cands| ==> cands[i].arguments.Valid()
  }

  /** `FirstOrDefault(c => c.FunctionName == name)`, as an index, searching from `k`. */
  function FirstIndexNamed(cands: seq<Command>, name: string, k: nat := 0): (r: Option<nat>)
    requires k <= |cands|
    ensures r.Some? ==> k <= r.value < |cands| && cands[r.value].functionName == name
                        && forall j :: k <= j < r.value ==> cands[j].functionName != name
    ensures r.None? ==> forall j :: k <= j < |cands| ==> cands[j].functionName != name
    decreases |cands| - k
  {
    if k == |cands| then None
    else if cands[k].functionName == name then Some(k)
    else FirstIndexNamed(cands, name, k + 1)
  }

  /** The enum records among a token's matches (`Where(info => info.ParameterName != null)`). */
  function ParamMatches(matches: seq<KeywordInfo>): (r: seq<KeywordInfo>)
    ensures forall m :: m in r ==> m in matches && m.parameterName.Some?
  {
    if matches == [] then []
    else
      var m := matches[|matches| - 1];
      ParamMatches(matches[..|matches| - 1]) + (if m.parameterName.Some? then [m] else [])
  }

  /** The arguments of candidate `i` only grow: every argument already set keeps its value. */
  ghost predicate Extends(before: seq<Command>, after: seq<Command>) {
    |after| == |before|
    && CommandNames(after) == CommandNames(before)
    && forall i, key :: 0 <= i < |before| && before[i].arguments.ContainsKey(key)
                        ==> after[i].arguments.Get(key) == before[i].arguments.Get(key)
  }

  lemma ExtendsTransitive(a: seq<Command>, b: seq<Command>, c: seq<Command>)
    requires Extends(a, b) && Extends(b, c)
    ensures Extends(a, c)
  {
    forall i, key | 0 <= i < |a| && a[i].arguments.ContainsKey(key)
      ensures c[i].arguments.Get(key) == a[i].arguments.Get(key)
    {
      assert b[i].arguments.Get(key) == a[i].arguments.Get(key);
    }
  }

  /** One enum match: sets the parameter on the first candidate of the match's function,
      unless that candidate has it already. */
  function EnumStep(cands: seq<Command>, m: KeywordInfo, segment: string): (r: seq<Command>)
    requires WellFormed(cands) && m.parameterName.Some?
    ensures WellFormed(r) && Extends(cands, r)
    ensures forall i, key :: 0 <= i < |r| && r[i].arguments.ContainsKey(key) && !cands[i].arguments.ContainsKey(key)
              ==> r[i].functionName == m.functionName && key == m.parameterName.value
                  && r[i].arguments.Get(key) == Some(m.mappedValue)
  {
    var k := FirstIndexNamed(cands, m.functionName);
    var key := m.parameterName.value;
    if k.Some? && !cands[k.value].arguments.ContainsKey(key) then
      var c := cands[k.value];
      var c' := c.(arguments := c.arguments.Put(key, m.mappedValue), matchedKeywords := c.matchedKeywords + [segment]);
      var r := cands[k.value := c'];
      assert CommandNames(r) == CommandNames(cands);
      r
    else cands
  }

  /** Pass 2a for one token: every enum match of the token, in order. */
  function EnumFill(cands: seq<Command>, ms: seq<KeywordInfo>, segment: string): (r: seq<Command>)
    requires WellFormed(cands) && forall m :: m in ms ==> m.parameterName.Some?
    ensures WellFormed(r) && Extends(cands, r)
  {
    if ms == [] then cands
    else
      var prev := EnumFill(cands, ms[..|ms| - 1], segment);
      var r := EnumStep(prev, ms[|ms| - 1], segment);
      ExtendsTransitive(cands, prev, r);
      r
  }

  /** Does some match of `ms` set parameter `key` of function `name` to `v`? */
  predicate SetBy(ms: seq<KeywordInfo>, name: string, key: string, v: Value) {
    exists m :: m in ms && m.functionName == name && m.parameterName == Some(key) && m.mappedValue == v
  }

  /** An enum keyword fills a parameter only of a candidate of the keyword's own function,
      only when the parameter had no value, and with the keyword's enum value. */
  lemma {:induction false} EnumFillProvenance(cands: seq<Command>, ms: seq<KeywordInfo>, segment: string, i: nat, key: string)
    requires WellFormed(cands) && forall m :: m in ms ==> m.parameterName.Some?
    requires i < |cands| && !cands[i].arguments.ContainsKey(key)
    ensures var r := EnumFill(cands, ms, segment);
      r[i].arguments.ContainsKey(key) ==> SetBy(ms, r[i].functionName, key, r[i].arguments.entries[key])
  {
    if ms != [] {
      var init := ms[..|ms| - 1];
      var m := ms[|ms| - 1];
      var prev := EnumFill(cands, init, segment);
      var r := EnumStep(prev, m, segment);
      assert CommandNames(r)[i] == CommandNames(prev)[i];
      if prev[i].arguments.ContainsKey(key) {
        EnumFillProvenance(cands, init, segment, i, key);
        var m' :| m' in init && m'.functionName == prev[i].functionName && m'.parameterName == Some(key)
                  && m'.mappedValue == prev[i].arguments.entries[key];
        assert m' in ms;
      } else if r[i].arguments.ContainsKey(key) {
        assert m in ms;
      }
    }
  }

  // ----- Pass 2b: numbers -----

  /** `ParamType.Equals("Number", StringComparison.OrdinalIgnoreCase)`. */
  predicate IsNumberParam(p: ParamDef) {
    EqualsIgnoreCase(p.paramType, "Number")
  }

  /** The first parameter of type Number that has no argument yet. */
  function FreeNumberParam(ps: seq<ParamDef>, args: Dict<Value>): (r: Option<string>)
    ensures r.Some? ==> exists j :: 0 <= j < |ps| && ps[j].paramName == r.value
                                    && IsNumberParam(ps[j]) && !args.ContainsKey(r.value)
                                    && forall i :: 0 <= i < j ==> !(IsNumberParam(ps[i]) && !args.ContainsKey(ps[i].paramName))
    ensures r.None? <==> forall j :: 0 <= j < |ps| ==> !(IsNumberParam(ps[j]) && !args.ContainsKey(ps[j].paramName))
  {
    if ps == [] then None
    else if IsNumberParam(ps[0]) && !args.ContainsKey(ps[0].paramName) then Some(ps[0].paramName)
    else
      var r := FreeNumberParam(ps[1..], args);
      if r.Some? then
        var j :| 0 <= j < |ps[1..]| && ps[1..][j].paramName == r.value && IsNumberParam(ps[1..][j])
                 && !args.ContainsKey(r.value)
                 && forall i :: 0 <= i < j ==> !(IsNumberParam(ps[1..][i]) && !args.ContainsKey(ps[1..][i].paramName));
        assert ps[j + 1] == ps[1..][j];
        assert forall i :: 1 <= i < j + 1 ==> ps[i] == ps[1..][i - 1];
        r
      else
        assert forall j :: 1 <= j < |ps| ==> ps[j] == ps[1..][j - 1];
        r
  }

  ghost predicate AllDefined(defs: seq<FunctionDef>, cands: seq<Command>) {
    forall i :: 0 <= i < |cands| ==> HasDef(defs, cands[i].functionName)
  }

  /** The free Number parameter of a candidate's definition, if any. */
  function NumberSlot(defs: seq<FunctionDef>, c: Command): Option<string>
    requires HasDef(defs, c.functionName)
  {
    FreeNumberParam(FirstDef(defs, c.functionName).parameters, c.arguments)
  }

  /** A candidate with its free Number parameter set to `x`. */
  function FillNumber(defs: seq<FunctionDef>, c: Command, segment: string, x: real): (r: Command)
    requires HasDef(defs, c.functionName) && NumberSlot(defs, c).Some? && c.arguments.Valid()
    ensures r.functionName == c.functionName && r.arguments.Valid()
  {
    c.(arguments := c.arguments.Put(NumberSlot(defs, c).value, Number(x)),
       matchedKeywords := c.matchedKeywords + [segment])
  }

  /** Pass 2b for a numeric token, trying candidates from index `k` on. */
  function NumberFill(cands: seq<Command>, defs: seq<FunctionDef>, segment: string, x: real, k: nat := 0): seq<Command>
    requires WellFormed(cands) && AllDefined(defs, cands) && k <= |cands|
    decreases |cands| - k
  {
    if k == |cands| then cands
    else if NumberSlot(defs, cands[k]).Some? then cands[k := FillNumber(defs, cands[k], segment, x)]
    else NumberFill(cands, defs, segment, x, k + 1)
  }

  /** A number fills at most one parameter: the first free Number parameter of the first
      candidate that has one; every argument set before keeps its value. */
  lemma NumberFillChangesOne(cands: seq<Command>, defs: seq<FunctionDef>, segment: string, x: real)
    requires WellFormed(cands) && AllDefined(defs, cands)
    ensures var r := NumberFill(cands, defs, segment, x);
      WellFormed(r) && AllDefined(defs, r) && Extends(cands, r)
    ensures (forall j :: 0 <= j < |cands| ==> NumberSlot(defs, cands[j]).None?)
            ==> NumberFill(cands, defs, segment, x) == cands
    ensures forall j :: 0 <= j < |cands| && NumberSlot(defs, cands[j]).Some?
                        && (forall i :: 0 <= i < j ==> NumberSlot(defs, cands[i]).None?)
                        ==> NumberFill(cands, defs, segment, x) == cands[j := FillNumber(defs, cands[j], segment, x)]
  {
    if exists j :: 0 <= j < |cands| && NumberSlot(defs, cands[j]).Some? {
      var j := FirstSlot(cands, defs);
      NumberFillFirst(cands, defs, segment, x, 0, j);
      FillNumberExtends(cands, defs, j, segment, x);
      forall j' | 0 <= j' < |cands| && NumberSlot(defs, cands[j']).Some?
                  && (forall i :: 0 <= i < j' ==> NumberSlot(defs, cands[i]).None?)
        ensures j' == j
      {
        assert !(j' < j);
        assert !(j < j');
      }
    } else {
      NumberFillNone(cands, defs, segment, x, 0);
    }
  }

  lemma {:induction false} NumberFillFirst(cands: seq<Command>, defs: seq<FunctionDef>, segment: string, x: real, k: nat, j: nat)
    requires WellFormed(cands) && AllDefined(defs, cands) && k <= j < |cands|
    requires NumberSlot(defs, cands[j]).Some? && forall i :: k <= i < j ==> NumberSlot(defs, cands[i]).None?
    ensures NumberFill(cands, defs, segment, x, k) == cands[j := FillNumber(defs, cands[j], segment, x)]
    decreases j - k
  {
    if k < j {
      NumberFillFirst(cands, defs, segment, x, k + 1, j);
    }
  }

  lemma {:induction false} NumberFillNone(cands: seq<Command>, defs: seq<FunctionDef>, segment: string, x: real, k: nat)
    requires WellFormed(cands) && AllDefined(defs, cands) && k <= |cands|
    requires forall i :: k <= i < |cands| ==> NumberSlot(defs, cands[i]).None?
    ensures NumberFill(cands, defs, segment, x, k) == cands
    decreases |cands| - k
  {
    if k < |cands| {
      NumberFillNone(cands, defs, segment, x, k + 1);
    }
  }

  lemma FillNumberExtends(cands: seq<Command>, defs: seq<FunctionDef>, j: nat, segment: string, x: real)
    requires WellFormed(cands) && AllDefined(defs, cands)
    requires j < |cands| && NumberSlot(defs, cands[j]).Some?
    ensures var r := cands[j := FillNumber(defs, cands[j], segment, x)];
      WellFormed(r) && AllDefined(defs, r) && Extends(cands, r)
  {
    var c := cands[j];
    var slot := NumberSlot(defs, c).value;
    var r := cands[j := FillNumber(defs, c, segment, x)];
    assert !c.arguments.ContainsKey(slot);
    assert CommandNames(r) == CommandNames(cands);
  }

  /** The first candidate that has a free Number parameter. */
  lemma FirstSlot(cands: seq<Command>, defs: seq<FunctionDef>) returns (j: nat)
    requires AllDefined(defs, cands)
    requires exists j :: 0 <= j < |cands| && NumberSlot(defs, cands[j]).Some?
    ensures j < |cands| && NumberSlot(defs, cands[j]).Some?
    ensures forall i :: 0 <= i < j ==> NumberSlot(defs, cands[i]).None?
  {
    var hasSlot := (c: Command) => HasDef(defs, c.functionName) && NumberSlot(defs, c).Some?;
    var w :| 0 <= w < |cands| && NumberSlot(defs, cands[w]).Some?;
    assert hasSlot(cands[w]);
    j := FirstIndex(cands, hasSlot);
    forall i | 0 <= i < j ensures NumberSlot(defs, cands[i]).None? {
      assert !hasSlot(cands[i]);
    }
  }

  /** The first element of `s` that satisfies `p`. */
  lemma FirstIndex<T>(s: seq<T>, p: T -> bool) returns (j: nat)
    requires exists k :: 0 <= k < |s| && p(s[k])
    ensures j < |s| && p(s[j])
    ensures forall i :: 0 <= i < j ==> !p(s[i])
  {
    var w :| 0 <= w < |s| && p(s[w]);
    j := 0;
    while !p(s[j])
      invariant 0 <= j <= w
      invariant forall i :: 0 <= i < j ==> !p(s[i])
      decreases w - j
    {
      j := j + 1;
    }
  }

  // ----- Pass 2: both kinds of argument, token by token -----

  /** Pass 2 for one token: its enum matches, then the token as a number if it parses. */
  function FillStep(infos: seq<KeywordInfo>, defs: seq<FunctionDef>, cands: seq<Command>, segment: string,
                    parse: string -> Option<real>): (r: seq<Command>)
    requires WellFormed(cands) && AllDefined(defs, cands)
    ensures WellFormed(r) && AllDefined(defs, r) && Extends(cands, r)
  {
    var c1 := EnumFill(cands, ParamMatches(WithKeyword(infos, segment)), segment);
    assert AllDefined(defs, c1) by {
      forall i | 0 <= i < |c1| ensures HasDef(defs, c1[i].functionName) {
        assert CommandNames(c1)[i] == CommandNames(cands)[i];
      }
    }
    var n := parse(segment);
    if n.Some? then
      NumberFillChangesOne(c1, defs, segment, n.value);
      var r := NumberFill(c1, defs, segment, n.value);
      ExtendsTransitive(cands, c1, r);
      r
    else c1
  }

  /** Pass 2 over the first tokens. */
  function Pass2(infos: seq<KeywordInfo>, defs: seq<FunctionDef>, cands: seq<Command>, segments: seq<string>,
                 parse: string -> Option<real>): (r: seq<Command>)
    requires WellFormed(cands) && AllDefined(defs, cands)
    ensures WellFormed(r) && AllDefined(defs, r) && Extends(cands, r)
  {
    if segments == [] then cands
    else
      var prev := Pass2(infos, defs, cands, segments[..|segments| - 1], parse);
      var r := FillStep(infos, defs, prev, segments[|segments| - 1], parse);
      ExtendsTransitive(cands, prev, r);
      r
  }

  // ----- Pass 3: complete commands, up to the limit -----

  /** Has the command an argument for every declared parameter (by count)? */
  predicate Complete(defs: seq<FunctionDef>, c: Command)
    requires HasDef(defs, c.functionName)
  {
    c.arguments.Count() >= |FirstDef(defs, c.functionName).parameters|
  }

  /** The stored commands after examining `cands`: complete ones get confidence 1.0 and
      are kept in order until `limit` are stored. */
  function Select(defs: seq<FunctionDef>, cands: seq<Command>, limit: int): (r: seq<Command>)
    requires AllDefined(defs, cands)
  {
    if cands == [] then []
    else
      var s := Select(defs, cands[..|cands| - 1], limit);
      var c := cands[|cands| - 1];
      if |s| >= limit then s
      else if Complete(defs, c) then s + [c.(confidence := 1.0)]
      else s
  }

  /** Every complete candidate, with confidence 1.0, in order. */
  function CompleteCommands(defs: seq<FunctionDef>, cands: seq<Command>): (r: seq<Command>)
    requires AllDefined(defs, cands)
    ensures forall c :: c in r ==> c.confidence == 1.0
  {
    if cands == [] then []
    else
      var c := cands[|cands| - 1];
      CompleteCommands(defs, cands[..|cands| - 1]) + (if Complete(defs, c) then [c.(confidence := 1.0)] else [])
  }

  /** The stored commands are exactly the first `limit` complete candidates, in candidate
      order, each with confidence 1.0 (none for a limit of zero or less). */
  lemma {:induction false} SelectIsFirstComplete(defs: seq<FunctionDef>, cands: seq<Command>, limit: int)
    requires AllDefined(defs, cands)
    ensures var all := CompleteCommands(defs, cands);
      Select(defs, cands, limit) == all[..if limit <= 0 then 0 else if limit < |all| then limit else |all|]
  {
    if cands != [] {
      var init := cands[..|cands| - 1];
      SelectIsFirstComplete(defs, init, limit);
      var all0 := CompleteCommands(defs, init);
      var all := CompleteCommands(defs, cands);
      assert all[..|all0|] == all0;
    }
  }

  /** Once `limit` commands are stored, later candidates change nothing (the loop breaks). */
  lemma {:induction false} SelectSaturated(defs: seq<FunctionDef>, cands: seq<Command>, k: nat, limit: int)
    requires AllDefined(defs, cands) && k <= |cands|
    requires |Select(defs, cands[..k], limit)| >= limit
    ensures Select(defs, cands, limit) == Select(defs, cands[..k], limit)
    decreases |cands| - k
  {
    if k < |cands| {
      assert cands[..k + 1][..k] == cands[..k];
      SelectSaturated(defs, cands, k + 1, limit);
    } else {
      assert cands[..k] == cands;
    }
  }

  // ----- The whole match -----

  /** The outcome of matching a tokenised sentence: None when no function is named (the
      store is then left alone), otherwise the commands to store. */
  function MatchCommands(defs: seq<FunctionDef>, segments: seq<string>, parse: string -> Option<real>, limit: int)
    : (r: Option<seq<Command>>)
    ensures r.None? <==> Pass1(KeywordInfos(defs), segments) == []
  {
    var infos := KeywordInfos(defs);
    var c1 := Pass1(infos, segments);
    if c1 == [] then None
    else
      Pass1HasDefs(defs, segments);
      Some(Select(defs, Pass2(infos, defs, c1, segments, parse), limit))
  }

  /** Every stored command names a defined function, has an argument for each declared
      parameter, has confidence 1.0, and at most `limit` are stored. */
  lemma MatchedCommandsAreComplete(defs: seq<FunctionDef>, segments: seq<string>, parse: string -> Option<real>, limit: int)
    ensures var r := MatchCommands(defs, segments, parse, limit);
      r.Some? ==> |r.value| <= (if limit < 0 then 0 else limit)
                  && forall c :: c in r.value ==> c.confidence == 1.0 && HasDef(defs, c.functionName)
                                                  && Complete(defs, c)
  {
    var infos := KeywordInfos(defs);
    var c1 := Pass1(infos, segments);
    if c1 != [] {
      Pass1HasDefs(defs, segments);
      var c2 := Pass2(infos, defs, c1, segments, parse);
      SelectIsFirstComplete(defs, c2, limit);
      CompleteCommandsAreComplete(defs, c2);
    }
  }

  lemma {:induction false} CompleteCommandsAreComplete(defs: seq<FunctionDef>, cands: seq<Command>)
    requires AllDefined(defs, cands)
    ensures forall c :: c in CompleteCommands(defs, cands) ==> HasDef(defs, c.functionName) && Complete(defs, c)
  {
    if cands != [] {
      CompleteCommandsAreComplete(defs, cands[..|cands| - 1]);
    }
  }

  // ----- Execution of stored commands -----

  const NoCommandsMessage := "没有指令被执行。"

  /** The text of a failed command's line. */
  function FailureText(name: string, message: string): string {
    "执行指令 '" + name + "' 失败: " + message
  }

  /** The line `ExecuteStoredCommands` appends for one command: a check mark and the
      handler's result, or a cross and the failure (an unregistered function fails with
      the registry's message). */
  function ExecutionLine(functions: Dict<FunctionMeta>, c: Command): string
  {
    match functions.Get(c.functionName)
    case None => "✗ " + FailureText(c.functionName, UnregisteredMessage(c.functionName)) + "\n"
    case Some(meta) =>
      match meta.execute(c.arguments.entries)
      case Success(out) => "✓ " + out + "\n"
      case Failure(e) => "✗ " + FailureText(c.functionName, e) + "\n"
  }

  /** The report for a list of commands, given the line each one produces: one line per
      command, in order. */
  function Report(line: Command -> string, cmds: seq<Command>): string {
    if cmds == [] then ""
    else Report(line, cmds[..|cmds| - 1]) + line(cmds[|cmds| - 1])
  }

  /** The report `ExecuteStoredCommands` builds against a catalog. */
  function ExecutionReport(functions: Dict<FunctionMeta>, cmds: seq<Command>): string {
    Report(c => ExecutionLine(functions, c), cmds)
  }

  lemma {:induction false} ReportAppend(line: Command -> string, a: seq<Command>, b: seq<Command>)
    ensures Report(line, a + b) == Report(line, a) + Report(line, b)
  {
    if b == [] {
      assert a + b == a;
    } else {
      var init, c := b[..|b| - 1], b[|b| - 1];
      ReportAppend(line, a, init);
      assert b == init + [c];
      assert a + b == (a + init) + [c];
      ReportSnoc(line, a + init, c);
      ReportSnoc(line, init, c);
      AppendAssociates(Report(line, a), Report(line, init), line(c));
    }
  }

  lemma AppendAssociates(x: string, y: string, z: string)
    ensures (x + y) + z == x + (y + z)
  {
  }

  /** The report of one more command ends with that command's line. */
  lemma ReportSnoc(line: Command -> string, cmds: seq<Command>, c: Command)
    ensures Report(line, cmds + [c]) == Report(line, cmds) + line(c)
  {
    assert (cmds + [c])[..|cmds|] == cmds;
  }

  /** A failing command does not stop the ones after it: the report of `a + b` is the
      report of `a` followed by the report of `b`. */
  lemma ExecutionReportAppend(functions: Dict<FunctionMeta>, a: seq<Command>, b: seq<Command>)
    ensures ExecutionReport(functions, a + b) == ExecutionReport(functions, a) + ExecutionReport(functions, b)
  {
    ReportAppend(c => ExecutionLine(functions, c), a, b);
  }

  // ----- The controller -----

  /** The loop of pass 1: for each token, the distinct synonym functions it names that
      have no candidate yet become new candidates. */
  method FindCandidates(trie: Trie, segments: seq<string>) returns (cands: seq<Command>)
    requires trie.Valid()
    ensures cands == Pass1(trie.inserted, segments)
  {
    cands := [];
    for i := 0 to |segments|
      invariant cands == Pass1(trie.inserted, segments[..i])
    {
      var segment := segments[i];
      var matches := trie.Search(segment);
      var names := Distinct(SynonymNames(matches));
      ghost var start := cands;
      for j := 0 to |names|
        invariant cands == AddCandidates(start, names[..j], segment)
      {
        assert names[..j + 1][..j] == names[..j];
        if names[j] !in CommandNames(cands) {
          cands := cands + [NewCommand(names[j], segment)];
        }
      }
      assert names[..|names|] == names;
      assert segments[..i + 1][..i] == segments[..i];
    }
    assert segments[..|segments|] == segments;
  }

  /** The loops of pass 2: per token, its enum matches, then the token as a number. */
  method FillArguments(trie: Trie, defs: seq<FunctionDef>, cands: seq<Command>, segments: seq<string>,
                       parse: string -> Option<real>) returns (r: seq<Command>)
    requires trie.Valid() && WellFormed(cands) && AllDefined(defs, cands)
    ensures r == Pass2(trie.inserted, defs, cands, segments, parse)
  {
    r := cands;
    for i := 0 to |segments|
      invariant r == Pass2(trie.inserted, defs, cands, segments[..i], parse)
    {
      assert segments[..i + 1][..i] == segments[..i];
      var segment := segments[i];
      var matches := trie.Search(segment);
      var paramMatches := ParamMatches(matches);
      ghost var start := r;
      for j := 0 to |paramMatches|
        invariant r == EnumFill(start, paramMatches[..j], segment)
      {
        assert paramMatches[..j + 1][..j] == paramMatches[..j];
        var m := paramMatches[j];
        var target := FirstIndexNamed(r, m.functionName);
        if target.Some? && !r[target.value].arguments.ContainsKey(m.parameterName.value) {
          var c := r[target.value];
          r := r[target.value := c.(arguments := c.arguments.Put(m.parameterName.value, m.mappedValue),
                                    matchedKeywords := c.matchedKeywords + [segment])];
        }
      }
      assert paramMatches[..|paramMatches|] == paramMatches;
      var parsed := parse(segment);
      if parsed.Some? {
        ghost var before := r;
        var k := 0;
        while k < |r|
          invariant 0 <= k <= |r| && r == before
          invariant NumberFill(before, defs, segment, parsed.value, k) == NumberFill(before, defs, segment, parsed.value)
        {
          var funcDef := FirstDef(defs, r[k].functionName);
          var numberParam := FreeNumberParam(funcDef.parameters, r[k].arguments);
          if numberParam.Some? {
            r := r[k := FillNumber(defs, r[k], segment, parsed.value)];
            break;
          }
          k := k + 1;
        }
      }
    }
    assert segments[..|segments|] == segments;
  }

  /** The loop of pass 3: complete candidates get confidence 1.0 and are stored until
      the limit is reached. */
  method SelectComplete(defs: seq<FunctionDef>, cands: seq<Command>, limit: int) returns (stored: seq<Command>)
    requires AllDefined(defs, cands)
    ensures stored == Select(defs, cands, limit)
  {
    stored := [];
    var k := 0;
    while k < |cands|
      invariant 0 <= k <= |cands|
      invariant stored == Select(defs, cands[..k], limit)
    {
      assert cands[..k + 1][..k] == cands[..k];
      if |stored| >= limit {
        SelectSaturated(defs, cands, k, limit);
        return;
      }
      var command := cands[k];
      var funcDef := FirstDef(defs, command.functionName);
      if command.arguments.Count() >= |funcDef.parameters| {
        stored := stored + [command.(confidence := 1.0)];
      }
      k := k + 1;
    }
    assert cands[..k] == cands;
  }

  lemma KeywordInfosSnoc(defs: seq<FunctionDef>, i: nat)
    requires i < |defs|
    ensures KeywordInfos(defs[..i + 1]) == KeywordInfos(defs[..i]) + DefInfos(defs[i])
  {
    assert defs[..i + 1][..i] == defs[..i];
  }

  /** Inserts `infos` into `trie` in order. */
  method InsertEach(trie: Trie, infos: seq<KeywordInfo>)
    requires trie.Valid()
    modifies trie
    ensures trie.Valid() && trie.inserted == old(trie.inserted) + infos
  {
    for j := 0 to |infos|
      invariant trie.Valid() && trie.inserted == old(trie.inserted) + infos[..j]
    {
      trie.Insert(infos[j]);
      assert infos[..j + 1] == infos[..j] + [infos[j]];
    }
    assert infos[..|infos|] == infos;
  }

  /** The loops of `BuildTrieFromRegistry`: a fresh trie holding every definition's
      keyword records, definition by definition. */
  method BuildTrie(defs: seq<FunctionDef>) returns (trie: Trie)
    ensures fresh(trie) && trie.Valid() && trie.inserted == KeywordInfos(defs)
  {
    trie := new Trie();
    for i := 0 to |defs|
      invariant fresh(trie) && trie.Valid() && trie.inserted == KeywordInfos(defs[..i])
    {
      InsertEach(trie, DefInfos(defs[i]));
      KeywordInfosSnoc(defs, i);
    }
    assert defs[..|defs|] == defs;
  }

  /** The loop of `ExecuteStoredCommands`: each command's line, in order. */
  method RunCommands(registry: FunctionRegistry, commands: seq<Command>) returns (results: string)
    requires registry.Valid()
    ensures results == ExecutionReport(registry.functions, commands)
  {
    results := "";
    for i := 0 to |commands|
      invariant results == ExecutionReport(registry.functions, commands[..i])
    {
      assert commands[..i + 1][..i] == commands[..i];
      var command := commands[i];
      var funcMeta := registry.Get(command.functionName);
      var line;
      if funcMeta.Success? {
        var result := funcMeta.value.execute(command.arguments.entries);
        if result.Success? {
          line := "✓ " + result.value + "\n";
        } else {
          line := "✗ " + FailureText(command.functionName, result.error) + "\n";
        }
      } else {
        line := "✗ " + FailureText(command.functionName, funcMeta.error) + "\n";
      }
      assert line == ExecutionLine(registry.functions, command);
      results := results + line;
    }
    assert commands[..|commands|] == commands;
  }

  /** `NluController`.  `keywordTrie` is null until the registry is built;
      `hasSegmenter` says whether the word segmenter could be created. */
  class NluController {
    var keywordTrie: Trie?
    var hasSegmenter: bool
    var functionDefinitions: seq<FunctionDef>
    var highConfidenceCommands: seq<Command>
    var highConfidenceCommandLimit: int

    /** The trie holds exactly the keyword records of the current definitions. */
    ghost predicate Valid()
      reads this, keywordTrie
    {
      keywordTrie != null ==> keywordTrie.Valid() && keywordTrie.inserted == KeywordInfos(functionDefinitions)
    }

    /** A controller before `BuildTrieFromRegistry`, with the default limit of 2. */
    constructor(hasSegmenter: bool)
      ensures Valid() && keywordTrie == null && this.hasSegmenter == hasSegmenter
      ensures highConfidenceCommands == [] && highConfidenceCommandLimit == 2
    {
      keywordTrie := null;
      this.hasSegmenter := hasSegmenter;
      functionDefinitions := [];
      highConfidenceCommands := [];
      highConfidenceCommandLimit := 2;
    }

    /** `BuildTrieFromRegistry`, given the deserialised definitions (None when the JSON
        does not parse, in which case the exception is caught and nothing changes).  Each
        definition's synonyms are inserted, then its enum keywords. */
    method BuildTrieFromRegistry(parsed: Option<seq<FunctionDef>>)
      requires Valid()
      modifies this
      ensures Valid()
      ensures parsed.None? ==> keywordTrie == old(keywordTrie) && functionDefinitions == old(functionDefinitions)
      ensures parsed.Some? ==> functionDefinitions == parsed.value && keywordTrie != null && fresh(keywordTrie)
      ensures highConfidenceCommands == old(highConfidenceCommands) && hasSegmenter == old(hasSegmenter)
      ensures highConfidenceCommandLimit == old(highConfidenceCommandLimit)
    {
      if parsed.None? {
        return;
      }
      var defs := parsed.value;
      functionDefinitions := defs;
      var trie := BuildTrie(defs);
      keywordTrie := trie;
    }

    /** `ProcessAsrResult`: does nothing unless the controller is ready and there is
        text; otherwise matches the segmented text and, if any function was named,
        replaces the stored commands by the complete ones. */
    method ProcessAsrResult(text: Option<string>, cut: string -> seq<string>, parse: string -> Option<real>)
      requires Valid()
      modifies this
      ensures Valid()
      ensures keywordTrie == old(keywordTrie) && hasSegmenter == old(hasSegmenter)
      ensures functionDefinitions == old(functionDefinitions)
      ensures highConfidenceCommandLimit == old(highConfidenceCommandLimit)
      ensures keywordTrie == null || !hasSegmenter || text.None?
              ==> highConfidenceCommands == old(highConfidenceCommands)
      ensures keywordTrie != null && hasSegmenter && text.Some?
              ==> highConfidenceCommands
                  == MatchCommands(functionDefinitions, cut(text.value), parse, highConfidenceCommandLimit)
                     .GetOr(old(highConfidenceCommands))
    {
      if keywordTrie == null || !hasSegmenter || text.None? {
        return;
      }
      var segments := cut(text.value);
      var candidates := FindCandidates(keywordTrie, segments);
      if candidates == [] {
        return;
      }
      Pass1HasDefs(functionDefinitions, segments);
      candidates := FillArguments(keywordTrie, functionDefinitions, candidates, segments, parse);
      highConfidenceCommands := SelectComplete(functionDefinitions, candidates, highConfidenceCommandLimit);
    }

    function HasStoredCommands(): bool
      reads this
    {
      |highConfidenceCommands| > 0
    }

    /** `ExecuteStoredCommands`: runs every stored command through the registry, one
        report line each, and empties the store. */
    method ExecuteStoredCommands(registry: FunctionRegistry) returns (r: string)
      requires Valid() && registry.Valid()
      modifies this
      ensures Valid() && highConfidenceCommands == []
      ensures keywordTrie == old(keywordTrie) && functionDefinitions == old(functionDefinitions)
      ensures hasSegmenter == old(hasSegmenter) && highConfidenceCommandLimit == old(highConfidenceCommandLimit)
      ensures old(highConfidenceCommands) == [] ==> r == NoCommandsMessage
      ensures old(highConfidenceCommands) != [] ==> r == ExecutionReport(registry.functions, old(highConfidenceCommands))
    {
      if !HasStoredCommands() {
        return NoCommandsMessage;
      }
      var results := RunCommands(registry, highConfidenceCommands);
      ClearStoredCommands();
      r := results;
    }

    /** `ClearStoredCommands`. */
    method ClearStoredCommands()
      modifies this
      ensures highConfidenceCommands == []
      ensures keywordTrie == old(keywordTrie) && functionDefinitions == old(functionDefinitions)
      ensures hasSegmenter == old(hasSegmenter) && highConfidenceCommandLimit == old(highConfidenceCommandLimit)
    {
      highConfidenceCommands := [];
    }
  }
}

=== FILE: registry.dfy ===
module Registry {
  // The function catalog shared by the language-understanding and tool-calling
  // components: function metadata, the instance registry of the runtime package and the
  // older static registry seeded with two scene functions.

  import opened Wrappers
  import opened Dictionaries

  /** A value in an argument dictionary (`IDictionary<string, object>`); `Null` is the
      null reference. */
  datatype Value = Text(text: string) | Number(number: real) | Flag(flag: bool) | Null

  /** Arguments of a call, by parameter name. */
  type Args = map<string, Value>

  /** Description of one parameter: its JSON-schema type ("string", "number", ...),
      its description and an optional list of allowed values. */
  datatype ParameterMeta = ParameterMeta(kind: string, description: string, enumValues: Option<seq<string>>)

  /** A registered function.  `execute` is the handler; a thrown exception is a `Failure`
      carrying the exception's message. */
  datatype FunctionMeta = FunctionMeta(
    name: string,
    description: string,
    parameters: Dict<ParameterMeta>,
    execute: Args -> Result<string, string>)

  /** Message of the `ArgumentException` thrown by `Get` for an unknown name. */
  function UnregisteredMessage(name: string): string {
    "Unregistered function: " + name
  }

  /** The catalog obtained by registering `metas` in order into an empty dictionary. */
  function Catalog(metas: seq<FunctionMeta>): (r: Dict<FunctionMeta>)
    ensures r.Valid()
  {
    if metas == [] then Empty()
    else Catalog(metas[..|metas| - 1]).Put(metas[|metas| - 1].name, metas[|metas| - 1])
  }

  /** Index of the last registration of `name` in `metas`, if any. */
  function LastIndexOf(metas: seq<FunctionMeta>, name: string): (r: Option<nat>)
    ensures r.Some? ==> r.value < |metas| && metas[r.value].name == name
                        && forall j :: r.value < j < |metas| ==> metas[j].name != name
    ensures r.None? ==> forall j :: 0 <= j < |metas| ==> metas[j].name != name
  {
    if metas == [] then None
    else if metas[|metas| - 1].name == name then Some(|metas| - 1)
    else LastIndexOf(metas[..|metas| - 1], name)
  }

  /** Last writer wins: after any sequence of registrations, a name maps to the last
      metadata registered under it, and an unregistered name maps to nothing. */
  lemma {:induction false} CatalogLastWriterWins(metas: seq<FunctionMeta>, name: string)
    ensures var i := LastIndexOf(metas, name);
      Catalog(metas).Get(name) == if i.Some? then Some(metas[i.value]) else None
  {
    if metas != [] {
      CatalogLastWriterWins(metas[..|metas| - 1], name);
    }
  }

  /** The set of names registered in `metas`. */
  ghost function Names(metas: seq<FunctionMeta>): set<string> {
    if metas == [] then {} else Names(metas[..|metas| - 1]) + {metas[|metas| - 1].name}
  }

  /** The catalog holds one entry per distinct registered name, and no other. */
  lemma {:induction false} CatalogCount(metas: seq<FunctionMeta>)
    ensures forall n :: Catalog(metas).ContainsKey(n) <==> n in Names(metas)
    ensures Catalog(metas).Count() == |Names(metas)|
  {
    if metas != [] {
      CatalogCount(metas[..|metas| - 1]);
    }
  }

  /** `FunctionRegistry`: a name-keyed catalog.  The same class models the instance
      registry of the runtime package (empty at construction) and the older static
      registry (seeded by its static constructor). */
  class FunctionRegistry {
    var functions: Dict<FunctionMeta>
    /** Every registration so far, in order. */
    ghost var registered: seq<FunctionMeta>

    ghost predicate Valid()
      reads this
    {
      functions == Catalog(registered)
    }

    /** The instance registry starts empty. */
    constructor()
      ensures Valid() && registered == []
      ensures functions.Count() == 0
    {
      functions := Empty();
      registered := [];
    }

    /** The static registry: its static constructor registers `ModifyTransform` and then
        `ChangeObjectColor`, whose handlers act on `scene`. */
    constructor Seeded(scene: Scene)
      ensures Valid() && registered == SeedFunctions(scene)
    {
      var seeds := SeedFunctions(scene);
      functions := Catalog(seeds);
      registered := seeds;
    }

    /** `Register(meta)`: stores `meta` under its name, replacing an earlier entry. */
    method Register(meta: FunctionMeta)
      requires Valid()
      modifies this
      ensures Valid() && registered == old(registered) + [meta]
      ensures functions.Get(meta.name) == Some(meta)
      ensures forall n :: n != meta.name ==> functions.Get(n) == old(functions).Get(n)
    {
      functions := functions.Put(meta.name, meta);
      registered := registered + [meta];
    }

    /** `Get(name)`: the registered metadata, or the `ArgumentException` message. */
    method Get(name: string) returns (r: Result<FunctionMeta, string>)
      requires Valid()
      ensures r.Success? <==> functions.ContainsKey(name)
      ensures r.Success? ==> Some(r.value) == functions.Get(name)
      ensures r.Failure? ==> r.error == UnregisteredMessage(name)
    {
      var found := functions.Get(name);
      if found.Some? {
        r := Success(found.value);
      } else {
        r := Failure(UnregisteredMessage(name));
      }
    }

    /** `All()`: a new list of every registered function in registration order of their
        names.  Being a value, the returned sequence shares nothing with the registry. */
    method All() returns (r: seq<FunctionMeta>)
      requires Valid()
      ensures |r| == functions.Count()
      ensures forall i :: 0 <= i < |r| ==> functions.Get(functions.keys[i]) == Some(r[i])
    {
      r := functions.Values();
    }
  }

  /** The scene operations reached by the seeded handlers: `FuncCallingList` lookup and
      its two methods, and the conversions of argument values. */
  datatype Scene = Scene(
    hasFuncList: bool,
    modifyTransform: (string, string, real) -> string,
    changeObjectColor: (string, string) -> string,
    toText: Value -> string,
    toSingle: Value -> Result<real, string>)

  /** Message of the `KeyNotFoundException` thrown by the dictionary indexer. */
  function KeyNotFoundMessage(key: string): string {
    "The given key '" + key + "' was not present in the dictionary."
  }

  /** Message of the `NullReferenceException`: thrown by `.ToString()` on a JSON-null
      argument and by a call on a missing `FuncCallingList`. */
  const NullReferenceMessage := "Object reference not set to an instance of an object."

  /** Handler of `ModifyTransform`: reads all three arguments, converts the number, and
      only then calls into the scene.  The two names are converted with `.ToString()`,
      which throws on null; the number goes to `Convert.ToSingle`, which accepts null. */
  function ModifyTransformHandler(scene: Scene, args: Args): (r: Result<string, string>)
    ensures "objectName" !in args ==> r == Failure(KeyNotFoundMessage("objectName"))
    ensures "objectName" in args && args["objectName"] == Null ==> r == Failure(NullReferenceMessage)
    ensures "objectName" in args && args["objectName"] != Null && "transformType" !in args
            ==> r == Failure(KeyNotFoundMessage("transformType"))
    ensures "objectName" in args && args["objectName"] != Null && "transformType" in args
            && args["transformType"] == Null
            ==> r == Failure(NullReferenceMessage)
    ensures "objectName" in args && args["objectName"] != Null
            && "transformType" in args && args["transformType"] != Null && "number" !in args
            ==> r == Failure(KeyNotFoundMessage("number"))
    ensures r.Success? <==> "objectName" in args && args["objectName"] != Null
                            && "transformType" in args && args["transformType"] != Null
                            && "number" in args && scene.toSingle(args["number"]).Success?
                            && scene.hasFuncList
    ensures r.Success? ==> r.value == scene.modifyTransform(scene.toText(args["objectName"]),
                                scene.toText(args["transformType"]), scene.toSingle(args["number"]).value)
  {
    if "objectName" !in args then Failure(KeyNotFoundMessage("objectName"))
    else if args["objectName"] == Null then Failure(NullReferenceMessage)
    else
      var objectName := scene.toText(args["objectName"]);
      if "transformType" !in args then Failure(KeyNotFoundMessage("transformType"))
      else if args["transformType"] == Null then Failure(NullReferenceMessage)
      else
        var transformType := scene.toText(args["transformType"]);
        if "number" !in args then Failure(KeyNotFoundMessage("number"))
        else
          var number := scene.toSingle(args["number"]);
          if number.Failure? then Failure(number.error)
          else if !scene.hasFuncList then Failure(NullReferenceMessage)
          else Success(scene.modifyTransform(objectName, transformType, number.value))
  }

  /** Handler of `ChangeObjectColor`: reads both arguments with `.ToString()` before
      calling into the scene. */
  function ChangeObjectColorHandler(scene: Scene, args: Args): (r: Result<string, string>)
    ensures "objectName" !in args ==> r == Failure(KeyNotFoundMessage("objectName"))
    ensures "objectName" in args && args["objectName"] == Null ==> r == Failure(NullReferenceMessage)
    ensures "objectName" in args && args["objectName"] != Null && "hexColor" !in args
            ==> r == Failure(KeyNotFoundMessage("hexColor"))
    ensures "objectName" in args && args["objectName"] != Null && "hexColor" in args
            && args["hexColor"] == Null
            ==> r == Failure(NullReferenceMessage)
    ensures r.Success? <==> "objectName" in args && args["objectName"] != Null
                            && "hexColor" in args && args["hexColor"] != Null && scene.hasFuncList
    ensures r.Success? ==> r.value == scene.changeObjectColor(scene.toText(args["objectName"]),
                                                              scene.toText(args["hexColor"]))
  {
    if "objectName" !in args then Failure(KeyNotFoundMessage("objectName"))
    else if args["objectName"] == Null then Failure(NullReferenceMessage)
    else if "hexColor" !in args then Failure(KeyNotFoundMessage("hexColor"))
    else if args["hexColor"] == Null then Failure(NullReferenceMessage)
    else if !scene.hasFuncList then Failure(NullReferenceMessage)
    else Success(scene.changeObjectColor(scene.toText(args["objectName"]), scene.toText(args["hexColor"])))
  }

  const ModifyTransformDescription := "修改物体的变换属性，包括移动、旋转和缩放"
  const ChangeObjectColorDescription := "改变物体的颜色"
  const NumberDescription := "给物体transform某维度改变的数值，不能出现负数，物体只有0.3m大，摄像机只能移动和旋转（镜像）针对摄像机转动的幅度要小，camera离物体2m远，如果操作摄像机请用正常的反方向"

  const ObjectNames: seq<string> := ["cube", "sphere", "capsule", "main camera"]
  const TransformTypes: seq<string> :=
    ["moveleft", "moveright", "movebackward", "moveforward", "moveup", "movedown", "pitch", "yaw", "roll", "scale"]

  /** `Parameters` of `ModifyTransform`: the collection initialiser adds its entries in
      the order written. */
  function ModifyTransformParameters(): Dict<ParameterMeta> {
    Dict(["objectName", "transformType", "number"],
      map["objectName" := ParameterMeta("string", "物体的名字", Some(ObjectNames)),
          "transformType" := ParameterMeta("string", "transform的维度", Some(TransformTypes)),
          "number" := ParameterMeta("number", NumberDescription, None)])
  }

  /** `Parameters` of `ChangeObjectColor`. */
  function ChangeObjectColorParameters(): Dict<ParameterMeta> {
    Dict(["objectName", "hexColor"],
      map["objectName" := ParameterMeta("string", "物体的名字", Some(ObjectNames)),
          "hexColor" := ParameterMeta("string", "hex color code", None)])
  }

  /** The two functions the static registry registers, in order. */
  function SeedFunctions(scene: Scene): seq<FunctionMeta> {
    [ FunctionMeta("ModifyTransform", ModifyTransformDescription,
        ModifyTransformParameters(), args => ModifyTransformHandler(scene, args)),
      FunctionMeta("ChangeObjectColor", ChangeObjectColorDescription,
        ChangeObjectColorParameters(), args => ChangeObjectColorHandler(scene, args)) ]
  }

  /** After static initialisation the catalog lists exactly `ModifyTransform` and
      `ChangeObjectColor`, in that order, with parameters (objectName, transformType,
      number) and (objectName, hexColor). */
  lemma SeededCatalogContents(scene: Scene)
    ensures var c := Catalog(SeedFunctions(scene));
      c.keys == ["ModifyTransform", "ChangeObjectColor"]
      && c.Get("ModifyTransform").Some?
      && c.Get("ModifyTransform").value.parameters.keys == ["objectName", "transformType", "number"]
      && c.Get("ChangeObjectColor").Some?
      && c.Get("ChangeObjectColor").value.parameters.keys == ["objectName", "hexColor"]
  {
    var seeds := SeedFunctions(scene);
    CatalogOfTwo(seeds[0], seeds[1]);
    assert seeds == [seeds[0], seeds[1]];
  }

  lemma CatalogOfOne(a: FunctionMeta)
    ensures Catalog([a]) == Dict([a.name], map[a.name := a])
  {
    assert [a][..0] == [];
  }

  lemma CatalogOfTwo(a: FunctionMeta, b: FunctionMeta)
    requires a.name != b.name
    ensures Catalog([a, b]).keys == [a.name, b.name]
    ensures Catalog([a, b]).Get(a.name) == Some(a) && Catalog([a, b]).Get(b.name) == Some(b)
  {
    CatalogOfOne(a);
    assert [a, b][..1] == [a];
  }

  /** Both parameter dictionaries are well formed: distinct keys, exactly those of the
      map. */
  lemma ParameterKeys()
    ensures ModifyTransformParameters().Valid()
    ensures ChangeObjectColorParameters().Valid()
  {
  }
}

=== FILE: sample_buffer.dfy ===
module SampleBuffer {
  // The audio side of the keyword spotter: a bounded queue holding the most recent ten
  // seconds of microphone samples, a counter of every sample written since the last
  // clear, and the write position in the microphone clip.

  import opened Wrappers

  const SampleRate := 16000
  const MicBufferSeconds := 10
  /** Capacity of the sample queue (`MicBufferSeconds * SampleRate`), which is also the
      length of the microphone clip. */
  const Capacity := 160000

  function Min(a: int, b: int): int { if a <= b then a else b }
  function Max(a: int, b: int): int { if a >= b then a else b }

  /** The last `min(|s|, n)` elements of `s`. */
  function LastN<T>(s: seq<T>, n: nat): (r: seq<T>)
    ensures |r| == Min(|s|, n)
    ensures r == s[|s| - |r|..]
  {
    s[|s| - Min(|s|, n)..]
  }

  /** Appending one sample to a window of the last `n` samples drops the oldest sample
      when the window is full. */
  lemma LastNSnoc<T>(s: seq<T>, x: T, n: nat)
    requires n > 0
    ensures var w := LastN(s, n);
      LastN(s + [x], n) == (if |w| >= n then w[1..] else w) + [x]
  {
    var w := LastN(s, n);
    var s' := s + [x];
    if |w| >= n {
      assert s'[|s'| - n..] == s[|s| - n + 1..] + [x];
    } else {
      assert s'[|s'| - |s'|..] == s + [x];
    }
  }

  /** One sample written to the queue of the last `Capacity` samples: the oldest is
      dropped when the queue is full. */
  lemma PushKeepsWindow(written: seq<real>, x: real)
    ensures var q := LastN(written, Capacity);
      LastN(written + [x], Capacity) == (if |q| >= Capacity then q[1..] else q) + [x]
  {
    LastNSnoc(written, x, Capacity);
  }

  /** The last `k` of the last `n` elements are the last `min(k, n)` elements. */
  lemma LastNOfLastN<T>(s: seq<T>, n: nat, k: nat)
    ensures LastN(LastN(s, n), k) == LastN(s, Min(k, n))
  {
    var w := LastN(s, n);
    assert LastN(w, k) == s[|s| - Min(|w|, k)..];
  }

  /** The samples `GetPcmDataSince(last)` returns: the samples counted after `last` that
      the queue still holds, and the new index, which is the current count. */
  function PcmDataSince(queue: seq<real>, total: int, last: int): (r: (seq<real>, int))
    ensures r.1 == total
    ensures total <= last ==> r.0 == []
    ensures total > last ==> r.0 == LastN(queue, total - last)
  {
    var newSamples := total - last;
    if newSamples <= 0 then ([], total)
    else
      var startIdx := Max(0, |queue| - newSamples);
      (queue[startIdx..], total)
  }

  /** A second read from the index the first one returned, with nothing written in
      between, is empty. */
  lemma SecondReadIsEmpty(queue: seq<real>, total: int, last: int)
    ensures var first := PcmDataSince(queue, total, last);
      PcmDataSince(queue, total, first.1) == ([], total)
  {
  }

  /** The copy loop of both readers: walks the whole queue and keeps the samples from
      position `startIdx` on. */
  method CopyFrom(queue: seq<real>, startIdx: nat) returns (data: seq<real>)
    requires startIdx <= |queue|
    ensures data == queue[startIdx..]
  {
    data := [];
    var idx := 0;
    while idx < |queue|
      invariant 0 <= idx <= |queue|
      invariant data == if idx <= startIdx then [] else queue[startIdx..idx]
    {
      if idx >= startIdx {
        assert queue[startIdx..idx + 1] == queue[startIdx..idx] + [queue[idx]];
        data := data + [queue[idx]];
      }
      idx := idx + 1;
    }
  }

  /** `SherpaOnnxKeywords`: the sample queue and counters it keeps while the microphone
      runs.  `hasClip` says whether `MicrophoneClip` exists. */
  class SherpaOnnxKeywords {
    var queue: seq<real>
    var totalSampleCount: int
    var micBufferPosition: int
    var hasClip: bool
    /** Every sample written since construction or the last clear, in order. */
    ghost var written: seq<real>

    /** The queue is the last `Capacity` samples written, the counter counts them, and
        the clip position is inside the clip. */
    ghost predicate Valid()
      reads this
    {
      totalSampleCount == |written|
      && queue == LastN(written, Capacity)
      && 0 <= micBufferPosition < Capacity
    }

    /** A component with (or without) a microphone clip and nothing recorded yet. */
    constructor(hasClip: bool)
      ensures Valid() && written == [] && queue == [] && this.hasClip == hasClip
    {
      queue := [];
      totalSampleCount := 0;
      micBufferPosition := 0;
      this.hasClip := hasClip;
      written := [];
    }

    /** `CurrentSampleIndex`. */
    function CurrentSampleIndex(): int
      reads this
    {
      totalSampleCount
    }

    /** `OnFrameCollected(pcm)`: advances the clip position and appends the frame sample by
        sample, dropping the oldest sample whenever the queue is full.  Nothing happens
        without a clip. */
    method OnFrameCollected(pcm: seq<real>)
      requires Valid()
      modifies this
      ensures Valid() && hasClip == old(hasClip)
      ensures !old(hasClip) ==> written == old(written) && queue == old(queue)
                                && totalSampleCount == old(totalSampleCount)
                                && micBufferPosition == old(micBufferPosition)
      ensures old(hasClip) ==> written == old(written) + pcm
                               && totalSampleCount == old(totalSampleCount) + |pcm|
                               && micBufferPosition == (old(micBufferPosition) + |pcm|) % Capacity
    {
      if !hasClip {
        return;
      }
      micBufferPosition := (micBufferPosition + |pcm|) % Capacity;
      ghost var position := micBufferPosition;
      var i := 0;
      while i < |pcm|
        invariant 0 <= i <= |pcm|
        invariant Valid() && hasClip
        invariant written == old(written) + pcm[..i]
        invariant micBufferPosition == position
      {
        ghost var before := written;
        Enqueue(pcm[i]);
        assert written == before + [pcm[i]];
        assert old(written) + pcm[..i + 1] == (old(written) + pcm[..i]) + [pcm[i]];
        i := i + 1;
      }
      assert pcm[..|pcm|] == pcm;
    }

    /** One pass of the frame loop: the oldest sample is dequeued when the queue is full,
        then the sample is enqueued and counted. */
    method Enqueue(x: real)
      requires Valid()
      modifies this
      ensures Valid() && written == old(written) + [x]
      ensures hasClip == old(hasClip) && micBufferPosition == old(micBufferPosition)
    {
      PushKeepsWindow(written, x);
      var q := queue;
      if |q| >= Capacity {
        q := q[1..];
      }
      queue := q + [x];
      totalSampleCount := totalSampleCount + 1;
      written := written + [x];
    }

    /** `GetPcmDataSince(lastSampleIndex, out newLastSampleIndex)`: copies the queued
        samples counted after `lastSampleIndex`, without changing anything. */
    method GetPcmDataSince(lastSampleIndex: int) returns (data: seq<real>, newLastSampleIndex: int)
      requires Valid()
      ensures (data, newLastSampleIndex) == PcmDataSince(queue, totalSampleCount, lastSampleIndex)
      ensures lastSampleIndex < totalSampleCount
              ==> data == written[Max(Max(lastSampleIndex, 0), totalSampleCount - |queue|)..]
    {
      var available := totalSampleCount;
      var newSamples := available - lastSampleIndex;
      if newSamples <= 0 {
        return [], available;
      }
      var startIdx := Max(0, |queue| - newSamples);
      data := CopyFrom(queue, startIdx);
      newLastSampleIndex := available;
    }

    /** `GetLatestPcmData`, for a request of `requested` samples (the truncated product of
        the seconds asked for and the sample rate).  A negative size fails, as allocating
        the array does. */
    method GetLatestPcmData(requested: int) returns (r: Result<seq<real>, string>)
      requires Valid()
      ensures r.Success? <==> requested >= 0
      ensures r.Success? ==> r.value == LastN(queue, requested)
                             && r.value == LastN(written, Min(requested, Capacity))
    {
      var sampleCount := Min(requested, |queue|);
      if sampleCount < 0 {
        return Failure("Arithmetic operation resulted in an overflow.");
      }
      var startIdx := |queue| - sampleCount;
      assert 0 <= startIdx <= |queue|;
      var data := CopyFrom(queue, startIdx);
      assert data == queue[startIdx..] == LastN(queue, requested);
      LastNOfLastN(written, Capacity, requested);
      r := Success(data);
    }

    /** `ClearAudioBuffer`: empties the queue and resets the counter and clip position. */
    method ClearAudioBuffer()
      requires Valid()
      modifies this
      ensures Valid() && written == [] && queue == []
      ensures totalSampleCount == 0 && micBufferPosition == 0 && hasClip == old(hasClip)
    {
      queue := [];
      totalSampleCount := 0;
      micBufferPosition := 0;
      written := [];
    }
  }
}

=== FILE: standalone_asr.dfy ===
module AliyunAsr {
  // The stand-alone recognition client `AliyunAsrController`: a recognizer state
  // machine around one streaming task, which polls the microphone clip, sends every new
  // stretch of samples, and raises the reconstructed text of the server's results.  The
  // messages are read with Unity's `JsonUtility`, which builds every nested object, so a
  // missing sentence or word list reads as an empty one.

  import opened Wrappers
  import opened Text
  import opened AsrCommon
  import AsrLegacy

  /** `RecognizerState`. */
  datatype RecognizerState = Idle | Ready | Recording | Processing | Error

  /** The connection and start waits last 10 s, the finish wait 60 s, in 100 ms ticks. */
  const ConnectTimeoutTicks := 100
  const StartTimeoutTicks := 100
  const FinishTimeoutTicks := 600
  /** Any positive length is sent. */
  const MinSendLength := 1

  const ConnectFailedMessage := "WebSocket 连接未成功建立。"
  const StartTimeoutMessage := "等待 'task-started' 超时。请检查API Key和网络。"

  /** The events the controller raises. */
  datatype AliyunEvent = RecognitionResult(text: string) | StreamingFinished

  /** `ReconstructTextFromWords`: each word's text then its punctuation, untrimmed. */
  function ReconstructTextFromWords(sentence: Option<Sentence>): (r: string)
    ensures sentence.None? || sentence.value.words.None? ==> r == ""
    ensures sentence.Some? && sentence.value.words.Some? ==> |r| == PartsLength(sentence.value.words.value)
  {
    if sentence.None? || sentence.value.words.None? then ""
    else
      WordsTextLength(sentence.value.words.value);
      WordsText(sentence.value.words.value)
  }

  /** The two revisions reconstruct the same text up to surrounding whitespace: the
      earlier client's text is this one's, trimmed. */
  lemma LegacyReconstructionIsTrimmed(sentence: Option<Sentence>)
    ensures AsrLegacy.ReconstructTextFromWords(sentence) == Trim(ReconstructTextFromWords(sentence))
  {
    if sentence.None? || sentence.value.words.None? {
      assert Trim("") == "";
    }
  }

  /** When the recognition task's steps find their signals: the ticks at which the socket opens, the
      start and the finish are acknowledged, and at which the recognition task is stopped during
      those waits; the clip position at the start of streaming and at each poll, the last
      poll being the one after which the recognition task is stopped. */
  datatype AliyunEnvironment = AliyunEnvironment(
    openTick: Option<nat>,
    connectStop: Option<nat>,
    startedTick: Option<nat>,
    startStop: Option<nat>,
    initialPosition: int,
    positions: seq<int>,
    finishedTick: Option<nat>,
    finishStop: Option<nat>)

  /** The cancellation tick the connection wait sees: 0 when the task was already
      cancelled. */
  function ConnectStopTick(env: AliyunEnvironment, cancelled: bool): Option<nat> {
    if cancelled then Some(0) else env.connectStop
  }

  /** The recognition task's wait for the socket to open. */
  function ConnectWait(env: AliyunEnvironment, cancelled: bool): WaitOutcome {
    Wait(ArrivedBy(false, env.openTick), ConnectTimeoutTicks, ConnectStopTick(env, cancelled))
  }

  /** The recognition task's wait for `task-started`; `started` is the flag when it begins. */
  function StartWait(env: AliyunEnvironment, cancelled: bool, started: bool): WaitOutcome {
    Wait(ArrivedBy(started, env.startedTick), StartTimeoutTicks, if cancelled then Some(0) else env.startStop)
  }

  /** `AliyunAsrController`.  `hasCts` says whether `recognitionTaskCts` is set. */
  class AliyunAsrController {
    const clipSamples: int
    var state: RecognizerState
    var isTaskStarted: bool
    var isTaskFinished: bool
    var lastFinalTranscript: string
    /** `_recognizedSentences`, which the controller only ever clears. */
    var recognizedSentences: map<int, string>
    var hasCts: bool
    var cancelRequested: bool
    var socket: SocketState
    var events: seq<AliyunEvent>
    var audioSent: seq<AudioRange>
    var commandsSent: seq<string>

    constructor(clipSamples: int)
      ensures this.clipSamples == clipSamples && state == Idle && !hasCts && socket == NoSocket
      ensures events == [] && audioSent == [] && commandsSent == [] && lastFinalTranscript == ""
    {
      this.clipSamples := clipSamples;
      state := Idle;
      isTaskStarted := false;
      isTaskFinished := false;
      lastFinalTranscript := "";
      recognizedSentences := map[];
      hasCts := false;
      cancelRequested := false;
      socket := NoSocket;
      events := [];
      audioSent := [];
      commandsSent := [];
    }

    /** `Start`: Ready with a microphone controller, Error without one. */
    method Start(hasMicController: bool)
      modifies this
      ensures state == (if hasMicController then Ready else Error)
      ensures hasCts == old(hasCts) && socket == old(socket) && events == old(events)
    {
      state := if hasMicController then Ready else Error;
    }

    /** `ResetTaskStatus`. */
    method ResetTaskStatus()
      modifies this
      ensures !isTaskStarted && !isTaskFinished && lastFinalTranscript == "" && recognizedSentences == map[]
      ensures state == old(state) && hasCts == old(hasCts) && cancelRequested == old(cancelRequested)
      ensures socket == old(socket) && events == old(events)
      ensures audioSent == old(audioSent) && commandsSent == old(commandsSent)
    {
      isTaskStarted := false;
      isTaskFinished := false;
      lastFinalTranscript := "";
      recognizedSentences := map[];
    }

    /** `StartStreaming` and the synchronous start of `StreamingRecognitionTask`: ignored
        while Processing or Recording; otherwise the state becomes Processing with a
        fresh cancellation source and a reset task status, and without a recording
        microphone the state becomes Error and the recognition task ends there, with no socket and no
        `OnStreamingFinished`.  `started` says whether the recognition task goes on. */
    method StartStreaming(micRecording: bool) returns (started: bool)
      modifies this
      ensures old(state) == Processing || old(state) == Recording
              ==> !started && state == old(state) && hasCts == old(hasCts) && cancelRequested == old(cancelRequested)
                  && lastFinalTranscript == old(lastFinalTranscript)
      ensures !(old(state) == Processing || old(state) == Recording)
              ==> hasCts && !cancelRequested && !isTaskStarted && !isTaskFinished && lastFinalTranscript == ""
                  && started == micRecording && state == (if micRecording then Processing else Error)
      ensures socket == old(socket) && events == old(events)
      ensures audioSent == old(audioSent) && commandsSent == old(commandsSent)
    {
      if state == Processing || state == Recording {
        return false;
      }
      state := Processing;
      hasCts := true;
      cancelRequested := false;
      ResetTaskStatus();
      if !micRecording {
        state := Error;
        return false;
      }
      started := true;
    }

    /** `StopStreaming`: cancels the recognition task's source unless it is missing or already
        cancelled. */
    method StopStreaming()
      modifies this
      ensures cancelRequested == (old(cancelRequested) || hasCts) && hasCts == old(hasCts)
      ensures state == old(state) && socket == old(socket) && events == old(events)
      ensures isTaskStarted == old(isTaskStarted) && isTaskFinished == old(isTaskFinished)
      ensures audioSent == old(audioSent) && commandsSent == old(commandsSent)
      ensures lastFinalTranscript == old(lastFinalTranscript)
    {
      if hasCts && !cancelRequested {
        cancelRequested := true;
      }
    }

    function StopTick(external: Option<nat>): Option<nat>
      reads this
    {
      if cancelRequested then Some(0) else external
    }

    /** The connection wait: polls for an open socket every 100 ms for 10 s while the
        task is not cancelled.  A cancellation requested before the wait ends the loop
        quietly and the missing connection is reported; one requested during a delay
        throws from the delay. */
    method Connect(openTick: Option<nat>, stop: Option<nat>) returns (r: Result<(), Exception>)
      modifies this
      ensures var c := old(StopTick(stop));
              var w := Wait(ArrivedBy(false, openTick), ConnectTimeoutTicks, c);
        && (r.Success? <==> w.Satisfied?)
        && (w.TimedOut? || (w.Cancelled? && c == Some(0)) ==> r == Failure(OtherError(ConnectFailedMessage)))
        && (w.Cancelled? && c != Some(0) ==> r == Failure(OperationCanceled))
        && socket == (if w.Satisfied? then Open else Connecting)
      ensures state == old(state) && hasCts == old(hasCts) && cancelRequested == old(cancelRequested)
      ensures isTaskStarted == old(isTaskStarted) && isTaskFinished == old(isTaskFinished)
      ensures events == old(events) && audioSent == old(audioSent) && commandsSent == old(commandsSent)
      ensures lastFinalTranscript == old(lastFinalTranscript)
    {
      socket := Connecting;
      var c := StopTick(stop);
      var w := WaitForCondition(ArrivedBy(false, openTick), ConnectTimeoutTicks, c);
      if w.Satisfied? {
        socket := Open;
        r := Success(());
      } else if w.TimedOut? || c == Some(0) {
        r := Failure(OtherError(ConnectFailedMessage));
      } else {
        r := Failure(OperationCanceled);
      }
    }

    /** `SendRunTaskCommand` then `WaitForTaskStart`: a start that is not acknowledged
        within 10 s throws a task-cancelled exception with its own message. */
    method StartTask(startedTick: Option<nat>, stop: Option<nat>) returns (r: Result<(), Exception>)
      modifies this
      ensures commandsSent == old(commandsSent) + ["run-task"]
      ensures var w := Wait(ArrivedBy(old(isTaskStarted), startedTick),
                            StartTimeoutTicks, old(StopTick(stop)));
        && r == WaitResult(w, TaskCanceled(StartTimeoutMessage))
        && isTaskStarted == (old(isTaskStarted) || w.Satisfied?)
      ensures state == old(state) && hasCts == old(hasCts) && cancelRequested == old(cancelRequested)
      ensures socket == old(socket) && isTaskFinished == old(isTaskFinished)
      ensures events == old(events) && audioSent == old(audioSent)
      ensures lastFinalTranscript == old(lastFinalTranscript)
    {
      commandsSent := commandsSent + ["run-task"];
      var started := isTaskStarted;
      var w := WaitForCondition(ArrivedBy(started, startedTick),
                                StartTimeoutTicks, StopTick(stop));
      if w.Satisfied? {
        isTaskStarted := true;
        r := Success(());
      } else if w.TimedOut? {
        r := Failure(TaskCanceled(StartTimeoutMessage));
      } else {
        r := Failure(OperationCanceled);
      }
    }

    /** `SendFinishTaskCommand` then `WaitForTaskFinish`: a finish that is not
        acknowledged within 60 s only produces a warning, and the recognition task goes on. */
    method FinishTask(finishedTick: Option<nat>, stop: Option<nat>) returns (r: Result<(), Exception>)
      modifies this
      ensures commandsSent == old(commandsSent) + ["finish-task"]
      ensures var w := Wait(ArrivedBy(old(isTaskFinished), finishedTick),
                            FinishTimeoutTicks, old(StopTick(stop)));
        && r == (if w.Cancelled? then Failure(OperationCanceled) else Success(()))
        && isTaskFinished == (old(isTaskFinished) || w.Satisfied?)
      ensures state == old(state) && hasCts == old(hasCts) && cancelRequested == old(cancelRequested)
      ensures socket == old(socket) && isTaskStarted == old(isTaskStarted)
      ensures events == old(events) && audioSent == old(audioSent)
      ensures lastFinalTranscript == old(lastFinalTranscript)
    {
      commandsSent := commandsSent + ["finish-task"];
      var finished := isTaskFinished;
      var w := WaitForCondition(ArrivedBy(finished, finishedTick),
                                FinishTimeoutTicks, StopTick(stop));
      if w.Satisfied? {
        isTaskFinished := true;
      }
      if w.Cancelled? {
        r := Failure(OperationCanceled);
      } else {
        r := Success(());
      }
    }

    /** The streaming loop: the state becomes Recording, the clip position is polled at
        each of `positions` and every new stretch is sent while the socket is open.  The
        task is stopped during the 100 ms delay after the last poll, which throws, or
        before the first poll when there is none, in which case the loop is not entered. */
    method StreamAudio(initialPosition: int, positions: seq<int>) returns (r: Result<(), Exception>)
      requires hasCts
      modifies this
      ensures state == Recording && cancelRequested && hasCts
      ensures r.Success? <==> old(cancelRequested) || positions == []
      ensures r.Failure? ==> r.error == OperationCanceled
      ensures audioSent == old(audioSent)
                           + (if old(cancelRequested) || socket != Open then []
                              else PollAll(clipSamples, MinSendLength, Poll(initialPosition, []), positions).sent)
      ensures socket == old(socket) && isTaskStarted == old(isTaskStarted) && isTaskFinished == old(isTaskFinished)
      ensures events == old(events) && commandsSent == old(commandsSent)
      ensures lastFinalTranscript == old(lastFinalTranscript)
    {
      state := Recording;
      if cancelRequested {
        return Success(());
      }
      if positions == [] {
        StopStreaming();
        return Success(());
      }
      var lastPosition := initialPosition;
      ghost var sent: seq<AudioRange> := [];
      var i := 0;
      while i < |positions|
        invariant 0 <= i <= |positions|
        invariant Poll(lastPosition, sent) == PollAll(clipSamples, MinSendLength, Poll(initialPosition, []), positions[..i])
        invariant audioSent == old(audioSent) + (if socket == Open then sent else [])
        invariant state == Recording && !cancelRequested && hasCts
        invariant socket == old(socket) && isTaskStarted == old(isTaskStarted) && isTaskFinished == old(isTaskFinished)
        invariant events == old(events) && commandsSent == old(commandsSent)
        invariant lastFinalTranscript == old(lastFinalTranscript)
      {
        var currentPosition := positions[i];
        assert positions[..i + 1][..i] == positions[..i];
        if currentPosition != lastPosition {
          var length := BufferLength(currentPosition, lastPosition, clipSamples);
          if length > 0 {
            if socket == Open {
              audioSent := audioSent + [AudioRange(lastPosition, length)];
            }
            sent := sent + [AudioRange(lastPosition, length)];
            lastPosition := currentPosition;
          }
        }
        i := i + 1;
      }
      assert positions[..i] == positions;
      StopStreaming();
      r := Failure(OperationCanceled);
    }

    /** The `try` block of `StreamingRecognitionTask`: connect, start, stream, finish;
        the first failure ends it, and the steps after it leave no trace.  With `c` the
        cancellation state on entry, the waits are `ConnectWait(env, c)` and
        `StartWait(env, c, isTaskStarted)`.  The stream ends only once the task is
        stopped, so the finish wait, when reached, succeeds only if `task-finished` has
        already been seen or is seen at its first poll, and is cancelled otherwise. */
    method RunTaskBody(env: AliyunEnvironment) returns (r: Result<(), Exception>)
      requires hasCts
      modifies this
      ensures hasCts
      ensures r.Success? ==> isTaskStarted && cancelRequested
      ensures r.Failure? ==> r.error.IsCancellation() || r.error == OtherError(ConnectFailedMessage)
      ensures var cw := ConnectWait(env, old(cancelRequested));
              !cw.Satisfied?
              ==> r == Failure(if cw.TimedOut? || ConnectStopTick(env, old(cancelRequested)) == Some(0)
                               then OtherError(ConnectFailedMessage) else OperationCanceled)
                  && socket == Connecting && state == old(state) && commandsSent == old(commandsSent)
                  && audioSent == old(audioSent) && events == old(events)
      ensures var cw := ConnectWait(env, old(cancelRequested));
              var sw := StartWait(env, old(cancelRequested), old(isTaskStarted));
              cw.Satisfied? && !sw.Satisfied?
              ==> r == WaitResult(sw, TaskCanceled(StartTimeoutMessage)) && !isTaskStarted
                  && socket == Open && state == old(state) && commandsSent == old(commandsSent) + ["run-task"]
                  && audioSent == old(audioSent) && events == old(events)
      ensures var cw := ConnectWait(env, old(cancelRequested));
              var sw := StartWait(env, old(cancelRequested), old(isTaskStarted));
              var streamed := old(cancelRequested) || env.positions == [];
              cw.Satisfied? && sw.Satisfied?
              ==> state == Recording && socket == Open && isTaskStarted && cancelRequested && events == old(events)
                  && audioSent == old(audioSent)
                                  + (if old(cancelRequested) then []
                                     else PollAll(clipSamples, MinSendLength, Poll(env.initialPosition, []), env.positions).sent)
                  && commandsSent == old(commandsSent) + (if streamed then ["run-task", "finish-task"] else ["run-task"])
                  && isTaskFinished == (old(isTaskFinished) || (streamed && env.finishedTick == Some(0)))
                  && r == (if streamed && (old(isTaskFinished) || env.finishedTick == Some(0)) then Success(())
                           else Failure(OperationCanceled))
    {
      ghost var c := cancelRequested;
      r := Connect(env.openTick, env.connectStop);
      if r.Failure? {
        return;
      }
      assert ConnectWait(env, c).Satisfied?;
      r := StartStreamFinish(env);
    }

    /** The steps of the `try` block after the connection is confirmed: start, stream,
        finish, the first failure ending them. */
    method StartStreamFinish(env: AliyunEnvironment) returns (r: Result<(), Exception>)
      requires hasCts && socket == Open
      modifies this
      ensures hasCts && socket == Open
      ensures var sw := StartWait(env, old(cancelRequested), old(isTaskStarted));
              !sw.Satisfied?
              ==> r == WaitResult(sw, TaskCanceled(StartTimeoutMessage)) && !isTaskStarted
                  && state == old(state) && commandsSent == old(commandsSent) + ["run-task"]
                  && audioSent == old(audioSent) && events == old(events)
      ensures var sw := StartWait(env, old(cancelRequested), old(isTaskStarted));
              var streamed := old(cancelRequested) || env.positions == [];
              sw.Satisfied?
              ==> state == Recording && isTaskStarted && cancelRequested && events == old(events)
                  && audioSent == old(audioSent)
                                  + (if old(cancelRequested) then []
                                     else PollAll(clipSamples, MinSendLength, Poll(env.initialPosition, []), env.positions).sent)
                  && commandsSent == old(commandsSent) + (if streamed then ["run-task", "finish-task"] else ["run-task"])
                  && isTaskFinished == (old(isTaskFinished) || (streamed && env.finishedTick == Some(0)))
                  && r == (if streamed && (old(isTaskFinished) || env.finishedTick == Some(0)) then Success(())
                           else Failure(OperationCanceled))
    {
      ghost var c := cancelRequested;
      ghost var started := isTaskStarted;
      ghost var commands := commandsSent;
      r := StartTask(env.startedTick, env.startStop);
      assert r == WaitResult(StartWait(env, c, started), TaskCanceled(StartTimeoutMessage));
      if r.Failure? {
        return;
      }
      r := StreamAudio(env.initialPosition, env.positions);
      if r.Failure? {
        assert !(c || env.positions == []);
        return;
      }
      assert cancelRequested && isTaskFinished == old(isTaskFinished);
      assert ArrivedBy(isTaskFinished, env.finishedTick)(0) == (isTaskFinished || env.finishedTick == Some(0));
      WaitAfterCancelReturnsAtOnce(ArrivedBy(isTaskFinished, env.finishedTick), FinishTimeoutTicks);
      r := FinishTask(env.finishedTick, env.finishStop);
      assert commandsSent == commands + ["run-task", "finish-task"];
    }

    /** `StreamingRecognitionTask` after its synchronous start: the body's exceptions are
        all caught, and whatever the outcome `OnStreamingFinished` is raised, an open
        socket is closed, the state returns to Ready and the cancellation source is
        dropped. */
    method RunStreamingTask(env: AliyunEnvironment) returns (outcome: Result<(), Exception>)
      requires state == Processing && hasCts
      modifies this
      ensures state == Ready && !hasCts && socket != Open
      ensures |events| > 0 && events[|events| - 1] == StreamingFinished
    {
      outcome := RunTaskBody(env);
      events := events + [StreamingFinished];
      if socket == Open {
        socket := Closed;
      }
      state := Ready;
      hasCts := false;
      cancelRequested := false;
    }

    /** The socket's error callback: the recognition task counts as finished; nothing is raised. */
    method HandleSocketError()
      modifies this
      ensures isTaskFinished && isTaskStarted == old(isTaskStarted) && events == old(events)
      ensures state == old(state) && socket == old(socket)
      ensures hasCts == old(hasCts) && cancelRequested == old(cancelRequested)
      ensures lastFinalTranscript == old(lastFinalTranscript)
    {
      isTaskFinished := true;
    }

    /** `HandleMessage`: `task-started` and `task-failed` set their flags; the text of
        `result-generated` becomes the last transcript and is raised when non-empty; the
        text of `task-finished` sets the finished flag and is raised when non-empty, but
        leaves the last transcript alone. */
    method HandleMessage(message: ServerMessage)
      modifies this
      ensures var ev := if message.header.Some? then message.header.value.event else None;
              var text := ReconstructTextFromWords(message.sentence);
        && isTaskStarted == (old(isTaskStarted) || ev == Some("task-started"))
        && isTaskFinished == (old(isTaskFinished) || ev == Some("task-finished") || ev == Some("task-failed"))
        && lastFinalTranscript == (if ev == Some("result-generated") && text != "" then text else old(lastFinalTranscript))
        && events == old(events) + (if (ev == Some("result-generated") || ev == Some("task-finished")) && text != ""
                                    then [RecognitionResult(text)] else [])
      ensures state == old(state) && socket == old(socket)
      ensures hasCts == old(hasCts) && cancelRequested == old(cancelRequested)
      ensures audioSent == old(audioSent) && commandsSent == old(commandsSent)
    {
      if message.header.None? {
        return;
      }
      var event := message.header.value.event;
      if event == Some("task-started") {
        isTaskStarted := true;
      } else if event == Some("result-generated") {
        var reconstructedText := ReconstructTextFromWords(message.sentence);
        if !IsNullOrEmpty(Some(reconstructedText)) {
          lastFinalTranscript := reconstructedText;
          events := events + [RecognitionResult(reconstructedText)];
        }
      } else if event == Some("task-finished") {
        isTaskFinished := true;
        var reconstructedText := ReconstructTextFromWords(message.sentence);
        if !IsNullOrEmpty(Some(reconstructedText)) {
          events := events + [RecognitionResult(reconstructedText)];
        }
      } else if event == Some("task-failed") {
        isTaskFinished := true;
      }
    }
  }
}

=== FILE: text.dfy ===
module Text {
  // String operations of the .NET runtime that the modelled code relies on:
  // whitespace, trimming, ordinal substring search, ASCII case mapping and decimal
  // formatting.  Strings are sequences of Unicode scalar values.

  import opened Wrappers

  /** `char.IsWhiteSpace`: the Unicode space separators, the line and paragraph
      separators, U+0009..U+000D and U+0085. */
  predicate IsWhiteSpace(c: char) {
    c == ' ' || ('\t' <= c <= '\r') || c == '\U{0085}' || c == '\U{00A0}'
    || c == '\U{1680}' || ('\U{2000}' <= c <= '\U{200A}') || c == '\U{2028}'
    || c == '\U{2029}' || c == '\U{202F}' || c == '\U{205F}' || c == '\U{3000}'
  }

  /** `string.IsNullOrWhiteSpace` for a non-null string. */
  predicate IsBlank(s: string) {
    forall i :: 0 <= i < |s| ==> IsWhiteSpace(s[i])
  }

  /** `string.IsNullOrWhiteSpace` on a nullable string. */
  predicate IsNullOrWhiteSpace(s: Option<string>) {
    s.None? || IsBlank(s.value)
  }

  /** `string.IsNullOrEmpty` on a nullable string. */
  predicate IsNullOrEmpty(s: Option<string>) {
    s.None? || s.value == ""
  }

  /** Removes leading whitespace. */
  function TrimStart(s: string): (r: string)
    ensures |r| <= |s| && r == s[|s| - |r|..]
    ensures forall i :: 0 <= i < |s| - |r| ==> IsWhiteSpace(s[i])
    ensures r != [] ==> !IsWhiteSpace(r[0])
  {
    if s != [] && IsWhiteSpace(s[0]) then TrimStart(s[1..]) else s
  }

  /** Removes trailing whitespace. */
  function TrimEnd(s: string): (r: string)
    ensures |r| <= |s| && r == s[..|r|]
    ensures forall i :: |r| <= i < |s| ==> IsWhiteSpace(s[i])
    ensures r != [] ==> !IsWhiteSpace(r[|r| - 1])
  {
    if s != [] && IsWhiteSpace(s[|s| - 1]) then TrimEnd(s[..|s| - 1]) else s
  }

  /** `string.Trim()`. */
  function Trim(s: string): string {
    TrimEnd(TrimStart(s))
  }

  /** Trimming leaves a string that neither starts nor ends with whitespace, occurs
      inside the input, and is empty exactly when the input is blank. */
  lemma TrimProperties(s: string)
    ensures var r := Trim(s);
      (r != [] ==> !IsWhiteSpace(r[0]) && !IsWhiteSpace(r[|r| - 1]))
      && Contains(s, r)
      && (r == [] <==> IsBlank(s))
  {
    var t := TrimStart(s);
    var r := TrimEnd(t);
    var i := |s| - |t|;
    assert OccursAt(s, r, i) by {
      assert t == s[i..];
      assert r == t[..|r|];
    }
    if r != [] {
      assert r[0] == t[0];
      assert !IsWhiteSpace(s[|s| - |t|]);
    }
  }

  /** Trimming is idempotent. */
  lemma TrimIdempotent(s: string)
    ensures Trim(Trim(s)) == Trim(s)
  {
    TrimProperties(s);
    var r := Trim(s);
    assert TrimStart(r) == r;
    assert TrimEnd(r) == r;
  }

  /** A string with no whitespace at either end is its own trim. */
  lemma TrimOfTrimmed(s: string)
    requires s != [] ==> !IsWhiteSpace(s[0]) && !IsWhiteSpace(s[|s| - 1])
    ensures Trim(s) == s
  {
    assert TrimStart(s) == s;
  }

  /** Trimming a string that starts with `p`, where `p` neither starts nor ends with
      whitespace, keeps `p` as a prefix; the trimmed string is a prefix of the input. */
  lemma TrimKeepsPrefix(p: string, q: string)
    requires p != [] && !IsWhiteSpace(p[0]) && !IsWhiteSpace(p[|p| - 1])
    ensures var r := Trim(p + q); StartsWith(r, p) && StartsWith(p + q, r)
  {
    var s := p + q;
    assert s[0] == p[0];
    assert TrimStart(s) == s;
    var r := TrimEnd(s);
    assert s[|p| - 1] == p[|p| - 1];
    assert (p + q)[..|p|] == p;
  }

  /** Does `sub` occur in `s` at position `i`? */
  predicate OccursAt(s: string, sub: string, i: int) {
    0 <= i && i + |sub| <= |s| && s[i..i + |sub|] == sub
  }

  /** Ordinal `string.Contains` / Python `sub in s`. */
  predicate Contains(s: string, sub: string) {
    exists i :: 0 <= i <= |s| && OccursAt(s, sub, i)
  }

  /** Python `str.find` / ordinal `string.IndexOf`: the first position at which `sub`
      occurs, or None. */
  function IndexOf(s: string, sub: string): (r: Option<nat>)
    ensures r.Some? ==> OccursAt(s, sub, r.value)
                        && forall j :: 0 <= j < r.value ==> !OccursAt(s, sub, j)
    ensures r.None? <==> !Contains(s, sub)
  {
    IndexFrom(s, sub, 0)
  }

  function IndexFrom(s: string, sub: string, from: nat): (r: Option<nat>)
    requires from <= |s| + 1
    requires forall j :: 0 <= j < from ==> !OccursAt(s, sub, j)
    ensures r.Some? ==> from <= r.value && OccursAt(s, sub, r.value)
                        && forall j :: 0 <= j < r.value ==> !OccursAt(s, sub, j)
    ensures r.None? ==> forall j :: !OccursAt(s, sub, j)
    decreases |s| + 1 - from
  {
    if from + |sub| > |s| then None
    else if s[from..from + |sub|] == sub then Some(from)
    else IndexFrom(s, sub, from + 1)
  }

  /** Does `s` end with `suffix` (ordinal comparison)? */
  predicate EndsWith(s: string, suffix: string) {
    |suffix| <= |s| && s[|s| - |suffix|..] == suffix
  }

  predicate StartsWith(s: string, prefix: string) {
    |prefix| <= |s| && s[..|prefix|] == prefix
  }

  /** `ToLowerInvariant` restricted to the ASCII letters. */
  function ToLowerAscii(c: char): char {
    if 'A' <= c <= 'Z' then (c as int + 32) as char else c
  }

  function ToLower(s: string): (r: string)
    ensures |r| == |s| && forall i :: 0 <= i < |s| ==> r[i] == ToLowerAscii(s[i])
  {
    seq(|s|, i requires 0 <= i < |s| => ToLowerAscii(s[i]))
  }

  /** `StringComparison.OrdinalIgnoreCase` equality, ASCII letters only. */
  predicate EqualsIgnoreCase(a: string, b: string) {
    ToLower(a) == ToLower(b)
  }

  predicate IsDigit(c: char) {
    '0' <= c <= '9'
  }

  predicate IsAsciiLetterOrDigit(c: char) {
    IsDigit(c) || ('a' <= c <= 'z') || ('A' <= c <= 'Z')
  }

  /** Decimal formatting of a natural number, as string interpolation prints an `int`. */
  function NatToString(n: nat): (r: string)
    ensures r != [] && forall i :: 0 <= i < |r| ==> IsDigit(r[i])
    ensures n < 10 ==> |r| == 1
  {
    if n < 10 then [('0' as int + n) as char]
    else NatToString(n / 10) + [('0' as int + n % 10) as char]
  }

  /** Concatenation of a sequence of strings. */
  function Concat(parts: seq<string>): (r: string)
    ensures parts == [] ==> r == ""
  {
    if parts == [] then "" else Concat(parts[..|parts| - 1]) + parts[|parts| - 1]
  }

  lemma {:induction false} ConcatAppend(a: seq<string>, b: seq<string>)
    ensures Concat(a + b) == Concat(a) + Concat(b)
    decreases |b|
  {
    if b == [] {
      assert a + b == a;
    } else {
      var b' := b[..|b| - 1];
      assert (a + b)[..|a + b| - 1] == a + b';
      ConcatAppend(a, b');
    }
  }
}

=== FILE: tool_calls.dfy ===
module ToolCalls {
  // The language-model tool-calling client in its two revisions: `LlmController` (the
  // module used by the conversation manager) and the older `apiFuncCalling` prototype.
  // Both send the command with one tool per registered function, read the first choice
  // of the reply, run the requested tool calls against the function registry and
  // report the outcome as text.  The HTTP exchange and JSON decoding are inputs: the
  // reply arrives as an already-decoded record or as the exception the request raised.

  import opened Wrappers
  import opened Text
  import opened Dictionaries
  import opened Registry

  // ---------------------------------------------------------------------------------
  // Decoded reply records

  /** The arguments string of a call after `JsonConvert.DeserializeObject`: either a
      dictionary or the message of the exception the deserialiser threw (a malformed
      or null string). */
  datatype ArgumentsJson = ArgumentsParsed(args: Args) | ArgumentsInvalid(message: string)

  /** `FunctionCall` (`name`, `arguments`). */
  datatype FunctionCall = FunctionCall(name: Option<string>, arguments: ArgumentsJson)

  /** `ToolCall` (`id`, `type`, `function`). */
  datatype ToolCall = ToolCall(id: Option<string>, kind: Option<string>, func: Option<FunctionCall>)

  /** `Message`: content, the legacy `function_call` and the `tool_calls` list. */
  datatype ChatMessage = ChatMessage(
    content: Option<string>,
    functionCall: Option<FunctionCall>,
    toolCalls: Option<seq<ToolCall>>)

  datatype Choice = Choice(message: Option<ChatMessage>)

  /** `ChatCompletionResponse`: the list of choices (any part may be null). */
  datatype ChatCompletion = ChatCompletion(choices: Option<seq<Option<Choice>>>)

  /** The reply body: text the deserialiser rejects (with its message), or a decoded
      value (`None` for the JSON literal `null`). */
  datatype ResponseJson = Malformed(error: string) | Decoded(completion: Option<ChatCompletion>)

  /** The exceptions that reach the controllers' catch blocks, by type. */
  datatype LlmException =
    | Timeout(message: string)
    | HttpRequest(message: string)
    | Argument(message: string)
    | InvalidOperation(message: string)
    | OperationCanceled(message: string)
    | Other(message: string)
  {
    /** `OperationCanceledException` and its subclass `TaskCanceledException`. */
    predicate IsCancellation() {
      OperationCanceled?
    }
  }

  const IndexOutOfRangeMessage := "Index was out of range. Must be non-negative and less than the size of the collection."
  const NullKeyMessage := "Value cannot be null. (Parameter 'key')"
  /** Message of `ThrowIfCancellationRequested`. */
  const OperationCanceledMessage := "The operation was canceled."
  /** Message of a cancelled `Task.Delay`. */
  const TaskCanceledMessage := "A task was canceled."

  const EmptyCommandMessage := "命令不能为空"
  const EmptyResponseMessage := "模型返回了空响应"
  const ParseFailedPrefix := "解析LLM响应失败: "
  const UnsupportedToolPrefix := "不支持的工具类型: "
  const ExecuteFailedPrefix := "错误: 执行函数失败 - "

  // ---------------------------------------------------------------------------------
  // Reading the reply

  /** `parsedResult.choices[0].message`, or the message of the exception that
      evaluating it throws. */
  function FirstMessage(json: ResponseJson): (r: Result<ChatMessage, string>)
    ensures r.Success? <==> json.Decoded? && json.completion.Some?
                            && json.completion.value.choices.Some?
                            && |json.completion.value.choices.value| > 0
                            && json.completion.value.choices.value[0].Some?
                            && json.completion.value.choices.value[0].value.message.Some?
    ensures r.Success? ==> Some(r.value) == json.completion.value.choices.value[0].value.message
    ensures json.Malformed? ==> r == Failure(json.error)
  {
    match json
    case Malformed(e) => Failure(e)
    case Decoded(None) => Failure(NullReferenceMessage)
    case Decoded(Some(completion)) =>
      match completion.choices
      case None => Failure(NullReferenceMessage)
      case Some(choices) =>
        if |choices| == 0 then Failure(IndexOutOfRangeMessage)
        else if choices[0].None? || choices[0].value.message.None? then Failure(NullReferenceMessage)
        else Success(choices[0].value.message.value)
  }

  /** The tuple `(content, hasToolCalls, toolCalls)`; a null list is `[]`. */
  datatype ParsedResponse = ParsedResponse(content: Option<string>, hasToolCalls: bool, toolCalls: seq<ToolCall>)

  predicate HasToolCallList(m: ChatMessage) {
    m.toolCalls.Some? && |m.toolCalls.value| > 0
  }

  /** `ParseLLMResponse`: a non-empty `tool_calls` list wins; otherwise, when legacy
      calls are enabled, a `function_call` becomes one call of type "function" whose id
      is the fresh `legacyId`; otherwise the content is the answer.  Any exception
      while reading becomes an `InvalidOperationException`. */
  function ParseLLMResponse(json: ResponseJson, legacyEnabled: bool, legacyId: string): (r: Result<ParsedResponse, LlmException>)
    ensures r.Failure? <==> FirstMessage(json).Failure?
    ensures r.Failure? ==> r.error == InvalidOperation(ParseFailedPrefix + FirstMessage(json).error)
    ensures r.Success? ==>
      var m := FirstMessage(json).value;
      (r.value.hasToolCalls <==> HasToolCallList(m) || (legacyEnabled && m.functionCall.Some?))
      && (r.value.hasToolCalls ==> r.value.content.None? && |r.value.toolCalls| > 0)
      && (HasToolCallList(m) ==> r.value.toolCalls == m.toolCalls.value)
      && (!HasToolCallList(m) && legacyEnabled && m.functionCall.Some? ==>
            r.value.toolCalls == [ToolCall(Some(legacyId), Some("function"), m.functionCall)])
      && (!r.value.hasToolCalls ==> r.value.content == m.content && r.value.toolCalls == [])
  {
    var first := FirstMessage(json);
    if first.Failure? then Failure(InvalidOperation(ParseFailedPrefix + first.error))
    else
      var m := first.value;
      if HasToolCallList(m) then Success(ParsedResponse(None, true, m.toolCalls.value))
      else if legacyEnabled && m.functionCall.Some? then
        Success(ParsedResponse(None, true, [ToolCall(Some(legacyId), Some("function"), m.functionCall)]))
      else Success(ParsedResponse(m.content, false, []))
  }

  // ---------------------------------------------------------------------------------
  // Running one call

  /** `FunctionRegistry.Get(name)`, argument decoding and the handler, without a catch
      (the prototype's `ExecuteLocalFunction`): a failure carries the exception's
      message. */
  function LocalFunctionResult(functions: Dict<FunctionMeta>, call: FunctionCall): (r: Result<string, string>)
    ensures call.name.None? ==> r == Failure(NullKeyMessage)
    ensures call.name.Some? && !functions.ContainsKey(call.name.value)
            ==> r == Failure(UnregisteredMessage(call.name.value))
    ensures call.name.Some? && functions.ContainsKey(call.name.value) && call.arguments.ArgumentsInvalid?
            ==> r == Failure(call.arguments.message)
    ensures r.Success? ==> call.name.Some? && functions.ContainsKey(call.name.value)
                           && call.arguments.ArgumentsParsed?
                           && r == functions.entries[call.name.value].execute(call.arguments.args)
  {
    if call.name.None? then Failure(NullKeyMessage)
    else match functions.Get(call.name.value)
      case None => Failure(UnregisteredMessage(call.name.value))
      case Some(meta) =>
        match call.arguments
        case ArgumentsInvalid(message) => Failure(message)
        case ArgumentsParsed(args) => meta.execute(args)
  }

  /** `ExecuteLocalFunction`.  The module revision (`catching`) turns every failure into
      the text "错误: 执行函数失败 - <message>"; the prototype lets it propagate. */
  function ExecuteLocalFunction(functions: Dict<FunctionMeta>, call: FunctionCall, catching: bool): (r: Result<string, string>)
    ensures catching ==> r.Success?
    ensures catching && LocalFunctionResult(functions, call).Failure?
            ==> r.value == ExecuteFailedPrefix + LocalFunctionResult(functions, call).error
    ensures LocalFunctionResult(functions, call).Success? || !catching ==> r == LocalFunctionResult(functions, call)
  {
    var r := LocalFunctionResult(functions, call);
    if catching && r.Failure? then Success(ExecuteFailedPrefix + r.error) else r
  }

  function UnsupportedToolMessage(kind: Option<string>): string {
    UnsupportedToolPrefix + kind.GetOr("")
  }

  predicate IsFunctionCall(call: ToolCall) {
    call.kind == Some("function") && call.func.Some?
  }

  /** `ExecuteSingleToolCall`: only calls of type "function" with a function are run;
      anything else throws `ArgumentException`.  In the module revision that is the
      only way a call can fail. */
  function ExecuteSingleToolCall(functions: Dict<FunctionMeta>, call: ToolCall, catching: bool): (r: Result<string, string>)
    ensures !IsFunctionCall(call) ==> r == Failure(UnsupportedToolMessage(call.kind))
    ensures catching ==> (r.Failure? <==> !IsFunctionCall(call))
    ensures !catching && IsFunctionCall(call) ==> r == LocalFunctionResult(functions, call.func.value)
  {
    if !IsFunctionCall(call) then Failure(UnsupportedToolMessage(call.kind))
    else ExecuteLocalFunction(functions, call.func.value, catching)
  }

  /** The text recorded for a call that threw. */
  function FailureLine(call: ToolCall, message: string): string {
    "工具调用 " + call.id.GetOr("") + " 失败: " + message
  }

  // ---------------------------------------------------------------------------------
  // Running the calls

  /** The two lists `ExecuteToolCalls` fills. */
  datatype Collected = Collected(results: seq<string>, errors: seq<string>)

  /** Parallel mode: one string per call in input order, the failure text standing in
      for a call that threw. */
  function ParallelResults(functions: Dict<FunctionMeta>, calls: seq<ToolCall>, catching: bool): (r: seq<string>)
    ensures |r| == |calls|
  {
    seq(|calls|, i requires 0 <= i < |calls| =>
      var single := ExecuteSingleToolCall(functions, calls[i], catching);
      if single.Success? then single.value else FailureLine(calls[i], single.error))
  }

  /** One round of the sequential loop for the call at `index`.  `cancelFrom` is the
      index of the first call that finds the token cancelled: it and every later call
      throw at `ThrowIfCancellationRequested` before running; when the token is
      cancelled during the 100 ms pause after call `cancelFrom - 1`, that call's result
      is kept and the interrupted pause adds an error line as well. */
  function SequentialStep(functions: Dict<FunctionMeta>, catching: bool, cancelFrom: Option<nat>,
                          acc: Collected, call: ToolCall, index: nat): Collected
  {
    if cancelFrom.Some? && index >= cancelFrom.value then
      acc.(errors := acc.errors + [FailureLine(call, OperationCanceledMessage)])
    else
      var single := ExecuteSingleToolCall(functions, call, catching);
      if single.Failure? then acc.(errors := acc.errors + [FailureLine(call, single.error)])
      else if cancelFrom == Some(index + 1) then
        Collected(acc.results + [single.value], acc.errors + [FailureLine(call, TaskCanceledMessage)])
      else acc.(results := acc.results + [single.value])
  }

  /** Sequential mode over `calls`, in order. */
  function Sequential(functions: Dict<FunctionMeta>, catching: bool, cancelFrom: Option<nat>,
                      calls: seq<ToolCall>): Collected
  {
    if calls == [] then Collected([], [])
    else SequentialStep(functions, catching, cancelFrom,
                        Sequential(functions, catching, cancelFrom, calls[..|calls| - 1]),
                        calls[|calls| - 1], |calls| - 1)
  }

  /** Parallel mode applies when enabled and there is more than one call. */
  function Collect(functions: Dict<FunctionMeta>, calls: seq<ToolCall>, parallelEnabled: bool,
                   catching: bool, cancelFrom: Option<nat>): Collected
  {
    if parallelEnabled && |calls| > 1 then Collected(ParallelResults(functions, calls, catching), [])
    else Sequential(functions, catching, cancelFrom, calls)
  }

  /** The report `ExecuteToolCalls` returns. */
  function ToolReport(functions: Dict<FunctionMeta>, calls: seq<ToolCall>, parallelEnabled: bool,
                      catching: bool, cancelFrom: Option<nat>): string
  {
    var c := Collect(functions, calls, parallelEnabled, catching, cancelFrom);
    FormatExecutionResults(c.results, c.errors)
  }

  /** `ExecuteToolCalls`: collects the results and errors, then formats them. */
  method ExecuteToolCalls(functions: Dict<FunctionMeta>, calls: seq<ToolCall>, parallelEnabled: bool,
                          catching: bool, cancelFrom: Option<nat>) returns (report: string)
    ensures report == ToolReport(functions, calls, parallelEnabled, catching, cancelFrom)
  {
    var results: seq<string> := [];
    var errors: seq<string> := [];
    if parallelEnabled && |calls| > 1 {
      results := ParallelResults(functions, calls, catching);
    } else {
      var i := 0;
      while i < |calls|
        invariant 0 <= i <= |calls|
        invariant Collected(results, errors) == Sequential(functions, catching, cancelFrom, calls[..i])
      {
        var call := calls[i];
        if cancelFrom.Some? && i >= cancelFrom.value {
          errors := errors + [FailureLine(call, OperationCanceledMessage)];
        } else {
          var single := ExecuteSingleToolCall(functions, call, catching);
          if single.Failure? {
            errors := errors + [FailureLine(call, single.error)];
          } else {
            results := results + [single.value];
            if cancelFrom == Some(i + 1) {
              errors := errors + [FailureLine(call, TaskCanceledMessage)];
            }
          }
        }
        assert calls[..i + 1][..i] == calls[..i];
        i := i + 1;
      }
      assert calls[..|calls|] == calls;
    }
    report := FormatExecutionResults(results, errors);
  }

  /** Without cancellation every call is run and leaves exactly one entry, and a call
      that throws does not stop the later ones. */
  lemma {:induction false} SequentialRunsEveryCall(functions: Dict<FunctionMeta>, catching: bool, calls: seq<ToolCall>)
    ensures var r := Sequential(functions, catching, None, calls);
      |r.results| + |r.errors| == |calls|
      && |r.errors| == |set i | 0 <= i < |calls| && ExecuteSingleToolCall(functions, calls[i], catching).Failure?|
    decreases |calls|
  {
    if calls != [] {
      var n := |calls| - 1;
      SequentialRunsEveryCall(functions, catching, calls[..n]);
      FailingCallsSnoc(functions, catching, calls);
    }
  }

  /** The calls that throw among `calls` are those among all but the last, plus the last
      one when it throws. */
  lemma FailingCallsSnoc(functions: Dict<FunctionMeta>, catching: bool, calls: seq<ToolCall>)
    requires calls != []
    ensures var n := |calls| - 1;
      |set i | 0 <= i < |calls| && ExecuteSingleToolCall(functions, calls[i], catching).Failure?|
      == |set i | 0 <= i < n && ExecuteSingleToolCall(functions, calls[..n][i], catching).Failure?|
         + (if ExecuteSingleToolCall(functions, calls[n], catching).Failure? then 1 else 0)
  {
    var n := |calls| - 1;
    var front := calls[..n];
    var failing := set i | 0 <= i < |calls| && ExecuteSingleToolCall(functions, calls[i], catching).Failure?;
    var failingFront := set i | 0 <= i < n && ExecuteSingleToolCall(functions, front[i], catching).Failure?;
    assert failingFront == set i | 0 <= i < n && ExecuteSingleToolCall(functions, calls[i], catching).Failure?;
    if ExecuteSingleToolCall(functions, calls[n], catching).Failure? {
      assert failing == failingFront + {n};
    } else {
      assert failing == failingFront;
    }
  }

  /** When no call throws and nothing is cancelled, the two modes collect the same
      strings. */
  lemma {:induction false} ModesAgreeWithoutFailures(functions: Dict<FunctionMeta>, catching: bool, calls: seq<ToolCall>)
    requires forall i :: 0 <= i < |calls| ==> ExecuteSingleToolCall(functions, calls[i], catching).Success?
    ensures Sequential(functions, catching, None, calls) == Collected(ParallelResults(functions, calls, catching), [])
    decreases |calls|
  {
    if calls != [] {
      var n := |calls| - 1;
      ModesAgreeWithoutFailures(functions, catching, calls[..n]);
      ParallelPrefix(functions, calls, catching);
    }
  }

  /** When every call throws, sequential mode reports as errors exactly the texts
      parallel mode reports as results. */
  lemma {:induction false} ModesAgreeWhenAllFail(functions: Dict<FunctionMeta>, catching: bool, calls: seq<ToolCall>)
    requires forall i :: 0 <= i < |calls| ==> ExecuteSingleToolCall(functions, calls[i], catching).Failure?
    ensures Sequential(functions, catching, None, calls) == Collected([], ParallelResults(functions, calls, catching))
    decreases |calls|
  {
    if calls != [] {
      var n := |calls| - 1;
      ModesAgreeWhenAllFail(functions, catching, calls[..n]);
      ParallelPrefix(functions, calls, catching);
    }
  }

  lemma ParallelPrefix(functions: Dict<FunctionMeta>, calls: seq<ToolCall>, catching: bool)
    requires calls != []
    ensures var n := |calls| - 1; var p := ParallelResults(functions, calls, catching);
      p == ParallelResults(functions, calls[..n], catching) + [p[n]]
  {
    var n := |calls| - 1;
    var p := ParallelResults(functions, calls, catching);
    var q := ParallelResults(functions, calls[..n], catching);
    assert forall i :: 0 <= i < n ==> q[i] == p[i];
    assert p == q + [p[n]];
  }

  /** The texts for calls that find the token already cancelled. */
  function CancelledLines(calls: seq<ToolCall>): (r: seq<string>)
    ensures |r| == |calls|
  {
    seq(|calls|, j requires 0 <= j < |calls| => FailureLine(calls[j], OperationCanceledMessage))
  }

  /** Once cancelled, no later call is run: each one adds the cancellation text to the
      errors and the results stay those of the calls before the cancellation. */
  lemma {:induction false} SequentialAfterCancel(functions: Dict<FunctionMeta>, catching: bool, c: nat, calls: seq<ToolCall>)
    requires c <= |calls|
    ensures var before := Sequential(functions, catching, Some(c), calls[..c]);
      Sequential(functions, catching, Some(c), calls)
        == Collected(before.results, before.errors + CancelledLines(calls[c..]))
    decreases |calls|
  {
    if |calls| == c {
      assert calls[..c] == calls;
      assert CancelledLines(calls[c..]) == [];
    } else {
      var n := |calls| - 1;
      SequentialAfterCancel(functions, catching, c, calls[..n]);
      assert calls[..n][..c] == calls[..c];
      assert calls[..n][c..] == calls[c..n];
      assert CancelledLines(calls[c..]) == CancelledLines(calls[c..n]) + [FailureLine(calls[n], OperationCanceledMessage)];
    }
  }

  // ---------------------------------------------------------------------------------
  // The report

  function Line(s: string): string {
    s + "\n"
  }

  function SuccessHeader(n: nat): string {
    "成功执行了 " + NatToString(n) + " 个操作:"
  }

  function ErrorHeader(n: nat): string {
    "发生 " + NatToString(n) + " 个错误:"
  }

  /** One line `<mark><item>` per item, in order. */
  function Bullets(mark: string, items: seq<string>): string {
    if items == [] then "" else Bullets(mark, items[..|items| - 1]) + Line(mark + items[|items| - 1])
  }

  function SuccessSection(results: seq<string>): string {
    if results == [] then "" else Line(SuccessHeader(|results|)) + Bullets("✓ ", results)
  }

  /** The error section, preceded by an empty line only when there were results. */
  function ErrorSection(results: seq<string>, errors: seq<string>): string {
    if errors == [] then ""
    else (if results == [] then "" else "\n") + Line(ErrorHeader(|errors|)) + Bullets("✗ ", errors)
  }

  /** `FormatExecutionResults`: the builder's text, trimmed. */
  function FormatExecutionResults(results: seq<string>, errors: seq<string>): string {
    Trim(SuccessSection(results) + ErrorSection(results, errors))
  }

  /** The builder's text before trimming. */
  function ReportText(results: seq<string>, errors: seq<string>): string {
    SuccessSection(results) + ErrorSection(results, errors)
  }

  /** The report is empty exactly when there is nothing to report; otherwise it opens
      with the counted success header, or with the counted error header when nothing
      succeeded; when both are present an empty line separates the ✓ lines from the
      error header; without errors the report is the success section, trimmed. */
  lemma ReportLayout(results: seq<string>, errors: seq<string>)
    ensures var r := FormatExecutionResults(results, errors);
      (results == [] && errors == [] <==> r == "")
      && (results != [] ==> StartsWith(r, SuccessHeader(|results|)))
      && (results == [] && errors != [] ==> StartsWith(r, ErrorHeader(|errors|)))
      && (results != [] && errors != [] ==>
            StartsWith(r, SuccessSection(results) + "\n" + ErrorHeader(|errors|)))
      && (errors == [] ==> StartsWith(SuccessSection(results), r))
  {
    if results != [] {
      ReportOpensWithSuccess(results, errors);
      if errors != [] {
        ReportSeparatesSections(results, errors);
      }
    } else if errors != [] {
      ReportOpensWithErrors(errors);
    }
  }

  lemma ReportOpensWithSuccess(results: seq<string>, errors: seq<string>)
    requires results != []
    ensures var r := FormatExecutionResults(results, errors);
      StartsWith(r, SuccessHeader(|results|)) && (errors == [] ==> StartsWith(SuccessSection(results), r))
  {
    SplitAfterSuccessHeader(results, errors);
    HeaderEnds("成功执行了 ", |results|, " 个操作:");
    TrimKeepsPrefix(SuccessHeader(|results|), "\n" + Bullets("✓ ", results) + ErrorSection(results, errors));
  }

  lemma ReportOpensWithErrors(errors: seq<string>)
    requires errors != []
    ensures StartsWith(FormatExecutionResults([], errors), ErrorHeader(|errors|))
  {
    var h, rest := ErrorHeader(|errors|), "\n" + Bullets("✗ ", errors);
    SplitAfterErrorHeader([], errors);
    assert SuccessSection([]) == "";
    EmptyPrefixes(h, rest);
    HeaderEnds("发生 ", |errors|, " 个错误:");
    TrimKeepsPrefix(h, rest);
  }

  lemma ReportSeparatesSections(results: seq<string>, errors: seq<string>)
    requires results != [] && errors != []
    ensures StartsWith(FormatExecutionResults(results, errors), SuccessSection(results) + "\n" + ErrorHeader(|errors|))
  {
    SplitAfterErrorHeader(results, errors);
    var head := SuccessSection(results) + "\n" + ErrorHeader(|errors|);
    HeaderEnds("成功执行了 ", |results|, " 个操作:");
    HeaderEnds("发生 ", |errors|, " 个错误:");
    assert head[0] == SuccessHeader(|results|)[0];
    assert head[|head| - 1] == ErrorHeader(|errors|)[|ErrorHeader(|errors|)| - 1];
    TrimKeepsPrefix(head, "\n" + Bullets("✗ ", errors));
  }

  /** Regrouping of a concatenation, kept apart from the report's definitions so that the
      solver proves it without unfolding them. */
  lemma EmptyPrefixes(h: string, rest: string)
    ensures "" + "" + h + rest == h + rest
  {
  }

  lemma HeaderEnds(before: string, n: nat, after: string)
    requires before != [] && after != []
    ensures var h := before + NatToString(n) + after;
      h[0] == before[0] && h[|h| - 1] == after[|after| - 1]
  {
  }

  lemma SplitAfterSuccessHeader(results: seq<string>, errors: seq<string>)
    requires results != []
    ensures ReportText(results, errors)
            == SuccessHeader(|results|) + ("\n" + Bullets("✓ ", results) + ErrorSection(results, errors))
  {
    var h, b, e := SuccessHeader(|results|), Bullets("✓ ", results), ErrorSection(results, errors);
    assert ReportText(results, errors) == ((h + "\n") + b) + e;
    Regroup(h, "\n", b, e);
  }

  /** Regrouping of a concatenation, kept apart from the report's definitions so that the
      solver proves it without unfolding them. */
  lemma Regroup(a: string, b: string, c: string, d: string)
    ensures ((a + b) + c) + d == a + ((b + c) + d)
  {
  }

  lemma SplitAfterErrorHeader(results: seq<string>, errors: seq<string>)
    requires errors != []
    ensures ReportText(results, errors)
            == SuccessSection(results) + (if results == [] then "" else "\n") + ErrorHeader(|errors|)
               + ("\n" + Bullets("✗ ", errors))
  {
    var sep, h, b := (if results == [] then "" else "\n"), ErrorHeader(|errors|), Bullets("✗ ", errors);
    assert ErrorSection(results, errors) == (sep + (h + "\n")) + b;
    RegroupAround(SuccessSection(results), sep, h, "\n", b);
  }

  /** Regrouping of a concatenation, kept apart from the report's definitions so that the
      solver proves it without unfolding them. */
  lemma RegroupAround(s: string, sep: string, h: string, nl: string, b: string)
    ensures s + ((sep + (h + nl)) + b) == ((s + sep) + h) + (nl + b)
  {
  }

  // ---------------------------------------------------------------------------------
  // Tool schema

  /** `FunctionParameter`: type, description and the optional enum list. */
  datatype FunctionParameter = FunctionParameter(kind: string, description: string, enumValues: Option<seq<string>>)

  /** `ParametersDefinition`; its `type` is always "object". */
  datatype ParametersDefinition = ParametersDefinition(kind: string, properties: Dict<FunctionParameter>, required: seq<string>)

  datatype FunctionDefinition = FunctionDefinition(name: string, description: string, parameters: ParametersDefinition)

  /** `Tool`; its `type` is always "function". */
  datatype Tool = Tool(kind: string, func: FunctionDefinition)

  function ToParameter(p: ParameterMeta): FunctionParameter {
    FunctionParameter(p.kind, p.description, p.enumValues)
  }

  /** The tool advertised for one registered function: its parameters keep their order
      and every one of them is required. */
  function ToolFor(meta: FunctionMeta): (r: Tool)
    ensures r.kind == "function" && r.func.parameters.kind == "object"
    ensures r.func.name == meta.name && r.func.description == meta.description
    ensures r.func.parameters.required == meta.parameters.keys == r.func.parameters.properties.keys
    ensures forall k :: meta.parameters.Get(k).Some? <==> r.func.parameters.properties.Get(k).Some?
    ensures forall k :: meta.parameters.Get(k).Some? ==>
      r.func.parameters.properties.Get(k) == Some(ToParameter(meta.parameters.Get(k).value))
  {
    var ps := meta.parameters;
    var properties := Dict(ps.keys, map k | k in ps.entries :: ToParameter(ps.entries[k]));
    Tool("function", FunctionDefinition(meta.name, meta.description,
                                        ParametersDefinition("object", properties, ps.keys)))
  }

  /** `GetToolDefinitions` over `FunctionRegistry.All()`: one tool per entry, in order. */
  function ToolDefinitions(metas: seq<FunctionMeta>): (r: seq<Tool>)
    ensures |r| == |metas|
    ensures forall i :: 0 <= i < |metas| ==> r[i] == ToolFor(metas[i])
  {
    seq(|metas|, i requires 0 <= i < |metas| => ToolFor(metas[i]))
  }

  /** Every parameter of a registered function, and nothing else, is marked required. */
  lemma RequiredIsEveryParameter(meta: FunctionMeta, k: string)
    requires meta.parameters.Valid()
    ensures k in ToolFor(meta).func.parameters.required <==> meta.parameters.ContainsKey(k)
  {
  }

  // ---------------------------------------------------------------------------------
  // One command

  /** What `ProcessCommandInternal` returns: the text and whether a tool was called. */
  datatype CommandResponse = CommandResponse(response: string, hasToolCall: bool)

  /** `ProcessCommandInternal` once the request has completed with `http`: parse the
      reply, then run the calls or take the content ("模型返回了空响应" when null). */
  function CommandOutcome(functions: Dict<FunctionMeta>, http: Result<ResponseJson, LlmException>,
                          parallelEnabled: bool, legacyEnabled: bool, catching: bool,
                          legacyId: string, cancelFrom: Option<nat>): (r: Result<CommandResponse, LlmException>)
    ensures http.Failure? ==> r == Failure(http.error)
    ensures r.Failure? && http.Success? ==> r.error.InvalidOperation?
    ensures r.Success? ==> http.Success?
                           && var p := ParseLLMResponse(http.value, legacyEnabled, legacyId);
                           p.Success? && r.value.hasToolCall == p.value.hasToolCalls
                           && (!p.value.hasToolCalls ==> r.value.response == p.value.content.GetOr(EmptyResponseMessage))
  {
    if http.Failure? then Failure(http.error)
    else
      var parsed := ParseLLMResponse(http.value, legacyEnabled, legacyId);
      if parsed.Failure? then Failure(parsed.error)
      else if parsed.value.hasToolCalls then
        Success(CommandResponse(ToolReport(functions, parsed.value.toolCalls, parallelEnabled, catching, cancelFrom), true))
      else Success(CommandResponse(parsed.value.content.GetOr(EmptyResponseMessage), false))
  }

  /** `ProcessCommandInternal`. */
  method ProcessCommandInternal(functions: Dict<FunctionMeta>, http: Result<ResponseJson, LlmException>,
                                parallelEnabled: bool, legacyEnabled: bool, catching: bool,
                                legacyId: string, cancelFrom: Option<nat>) returns (r: Result<CommandResponse, LlmException>)
    ensures r == CommandOutcome(functions, http, parallelEnabled, legacyEnabled, catching, legacyId, cancelFrom)
  {
    if http.Failure? {
      return Failure(http.error);
    }
    var parsed := ParseLLMResponse(http.value, legacyEnabled, legacyId);
    if parsed.Failure? {
      return Failure(parsed.error);
    }
    if parsed.value.hasToolCalls {
      var report := ExecuteToolCalls(functions, parsed.value.toolCalls, parallelEnabled, catching, cancelFrom);
      r := Success(CommandResponse(report, true));
    } else {
      r := Success(CommandResponse(parsed.value.content.GetOr(EmptyResponseMessage), false));
    }
  }

  /** `FormatUserFriendlyError` (both revisions): one message per exception type. */
  function FormatUserFriendlyError(e: LlmException): (r: string)
    ensures e.Timeout? <==> r == "请求超时，请重试"
    ensures e.HttpRequest? <==> r == "网络连接失败，请检查网络设置"
    ensures e.Argument? <==> r == "参数错误，请重新表述您的需求"
    ensures e.InvalidOperation? <==> r == "操作失败，请重试"
    ensures e.OperationCanceled? || e.Other? <==> r == "处理失败，请重试"
  {
    match e
    case Timeout(_) => "请求超时，请重试"
    case HttpRequest(_) => "网络连接失败，请检查网络设置"
    case Argument(_) => "参数错误，请重新表述您的需求"
    case InvalidOperation(_) => "操作失败，请重试"
    case _ => "处理失败，请重试"
  }

  /** The reply as the command sees it: a token cancelled before the request
      completed makes the request throw a cancellation. */
  function EffectiveReply(cancelled: bool, http: Result<ResponseJson, LlmException>): Result<ResponseJson, LlmException> {
    if cancelled then Failure(OperationCanceled(TaskCanceledMessage)) else http
  }

  /** Where the tool loop first finds the token cancelled. */
  function EffectiveStop(cancelled: bool, cancelFrom: Option<nat>): Option<nat> {
    if cancelled then Some(0) else cancelFrom
  }

  // ---------------------------------------------------------------------------------
  // The module revision

  /** `LlmResult`. */
  datatype LlmResult = LlmResult(response: string, isError: bool, errorMessage: Option<string>, hasToolCall: bool)

  /** `LlmResult.Success`. */
  function SuccessResult(response: string, hasToolCall: bool): LlmResult {
    LlmResult(response, false, None, hasToolCall)
  }

  /** `LlmResult.Error`: empty response, no tool call. */
  function ErrorResult(message: string): LlmResult {
    LlmResult("", true, Some(message), false)
  }

  /** The controller's events: `OnProcessingComplete` and `Error`. */
  datatype LlmEvent = ProcessingComplete(result: LlmResult) | ErrorRaised(message: string)

  /** What `ProcessCommandAsync` raises for an outcome: the result as
      `OnProcessingComplete`, nothing for a cancellation (it is only logged), and the
      user-facing message as `Error` for any other exception. */
  function CompletionEvents(outcome: Result<CommandResponse, LlmException>): (r: seq<LlmEvent>)
    ensures |r| <= 1
    ensures outcome.Success? <==> |r| == 1 && r[0].ProcessingComplete?
    ensures outcome.Success? ==> r == [ProcessingComplete(SuccessResult(outcome.value.response, outcome.value.hasToolCall))]
    ensures outcome.Failure? ==> (r == [] <==> outcome.error.IsCancellation())
  {
    if outcome.Success? then [ProcessingComplete(SuccessResult(outcome.value.response, outcome.value.hasToolCall))]
    else if outcome.error.IsCancellation() then []
    else [ErrorRaised(FormatUserFriendlyError(outcome.error))]
  }

  /** `LlmController`.  A command runs in two steps: `ProcessCommand` (the guard and the
      synchronous start of `ProcessCommandAsync`) and `CompleteCommand` (the rest of it,
      once the request has completed); `CancelProcessing` may come in between. */
  class LlmController {
    const parallelEnabled: bool
    const legacyEnabled: bool
    var isProcessing: bool
    /** A `CancellationTokenSource` exists, and whether it has been cancelled. */
    var hasCts: bool
    var cancelRequested: bool
    var cachedTools: Option<seq<Tool>>
    /** The tool lists sent with each request. */
    var requestTools: seq<seq<Tool>>
    var events: seq<LlmEvent>

    constructor(parallelEnabled: bool, legacyEnabled: bool)
      ensures this.parallelEnabled == parallelEnabled && this.legacyEnabled == legacyEnabled
      ensures !isProcessing && !hasCts && !cancelRequested && cachedTools.None?
      ensures requestTools == [] && events == []
    {
      this.parallelEnabled := parallelEnabled;
      this.legacyEnabled := legacyEnabled;
      isProcessing := false;
      hasCts := false;
      cancelRequested := false;
      cachedTools := None;
      requestTools := [];
      events := [];
    }

    /** `ProcessCommand`: ignored while processing; a blank command raises
        "命令不能为空"; otherwise processing starts with a fresh token. */
    method ProcessCommand(command: Option<string>) returns (started: bool)
      modifies this
      ensures started <==> !old(isProcessing) && !IsNullOrWhiteSpace(command)
      ensures events == old(events) + (if !old(isProcessing) && IsNullOrWhiteSpace(command)
                                       then [ErrorRaised(EmptyCommandMessage)] else [])
      ensures started ==> isProcessing && hasCts && !cancelRequested
      ensures !started ==> isProcessing == old(isProcessing) && hasCts == old(hasCts)
                           && cancelRequested == old(cancelRequested)
      ensures cachedTools == old(cachedTools) && requestTools == old(requestTools)
    {
      if isProcessing {
        return false;
      }
      if IsNullOrWhiteSpace(command) {
        events := events + [ErrorRaised(EmptyCommandMessage)];
        return false;
      }
      isProcessing := true;
      hasCts := true;
      cancelRequested := false;
      started := true;
    }

    /** `CancelProcessing`: cancels the token if there is one and clears the flag at
        once, without waiting for the request. */
    method CancelProcessing()
      modifies this
      ensures !isProcessing && hasCts == old(hasCts)
      ensures cancelRequested == (old(cancelRequested) || old(hasCts))
      ensures events == old(events) && cachedTools == old(cachedTools) && requestTools == old(requestTools)
    {
      if hasCts {
        cancelRequested := true;
      }
      isProcessing := false;
    }

    /** `GetToolDefinitions`: computed from the registry on first use, then cached. */
    method GetToolDefinitions(registry: FunctionRegistry) returns (tools: seq<Tool>)
      requires registry.Valid()
      modifies this
      ensures old(cachedTools).Some? ==> tools == old(cachedTools).value
      ensures old(cachedTools).None? ==> tools == ToolDefinitions(registry.functions.Values())
      ensures cachedTools == Some(tools)
      ensures isProcessing == old(isProcessing) && hasCts == old(hasCts) && cancelRequested == old(cancelRequested)
      ensures events == old(events) && requestTools == old(requestTools)
    {
      if cachedTools.None? {
        var all := registry.All();
        assert all == registry.functions.Values();
        cachedTools := Some(ToolDefinitions(all));
      }
      tools := cachedTools.value;
    }

    /** The request carries the tool definitions, from the cache when present. */
    method SendRequest(registry: FunctionRegistry)
      requires registry.Valid()
      modifies this
      ensures old(cachedTools).Some? ==> cachedTools == old(cachedTools)
      ensures old(cachedTools).None? ==> cachedTools == Some(ToolDefinitions(registry.functions.Values()))
      ensures cachedTools.Some? && requestTools == old(requestTools) + [cachedTools.value]
      ensures isProcessing == old(isProcessing) && hasCts == old(hasCts) && cancelRequested == old(cancelRequested)
      ensures events == old(events)
    {
      var tools := GetToolDefinitions(registry);
      requestTools := requestTools + [tools];
    }

    /** The rest of `ProcessCommandAsync` once the request has completed with `http`
        (a cancelled token makes it fail with a cancellation).  The result is raised as
        `OnProcessingComplete`; a cancellation is only logged; any other exception raises
        `Error` with the user-facing message; the finally block clears the flag and the
        token.  `cancelFrom` is where the tool loop first finds the token cancelled. */
    method CompleteCommand(registry: FunctionRegistry, http: Result<ResponseJson, LlmException>,
                           legacyId: string, cancelFrom: Option<nat>)
      requires registry.Valid() && hasCts
      modifies this
      ensures old(cachedTools).Some? ==> cachedTools == old(cachedTools)
      ensures old(cachedTools).None? ==> cachedTools == Some(ToolDefinitions(registry.functions.Values()))
      ensures cachedTools.Some? && requestTools == old(requestTools) + [cachedTools.value]
      ensures events == old(events) + CompletionEvents(CommandOutcome(
                registry.functions, EffectiveReply(old(cancelRequested), http), parallelEnabled,
                legacyEnabled, true, legacyId, EffectiveStop(old(cancelRequested), cancelFrom)))
      ensures !isProcessing && !hasCts && !cancelRequested
    {
      var reply, stop := EffectiveReply(cancelRequested, http), EffectiveStop(cancelRequested, cancelFrom);
      var outcome := ProcessCommandInternal(registry.functions, reply, parallelEnabled, legacyEnabled, true, legacyId, stop);
      SendRequest(registry);
      Conclude(outcome);
    }

    /** The end of `ProcessCommandAsync`: the events for the outcome, then the finally
        block, which clears the flag and the token. */
    method Conclude(outcome: Result<CommandResponse, LlmException>)
      modifies this
      ensures events == old(events) + CompletionEvents(outcome)
      ensures !isProcessing && !hasCts && !cancelRequested
      ensures cachedTools == old(cachedTools) && requestTools == old(requestTools)
    {
      events := events + CompletionEvents(outcome);
      isProcessing := false;
      hasCts := false;
      cancelRequested := false;
    }
  }

  // ---------------------------------------------------------------------------------
  // The prototype revision

  /** `apiFuncCalling`: the same exchange without a tool cache and without a catch in
      `ExecuteLocalFunction`; `ProcessCommand` is awaited and returns whether a tool was
      called, recording the last user-facing error.  As above it is split at the
      request into `StartCommand` and `FinishCommand`. */
  class ApiFuncCalling {
    const parallelEnabled: bool
    const legacyEnabled: bool
    var isProcessing: bool
    var lastError: string
    var hasCts: bool
    var cancelRequested: bool
    var requestTools: seq<seq<Tool>>

    constructor(parallelEnabled: bool, legacyEnabled: bool)
      ensures this.parallelEnabled == parallelEnabled && this.legacyEnabled == legacyEnabled
      ensures !isProcessing && lastError == "" && !hasCts && !cancelRequested && requestTools == []
    {
      this.parallelEnabled := parallelEnabled;
      this.legacyEnabled := legacyEnabled;
      isProcessing := false;
      lastError := "";
      hasCts := false;
      cancelRequested := false;
      requestTools := [];
    }

    /** The start of `ProcessCommand`: while processing, or for a blank command, it
        returns false without doing anything; otherwise processing starts. */
    method StartCommand(command: Option<string>) returns (started: bool)
      modifies this
      ensures started <==> !old(isProcessing) && !IsNullOrWhiteSpace(command)
      ensures started ==> isProcessing && hasCts && !cancelRequested
      ensures !started ==> isProcessing == old(isProcessing) && hasCts == old(hasCts)
                           && cancelRequested == old(cancelRequested)
      ensures lastError == old(lastError) && requestTools == old(requestTools)
    {
      if isProcessing || IsNullOrWhiteSpace(command) {
        return false;
      }
      isProcessing := true;
      hasCts := true;
      cancelRequested := false;
      started := true;
    }

    /** `CancelCurrentRequest`: cancels only while processing. */
    method CancelCurrentRequest()
      modifies this
      ensures cancelRequested == (old(cancelRequested) || (old(isProcessing) && old(hasCts)))
      ensures isProcessing == old(isProcessing) && hasCts == old(hasCts)
      ensures lastError == old(lastError) && requestTools == old(requestTools)
    {
      if isProcessing && hasCts {
        cancelRequested := true;
      }
    }

    /** The rest of `ProcessCommand` once the request has completed with `http`: it
        returns `hasToolCall` on success and false on any exception, records the
        user-facing message of a non-cancellation exception in `LastError`, and always
        clears `IsProcessing`. */
    method FinishCommand(registry: FunctionRegistry, http: Result<ResponseJson, LlmException>,
                         legacyId: string, cancelFrom: Option<nat>) returns (hasToolCall: bool)
      requires registry.Valid() && hasCts
      modifies this
      ensures requestTools == old(requestTools) + [ToolDefinitions(registry.functions.Values())]
      ensures var outcome := CommandOutcome(registry.functions, EffectiveReply(old(cancelRequested), http), parallelEnabled,
                                            legacyEnabled, false, legacyId, EffectiveStop(old(cancelRequested), cancelFrom));
        (hasToolCall <==> outcome.Success? && outcome.value.hasToolCall)
        && lastError == (if outcome.Failure? && !outcome.error.IsCancellation()
                         then FormatUserFriendlyError(outcome.error) else old(lastError))
      ensures !isProcessing && !hasCts && !cancelRequested
    {
      var all := registry.All();
      assert all == registry.functions.Values();
      requestTools := requestTools + [ToolDefinitions(all)];
      var outcome := ProcessCommandInternal(registry.functions, EffectiveReply(cancelRequested, http), parallelEnabled,
                                            legacyEnabled, false, legacyId, EffectiveStop(cancelRequested, cancelFrom));
      hasToolCall := Settle(outcome);
    }

    /** The return, the catch blocks and the finally block of `ProcessCommand`, once its
        outcome is known. */
    method Settle(outcome: Result<CommandResponse, LlmException>) returns (hasToolCall: bool)
      modifies this
      ensures hasToolCall <==> outcome.Success? && outcome.value.hasToolCall
      ensures lastError == (if outcome.Failure? && !outcome.error.IsCancellation()
                            then FormatUserFriendlyError(outcome.error) else old(lastError))
      ensures !isProcessing && !hasCts && !cancelRequested && requestTools == old(requestTools)
    {
      if outcome.Success? {
        hasToolCall := outcome.value.hasToolCall;
      } else {
        hasToolCall := false;
        if !outcome.error.IsCancellation() {
          lastError := FormatUserFriendlyError(outcome.error);
        }
      }
      isProcessing := false;
      hasCts := false;
      cancelRequested := false;
    }
  }
}

=== FILE: vai_manager.dfy ===
module VaiManager {
  // `VAIManager`, the conversation orchestrator of the runtime package: a keyword wakes
  // it, the speech recogniser streams text, the language-understanding controller may
  // match commands directly, and otherwise the language model is asked.  The state
  // machine and the conversation record are modelled in place; the recogniser and the
  // language model are represented by the calls the manager makes on them (their own
  // behaviour is modelled in their own modules), and their callbacks are the handler
  // methods below.  The status text and animator are not modelled.

  import opened Wrappers
  import opened Text
  import opened Registry
  import opened Nlu
  import AsrCommon
  import ToolCalls

  datatype AssistantState = Idle | Listening | Processing | Success | Invalid | Shutdown

  /** A call the manager makes on the recogniser or the language model. */
  datatype ModuleCall =
    | AsrStart                           // asrModule.StartRecognition()
    | AsrStop                            // asrModule.StopRecognition()
    | LlmProcess(command: Option<string>)  // llmModule.ProcessCommand(AsrResult)
    | LlmCancel                          // llmModule.CancelProcessing()

  /** The contents of `VaiConversationData`. */
  datatype Conversation = Conversation(
    wakeWord: Option<string>,
    wakeWordConfidence: real,
    asrResult: Option<string>,
    asrSentence: Option<AsrCommon.Sentence>,
    llmResult: Option<string>,
    errorInfo: Option<string>)

  /** Every field at its default: null strings, confidence 0. */
  const Cleared := Conversation(None, 0.0, None, None, None, None)

  /** What `ClearMainInfo` leaves: the wake word and its confidence. */
  function MainInfoCleared(c: Conversation): (r: Conversation)
    ensures r.wakeWord == c.wakeWord && r.wakeWordConfidence == c.wakeWordConfidence
    ensures r.(wakeWord := None, wakeWordConfidence := 0.0) == Cleared
  {
    c.(asrResult := None, asrSentence := None, llmResult := None, errorInfo := None)
  }

  /** `VaiConversationData`. */
  class ConversationData {
    var wakeWord: Option<string>
    var wakeWordConfidence: real
    var asrResult: Option<string>
    var asrSentence: Option<AsrCommon.Sentence>
    var llmResult: Option<string>
    var errorInfo: Option<string>

    function Contents(): Conversation
      reads this
    {
      Conversation(wakeWord, wakeWordConfidence, asrResult, asrSentence, llmResult, errorInfo)
    }

    constructor()
      ensures Contents() == Cleared
    {
      wakeWord := None;
      wakeWordConfidence := 0.0;
      asrResult := None;
      asrSentence := None;
      llmResult := None;
      errorInfo := None;
    }

    /** `Clear`: every field back to its default. */
    method Clear()
      modifies this
      ensures Contents() == Cleared
    {
      wakeWord := None;
      wakeWordConfidence := 0.0;
      asrResult := None;
      asrSentence := None;
      llmResult := None;
      errorInfo := None;
    }

    /** `ClearMainInfo`: clears the recognition, answer and error fields and keeps the
        wake word and its confidence. */
    method ClearMainInfo()
      modifies this
      ensures Contents() == MainInfoCleared(old(Contents()))
    {
      asrResult := None;
      asrSentence := None;
      llmResult := None;
      errorInfo := None;
    }
  }

  /** The parts of the language-understanding controller the manager relies on: whether
      it can match (trie built and segmenter present), its definitions and its limit. */
  datatype NluSetup = NluSetup(ready: bool, defs: seq<FunctionDef>, limit: int)

  /** The manager's observable state: its own state, the conversation record, the
      commands stored in the language-understanding controller, the calls made so far on
      the recogniser and the language model, and the number of pending `ReturnToIdle`
      invocations. */
  datatype ManagerView = ManagerView(
    state: AssistantState,
    conversation: Conversation,
    stored: seq<Command>,
    nlu: NluSetup,
    calls: seq<ModuleCall>,
    pendingReturns: nat)

  // ---------------------------------------------------------------------------------
  // The state machine as functions of the view

  /** `TransitionToState`: nothing when already in `s`; otherwise the entry actions of
      `s`. */
  function Enter(v: ManagerView, s: AssistantState): ManagerView {
    if v.state == s then v
    else
      var w := v.(state := s);
      match s
      case Idle => w.(conversation := Cleared, stored := [], calls := v.calls + [AsrStop, LlmCancel])
      case Listening =>
        w.(pendingReturns := 0, conversation := MainInfoCleared(v.conversation), stored := [],
           calls := v.calls + [AsrStart])
      case Processing => w.(calls := v.calls + [AsrStop, LlmProcess(v.conversation.asrResult)])
      case Success => w.(pendingReturns := v.pendingReturns + 1)
      case Invalid => w.(pendingReturns := v.pendingReturns + 1)
      case Shutdown => w
  }

  /** `HandleKeywordSpotted`: accepted only in Idle, Success or Invalid. */
  function OnKeyword(v: ManagerView, keyword: string): ManagerView {
    if v.state != Idle && v.state != AssistantState.Success && v.state != Invalid then v
    else Enter(v.(conversation := v.conversation.(wakeWord := Some(keyword), wakeWordConfidence := 0.9)), Listening)
  }

  /** Words in streamed text that the recogniser uses to report a failure. */
  predicate ReportsFailure(text: string) {
    Contains(text, "超时") || Contains(text, "错误") || Contains(text, "失败")
  }

  /** The stored commands after `ProcessAsrResult(text)`. */
  function StoredAfter(setup: NluSetup, stored: seq<Command>, text: string,
                       cut: string -> seq<string>, parse: string -> Option<real>): seq<Command>
  {
    if !setup.ready then stored
    else MatchCommands(setup.defs, cut(text), parse, setup.limit).GetOr(stored)
  }

  const SilentInteractionMessage := "I'm here for you."

  /** `ProcessEndOfSpeech`: stored commands are executed directly; otherwise recognised
      text (or a disabled matcher) goes to the language model; otherwise the
      interaction is invalid. */
  function EndOfSpeech(v: ManagerView, functions: Dictionaries.Dict<FunctionMeta>, useNlu: bool): ManagerView {
    if |v.stored| > 0 then
      Enter(v.(conversation := v.conversation.(llmResult := Some(ExecutionReport(functions, v.stored))), stored := []),
            AssistantState.Success)
    else if !IsNullOrWhiteSpace(v.conversation.asrResult) || !useNlu then Enter(v, Processing)
    else Enter(v.(conversation := v.conversation.(errorInfo := Some(SilentInteractionMessage))), Invalid)
  }

  /** `HandleAsrRecognitionStreaming` (the recogniser raises it only with text). */
  function OnStreaming(v: ManagerView, sentence: AsrCommon.Sentence, functions: Dictionaries.Dict<FunctionMeta>,
                       useNlu: bool, cut: string -> seq<string>, parse: string -> Option<real>): ManagerView
    requires sentence.text.Some?
  {
    var text := sentence.text.value;
    if v.state != Listening then v
    else if ReportsFailure(text) then Enter(v.(conversation := v.conversation.(errorInfo := Some(text))), Invalid)
    else
      var heard := v.(conversation := v.conversation.(asrResult := Some(text), asrSentence := Some(sentence)));
      var matched := if useNlu then heard.(stored := StoredAfter(v.nlu, v.stored, text, cut, parse)) else heard;
      if sentence.sentenceEnd then EndOfSpeech(matched, functions, useNlu) else matched
  }

  function LlmFailureText(message: string): string {
    "智能处理失败: " + message
  }

  /** `HandleLlmProcessingComplete`: only in Processing; an error result or an answer
      without a tool call is invalid, otherwise the answer is shown as a success. */
  function OnLlmResult(v: ManagerView, result: ToolCalls.LlmResult): ManagerView {
    if v.state != Processing then v
    else if result.isError then
      Enter(v.(conversation := v.conversation.(errorInfo := Some(LlmFailureText(result.errorMessage.GetOr(""))))), Invalid)
    else if !result.hasToolCall then
      Enter(v.(conversation := v.conversation.(errorInfo := Some(result.response))), Invalid)
    else Enter(v.(conversation := v.conversation.(llmResult := Some(result.response))), AssistantState.Success)
  }

  /** `HandleAsrError`, from any state. */
  function OnAsrError(v: ManagerView, message: string): ManagerView {
    Enter(v.(conversation := v.conversation.(errorInfo := Some("语音识别失败: " + message))), Invalid)
  }

  /** `HandleLlmError`, from any state. */
  function OnLlmError(v: ManagerView, message: string): ManagerView {
    Enter(v.(conversation := v.conversation.(errorInfo := Some(LlmFailureText(message)))), Invalid)
  }

  /** A pending `ReturnToIdle` fires. */
  function OnReturnTimer(v: ManagerView): ManagerView
    requires v.pendingReturns > 0
  {
    Enter(v.(pendingReturns := v.pendingReturns - 1), Idle)
  }

  // ---------------------------------------------------------------------------------
  // Properties of the state machine

  /** Transitioning to the current state does nothing, not even the entry actions; any
      other transition lands in the requested state. */
  lemma EnterLandsInState(v: ManagerView, s: AssistantState)
    ensures v.state == s ==> Enter(v, s) == v
    ensures Enter(v, s).state == s
    ensures Enter(v, s).nlu == v.nlu
  {
  }

  /** Entering Idle clears the whole conversation, including the wake word, empties the
      stored commands and stops the recogniser and the language model. */
  lemma IdleEntryResets(v: ManagerView)
    requires v.state != Idle
    ensures var w := Enter(v, Idle);
      w.conversation == Cleared && w.stored == [] && w.calls == v.calls + [AsrStop, LlmCancel]
      && w.pendingReturns == v.pendingReturns
  {
  }

  /** Entering Listening keeps the wake word and its confidence, clears the other
      fields and the stored commands, cancels pending returns and starts recognition. */
  lemma ListeningEntryKeepsWakeWord(v: ManagerView)
    requires v.state != Listening
    ensures var w := Enter(v, Listening);
      w.conversation.wakeWord == v.conversation.wakeWord
      && w.conversation.wakeWordConfidence == v.conversation.wakeWordConfidence
      && w.conversation.asrResult.None? && w.conversation.asrSentence.None?
      && w.conversation.llmResult.None? && w.conversation.errorInfo.None?
      && w.stored == [] && w.pendingReturns == 0 && w.calls == v.calls + [AsrStart]
  {
  }

  /** A keyword is accepted exactly in Idle, Success and Invalid: it is recorded with
      confidence 0.9 and recognition starts; in any other state nothing happens. */
  lemma KeywordWakesOnlyWhenIdleOrDone(v: ManagerView, keyword: string)
    ensures var w := OnKeyword(v, keyword);
      (v.state in {Idle, AssistantState.Success, Invalid} ==>
         w.state == Listening && w.conversation.wakeWord == Some(keyword)
         && w.conversation.wakeWordConfidence == 0.9 && w.calls == v.calls + [AsrStart])
      && (v.state !in {Idle, AssistantState.Success, Invalid} ==> w == v)
  {
  }

  /** Streamed text is ignored outside Listening; text reporting a failure makes the
      interaction invalid with that text as the error; other text is recorded, and
      without `sentence_end` the state stays Listening. */
  lemma StreamingOutcomes(v: ManagerView, sentence: AsrCommon.Sentence, functions: Dictionaries.Dict<FunctionMeta>,
                          useNlu: bool, cut: string -> seq<string>, parse: string -> Option<real>)
    requires sentence.text.Some?
    ensures var w := OnStreaming(v, sentence, functions, useNlu, cut, parse);
      (v.state != Listening ==> w == v)
      && (v.state == Listening && ReportsFailure(sentence.text.value) ==>
            w.state == Invalid && w.conversation.errorInfo == Some(sentence.text.value))
      && (v.state == Listening && !ReportsFailure(sentence.text.value) && !sentence.sentenceEnd ==>
            w.state == Listening && w.conversation.asrResult == sentence.text
            && w.conversation.asrSentence == Some(sentence)
            && w.stored == (if useNlu then StoredAfter(v.nlu, v.stored, sentence.text.value, cut, parse) else v.stored))
  {
  }

  /** End of speech, in Listening: stored commands win and are executed (Success, the
      report as the answer, nothing left stored); else non-blank text, or a disabled
      matcher, goes to the language model; else the interaction is invalid with
      "I'm here for you.". */
  lemma EndOfSpeechOrder(v: ManagerView, functions: Dictionaries.Dict<FunctionMeta>, useNlu: bool)
    requires v.state == Listening
    ensures var w := EndOfSpeech(v, functions, useNlu);
      (|v.stored| > 0 ==>
         w.state == AssistantState.Success && w.stored == [] && w.conversation.llmResult == Some(ExecutionReport(functions, v.stored))
         && w.calls == v.calls)
      && (|v.stored| == 0 && (!IsNullOrWhiteSpace(v.conversation.asrResult) || !useNlu) ==>
            w.state == Processing && w.calls == v.calls + [AsrStop, LlmProcess(v.conversation.asrResult)])
      && (|v.stored| == 0 && IsNullOrWhiteSpace(v.conversation.asrResult) && useNlu ==>
            w.state == Invalid && w.conversation.errorInfo == Some(SilentInteractionMessage))
  {
  }

  /** A language-model result counts only in Processing: an error or an answer without a
      tool call is invalid; otherwise the answer is the result and the state Success. */
  lemma LlmResultOutcomes(v: ManagerView, result: ToolCalls.LlmResult)
    ensures var w := OnLlmResult(v, result);
      (v.state != Processing ==> w == v)
      && (v.state == Processing && (result.isError || !result.hasToolCall) ==> w.state == Invalid)
      && (v.state == Processing && !result.isError && result.hasToolCall ==>
            w.state == AssistantState.Success && w.conversation.llmResult == Some(result.response))
  {
  }

  /** Error callbacks make the interaction invalid from any state, scheduling a return
      to Idle unless it already was invalid. */
  lemma ErrorsInvalidate(v: ManagerView, message: string)
    ensures OnAsrError(v, message).state == Invalid && OnLlmError(v, message).state == Invalid
    ensures OnAsrError(v, message).conversation.errorInfo == Some("语音识别失败: " + message)
    ensures OnLlmError(v, message).conversation.errorInfo == Some(LlmFailureText(message))
    ensures v.state != Invalid ==> OnAsrError(v, message).pendingReturns == v.pendingReturns + 1
  {
  }

  /** While Listening no return to Idle is pending: the one event that enters Listening
      cancels them, and every way of scheduling one leaves Listening. */
  ghost predicate NoStaleReturn(v: ManagerView) {
    v.state == Listening ==> v.pendingReturns == 0
  }

  lemma EnterKeepsNoStaleReturn(v: ManagerView, s: AssistantState)
    requires NoStaleReturn(v)
    ensures NoStaleReturn(Enter(v, s))
  {
  }

  lemma StreamingKeepsNoStaleReturn(v: ManagerView, sentence: AsrCommon.Sentence,
                                                        functions: Dictionaries.Dict<FunctionMeta>, useNlu: bool,
                                                        cut: string -> seq<string>, parse: string -> Option<real>)
    requires NoStaleReturn(v) && sentence.text.Some?
    ensures NoStaleReturn(OnStreaming(v, sentence, functions, useNlu, cut, parse))
  {
  }

  // ---------------------------------------------------------------------------------
  // The manager

  /** `VAIManager` after `Start`/`Startup`.  `nlu` and `registry` are the
      language-understanding controller and its function registry; `cut` and `parse`
      are the word segmenter and number parser it uses. */
  class VAIManager {
    const useNluBeforeLlm: bool
    const nlu: NluController
    const registry: FunctionRegistry
    const cut: string -> seq<string>
    const parse: string -> Option<real>
    const data: ConversationData
    var state: AssistantState
    var calls: seq<ModuleCall>
    /** Invocations of `ReturnToIdle` scheduled with `Invoke` and not yet run or
        cancelled. */
    var pendingReturns: nat

    ghost predicate Valid()
      reads this, nlu, nlu.keywordTrie, registry
    {
      nlu.Valid() && registry.Valid()
    }

    function Setup(): NluSetup
      reads this, nlu
    {
      NluSetup(nlu.keywordTrie != null && nlu.hasSegmenter, nlu.functionDefinitions, nlu.highConfidenceCommandLimit)
    }

    function View(): ManagerView
      reads this, data, nlu
    {
      ManagerView(state, data.Contents(), nlu.highConfidenceCommands, Setup(), calls, pendingReturns)
    }

    /** `Start` → `Startup`: a fresh conversation record, then `TransitionToState(Idle)`,
        which does nothing because the state field already holds its default, Idle. */
    constructor(useNluBeforeLlm: bool, nlu: NluController, registry: FunctionRegistry,
                cut: string -> seq<string>, parse: string -> Option<real>)
      requires nlu.Valid() && registry.Valid()
      ensures Valid()
      ensures this.useNluBeforeLlm == useNluBeforeLlm && this.nlu == nlu && this.registry == registry
      ensures this.cut == cut && this.parse == parse
      ensures View() == ManagerView(Idle, Cleared, nlu.highConfidenceCommands, Setup(), [], 0)
    {
      this.useNluBeforeLlm := useNluBeforeLlm;
      this.nlu := nlu;
      this.registry := registry;
      this.cut := cut;
      this.parse := parse;
      data := new ConversationData();
      state := Idle;
      calls := [];
      pendingReturns := 0;
    }

    /** `TransitionToState`. */
    method TransitionToState(newState: AssistantState)
      requires Valid()
      modifies this, data, nlu
      ensures Valid()
      ensures View() == Enter(old(View()), newState)
      ensures nlu.keywordTrie == old(nlu.keywordTrie)
    {
      if state == newState {
        return;
      }
      state := newState;
      match newState {
        case Idle =>
          EnterIdle();
        case Listening =>
          EnterListening();
        case Processing =>
          calls := calls + [AsrStop, LlmProcess(data.asrResult)];
        case Success =>
          pendingReturns := pendingReturns + 1;
        case Invalid =>
          pendingReturns := pendingReturns + 1;
        case Shutdown =>
      }
    }

    /** The work of entering Idle: the conversation record and the stored commands are
        cleared, recognition stops and the language model call is cancelled. */
    method EnterIdle()
      requires Valid()
      modifies this, data, nlu
      ensures Valid()
      ensures View() == old(View()).(conversation := Cleared, stored := [], calls := old(calls) + [AsrStop, LlmCancel])
      ensures nlu.keywordTrie == old(nlu.keywordTrie)
    {
      data.Clear();
      nlu.ClearStoredCommands();
      calls := calls + [AsrStop, LlmCancel];
    }

    /** The work of entering Listening: pending returns are cancelled, the main
        conversation fields and the stored commands are cleared and recognition starts. */
    method EnterListening()
      requires Valid()
      modifies this, data, nlu
      ensures Valid()
      ensures View() == old(View()).(pendingReturns := 0, conversation := MainInfoCleared(old(View()).conversation),
                                     stored := [], calls := old(calls) + [AsrStart])
      ensures nlu.keywordTrie == old(nlu.keywordTrie)
    {
      pendingReturns := 0;
      data.ClearMainInfo();
      nlu.ClearStoredCommands();
      calls := calls + [AsrStart];
    }

    /** A scheduled `ReturnToIdle` runs. */
    method ReturnToIdle()
      requires Valid() && pendingReturns > 0
      modifies this, data, nlu
      ensures Valid()
      ensures View() == OnReturnTimer(old(View()))
      ensures nlu.keywordTrie == old(nlu.keywordTrie)
    {
      pendingReturns := pendingReturns - 1;
      TransitionToState(Idle);
    }

    /** `HandleKeywordSpotted`. */
    method HandleKeywordSpotted(keyword: string)
      requires Valid()
      modifies this, data, nlu
      ensures Valid()
      ensures View() == OnKeyword(old(View()), keyword)
      ensures nlu.keywordTrie == old(nlu.keywordTrie)
    {
      if state != Idle && state != AssistantState.Success && state != Invalid {
        return;
      }
      data.wakeWord := Some(keyword);
      data.wakeWordConfidence := 0.9;
      TransitionToState(Listening);
    }

    /** `ProcessEndOfSpeech`. */
    method ProcessEndOfSpeech()
      requires Valid()
      modifies this, data, nlu
      ensures Valid()
      ensures View() == EndOfSpeech(old(View()), registry.functions, useNluBeforeLlm)
      ensures nlu.keywordTrie == old(nlu.keywordTrie)
    {
      if nlu.HasStoredCommands() {
        var report := nlu.ExecuteStoredCommands(registry);
        data.llmResult := Some(report);
        TransitionToState(AssistantState.Success);
      } else if !IsNullOrWhiteSpace(data.asrResult) || !useNluBeforeLlm {
        TransitionToState(Processing);
      } else {
        data.errorInfo := Some(SilentInteractionMessage);
        TransitionToState(Invalid);
      }
    }

    /** `HandleAsrRecognitionStreaming`. */
    method HandleAsrRecognitionStreaming(sentence: AsrCommon.Sentence)
      requires Valid() && sentence.text.Some?
      modifies this, data, nlu
      ensures Valid()
      ensures View() == OnStreaming(old(View()), sentence, registry.functions, useNluBeforeLlm, cut, parse)
      ensures nlu.keywordTrie == old(nlu.keywordTrie)
    {
      if state != Listening {
        return;
      }
      var text := sentence.text.value;
      if ReportsFailure(text) {
        data.errorInfo := Some(text);
        TransitionToState(Invalid);
        return;
      }
      data.asrResult := Some(text);
      data.asrSentence := Some(sentence);
      if useNluBeforeLlm {
        nlu.ProcessAsrResult(sentence.text, cut, parse);
      }
      if sentence.sentenceEnd {
        ProcessEndOfSpeech();
      }
    }

    /** `HandleLlmProcessingComplete`. */
    method HandleLlmProcessingComplete(result: ToolCalls.LlmResult)
      requires Valid()
      modifies this, data, nlu
      ensures Valid()
      ensures View() == OnLlmResult(old(View()), result)
      ensures nlu.keywordTrie == old(nlu.keywordTrie)
    {
      if state != Processing {
        return;
      }
      if result.isError {
        data.errorInfo := Some(LlmFailureText(result.errorMessage.GetOr("")));
        TransitionToState(Invalid);
        return;
      }
      if !result.hasToolCall {
        data.errorInfo := Some(result.response);
        TransitionToState(Invalid);
        return;
      }
      data.llmResult := Some(result.response);
      TransitionToState(AssistantState.Success);
    }

    /** `HandleAsrError`. */
    method HandleAsrError(message: string)
      requires Valid()
      modifies this, data, nlu
      ensures Valid()
      ensures View() == OnAsrError(old(View()), message)
      ensures nlu.keywordTrie == old(nlu.keywordTrie)
    {
      data.errorInfo := Some("语音识别失败: " + message);
      TransitionToState(Invalid);
    }

    /** `HandleLlmError`. */
    method HandleLlmError(message: string)
      requires Valid()
      modifies this, data, nlu
      ensures Valid()
      ensures View() == OnLlmError(old(View()), message)
      ensures nlu.keywordTrie == old(nlu.keywordTrie)
    {
      data.errorInfo := Some(LlmFailureText(message));
      TransitionToState(Invalid);
    }

    /** `HandleAsrSilenceTimeout`: back to Idle. */
    method HandleAsrSilenceTimeout()
      requires Valid()
      modifies this, data, nlu
      ensures Valid()
      ensures View() == Enter(old(View()), Idle)
      ensures nlu.keywordTrie == old(nlu.keywordTrie)
    {
      TransitionToState(Idle);
    }

    /** `HandleAsrMaxRecordingTimeReached`: on to Processing. */
    method HandleAsrMaxRecordingTimeReached()
      requires Valid()
      modifies this, data, nlu
      ensures Valid()
      ensures View() == Enter(old(View()), Processing)
      ensures nlu.keywordTrie == old(nlu.keywordTrie)
    {
      TransitionToState(Processing);
    }

    /** `Shutdown`: the Shutdown state (no entry actions), then recognition is stopped
        and the language model cancelled. */
    method Shutdown()
      requires Valid()
      modifies this, data, nlu
      ensures Valid()
      ensures var v := Enter(old(View()), AssistantState.Shutdown);
        View() == v.(calls := v.calls + [AsrStop, LlmCancel])
      ensures nlu.keywordTrie == old(nlu.keywordTrie)
    {
      TransitionToState(AssistantState.Shutdown);
      calls := calls + [AsrStop, LlmCancel];
    }
  }
}

=== FILE: voice_assist_manager.dfy ===
module AliyunManager {
  // `AliyunVoiceAssistManager`, the older voice-assistant state machine: a wake word
  // starts listening, the end of the recognition stream starts a processing task that
  // hands the transcript to the language model, and a watchdog and an error-recovery
  // timer bring the assistant back to Idle.
  //
  // Time is a tick count supplied by the caller (`Time.time`), the microphone level is a
  // "loud" flag, and each asynchronous task runs to completion in one method, its
  // outcome (recogniser error, transcript, language-model outcome) given as input.  The
  // recogniser and the language model are represented by the calls made on them, and the
  // main-thread dispatcher by the queue of UI updates (one per state entered).

  import opened Wrappers
  import opened Text

  datatype VoiceAssistantState = Idle | ListeningForCommand | ProcessingCommand | FunctionCalled | Invalid | Shutdown

  /** `GetStatusTextForState`: the status line shown for each state. */
  function StatusText(s: VoiceAssistantState): (r: string)
    ensures r == "" <==> s == Idle
  {
    match s
    case Idle => ""
    case ListeningForCommand => "倾听中..."
    case ProcessingCommand => "思考中..."
    case FunctionCalled => "指令已执行"
    case Invalid => "发生错误，正在重试..."
    case Shutdown => "Shutdown"
  }

  /** A call on the speech recogniser. */
  datatype AsrCall = StartStreaming | StopStreaming

  /** How the language-model call of `ProcessLlmCommand` ends. */
  datatype LlmOutcome =
    | TimedOut                    // the timeout delay finished first (or its token was cancelled)
    | Faulted                     // `ProcessCommand` threw
    | Replied(hasToolCall: bool, displayCancelled: bool)
      // the model answered; `displayCancelled`: the FunctionCalled display delay was cancelled

  const NotHeardMessage := "抱歉，没听清。请重试。"
  const TimeoutMessage := "处理超时，请重试"
  const FailureMessage := "处理失败，请重试"

  /** The manager's observable state.  `pendingRecovery`: the error-recovery task is the
      current task and has neither run nor been cancelled; `uiUpdates`: the states whose
      UI update was queued, in order; `shown`: the error messages displayed. */
  datatype ManagerView = ManagerView(
    state: VoiceAssistantState,
    stateChangeTime: int,
    timeOfLastSound: int,
    monitoring: bool,
    initialized: bool,
    pendingRecovery: bool,
    asrCalls: seq<AsrCall>,
    llmCommands: seq<string>,
    uiUpdates: seq<VoiceAssistantState>,
    shown: seq<string>)

  /** The tunables: the listening delay and silence threshold of the wake-word detector
      and `maxStateTimeSeconds`, all in ticks. */
  datatype Timing = Timing(listeningDelay: int, silenceThreshold: int, maxStateTime: int)

  // ---------------------------------------------------------------------------------
  // The state machine as functions of the view

  /** `TransitionToState`: nothing when already in `s`; otherwise the new state and its
      time, a queued UI update, the exit actions of the old state (leaving
      ListeningForCommand ends silence monitoring) and the entry actions of the new one
      (ListeningForCommand starts monitoring, Invalid schedules the recovery task, which
      cancels the current task). */
  function Transition(v: ManagerView, s: VoiceAssistantState, now: int, timing: Timing): ManagerView {
    if v.state == s then v
    else
      var w := v.(state := s, stateChangeTime := now, uiUpdates := v.uiUpdates + [s],
                  monitoring := if v.state == ListeningForCommand then false else v.monitoring);
      match s
      case ListeningForCommand => w.(timeOfLastSound := now + timing.listeningDelay, monitoring := true)
      case Invalid => w.(pendingRecovery := true)
      case _ => w
  }

  /** `ShowErrorMessage`: Invalid, then the message is displayed. */
  function ShowError(v: ManagerView, message: string, now: int, timing: Timing): ManagerView {
    var w := Transition(v, Invalid, now, timing);
    w.(shown := w.shown + [message])
  }

  /** `ProcessLlmCommand`: the command goes to the language model; a timeout or a fault
      is reported, a tool call shows FunctionCalled for the display time, and a
      cancelled display delay is reported as a failure. */
  function LlmCommand(v: ManagerView, command: string, outcome: LlmOutcome, now: int, timing: Timing): ManagerView {
    var asked := v.(llmCommands := v.llmCommands + [command]);
    match outcome
    case TimedOut => ShowError(asked, TimeoutMessage, now, timing)
    case Faulted => ShowError(asked, FailureMessage, now, timing)
    case Replied(hasToolCall, displayCancelled) =>
      if !hasToolCall then asked
      else
        var shown := Transition(asked, FunctionCalled, now, timing);
        if displayCancelled then ShowError(shown, FailureMessage, now, timing) else shown
  }

  /** `ProcessAsrResultTask`, started at `start` and finishing at `end`: ProcessingCommand;
      a recogniser error or a blank transcript is reported, otherwise the transcript
      goes to the language model; whatever happened, processing ends by entering Idle. */
  function ResultTask(v: ManagerView, start: int, end: int, lastError: Option<string>, transcript: Option<string>,
                      outcome: LlmOutcome, timing: Timing): ManagerView
  {
    var p := Transition(v, ProcessingCommand, start, timing);
    Transition(Handled(p, start, lastError, transcript, outcome, timing), Idle, end, timing)
  }

  /** The body of `ProcessAsrResultTask` between entering ProcessingCommand and
      entering Idle: the error, else the blank transcript, is shown; otherwise the
      transcript goes to the language model. */
  function Handled(p: ManagerView, start: int, lastError: Option<string>, transcript: Option<string>,
                   outcome: LlmOutcome, timing: Timing): ManagerView
  {
    if !IsNullOrEmpty(lastError) then ShowError(p, lastError.value, start, timing)
    else if IsNullOrWhiteSpace(transcript) then ShowError(p, NotHeardMessage, start, timing)
    else LlmCommand(p, transcript.value, outcome, start, timing)
  }

  /** `OnWakeWordDetected`: honoured only in Idle; ListeningForCommand, then a new task
      (cancelling the current one) that starts the recogniser. */
  function WakeWord(v: ManagerView, now: int, timing: Timing): ManagerView {
    if v.state != Idle then v
    else
      var w := Transition(v, ListeningForCommand, now, timing);
      w.(pendingRecovery := false, asrCalls := w.asrCalls + [StartStreaming])
  }

  /** `OnAsrStreamingFinished`: outside ListeningForCommand, back to Idle; otherwise a
      new task (cancelling the current one) processes the result. */
  function StreamingFinished(v: ManagerView, now: int, end: int, lastError: Option<string>, transcript: Option<string>,
                             outcome: LlmOutcome, timing: Timing): ManagerView
  {
    if v.state != ListeningForCommand then Transition(v, Idle, now, timing)
    else ResultTask(v.(pendingRecovery := false), now, end, lastError, transcript, outcome, timing)
  }

  /** `HandleVadSilenceDetection`: only while monitoring in ListeningForCommand; sound
      moves the last-sound time, silence beyond the threshold stops the recogniser
      and ends monitoring. */
  function SilenceCheck(v: ManagerView, now: int, loud: bool, timing: Timing): ManagerView {
    if !v.monitoring || v.state != ListeningForCommand then v
    else if loud then v.(timeOfLastSound := now)
    else if now - v.timeOfLastSound > timing.silenceThreshold then
      v.(monitoring := false, asrCalls := v.asrCalls + [StopStreaming])
    else v
  }

  /** `ForceReset`: the current task is cancelled, then Idle. */
  function Reset(v: ManagerView, now: int, timing: Timing): ManagerView {
    Transition(v.(pendingRecovery := false), Idle, now, timing)
  }

  /** `HandleWatchdogCheck`: once initialised, a state other than Idle that has lasted
      longer than the limit is reset. */
  function Watchdog(v: ManagerView, now: int, timing: Timing): ManagerView {
    if !v.initialized then v
    else if v.state != Idle && now - v.stateChangeTime > timing.maxStateTime then Reset(v, now, timing)
    else v
  }

  // ---------------------------------------------------------------------------------
  // Properties of the state machine

  /** Transitioning to the current state does nothing; any other transition lands in the
      requested state at `now` and queues exactly one UI update. */
  lemma TransitionLands(v: ManagerView, s: VoiceAssistantState, now: int, timing: Timing)
    ensures v.state == s ==> Transition(v, s, now, timing) == v
    ensures var w := Transition(v, s, now, timing);
      w.state == s
      && (v.state != s ==> w.stateChangeTime == now && w.uiUpdates == v.uiUpdates + [s])
      && w.asrCalls == v.asrCalls && w.llmCommands == v.llmCommands && w.shown == v.shown
  {
  }

  /** Leaving ListeningForCommand ends silence monitoring; entering it starts monitoring
      with the last-sound time pushed back by the listening delay; entering Invalid
      schedules a return to Idle. */
  lemma TransitionMonitoringAndRecovery(v: ManagerView, s: VoiceAssistantState, now: int, timing: Timing)
    requires v.state != s
    ensures var w := Transition(v, s, now, timing);
      (s == ListeningForCommand ==> w.monitoring && w.timeOfLastSound == now + timing.listeningDelay)
      && (v.state == ListeningForCommand ==> !w.monitoring)
      && (s == Invalid ==> w.pendingRecovery)
      && (s != Invalid ==> w.pendingRecovery == v.pendingRecovery)
  {
  }

  /** A wake word is honoured exactly in Idle: it starts listening, with monitoring on
      and the recogniser started; in any other state nothing happens. */
  lemma WakeWordOnlyInIdle(v: ManagerView, now: int, timing: Timing)
    ensures var w := WakeWord(v, now, timing);
      (v.state != Idle ==> w == v)
      && (v.state == Idle ==>
            w.state == ListeningForCommand && w.monitoring && !w.pendingRecovery
            && w.asrCalls == v.asrCalls + [StartStreaming]
            && w.uiUpdates == v.uiUpdates + [ListeningForCommand])
  {
  }

  /** The end of the recognition stream outside ListeningForCommand only returns to
      Idle: no task is started and nothing is sent to the language model. */
  lemma StreamingFinishedOutsideListening(v: ManagerView, now: int, end: int, lastError: Option<string>,
                                          transcript: Option<string>, outcome: LlmOutcome, timing: Timing)
    requires v.state != ListeningForCommand
    ensures var w := StreamingFinished(v, now, end, lastError, transcript, outcome, timing);
      w.state == Idle && w.llmCommands == v.llmCommands && w.asrCalls == v.asrCalls
      && w.pendingRecovery == v.pendingRecovery
  {
  }

  /** Result processing always ends in Idle, with monitoring off and the UI queue
      opening with ProcessingCommand and closing with Idle; the recogniser is not
      called. */
  lemma ResultTaskEndsIdle(v: ManagerView, start: int, end: int, lastError: Option<string>,
                           transcript: Option<string>, outcome: LlmOutcome, timing: Timing)
    requires v.state == ListeningForCommand
    ensures var w := ResultTask(v, start, end, lastError, transcript, outcome, timing);
      w.state == Idle && w.stateChangeTime == end && !w.monitoring && w.asrCalls == v.asrCalls
      && |w.uiUpdates| >= |v.uiUpdates| + 2
      && w.uiUpdates[..|v.uiUpdates| + 1] == v.uiUpdates + [ProcessingCommand]
      && w.uiUpdates[|w.uiUpdates| - 1] == Idle
  {
    var p := Transition(v, ProcessingCommand, start, timing);
    assert p.uiUpdates == v.uiUpdates + [ProcessingCommand];
    HandledStaysBusy(p, start, lastError, transcript, outcome, timing);
    var q := Handled(p, start, lastError, transcript, outcome, timing);
    assert ResultTask(v, start, end, lastError, transcript, outcome, timing).uiUpdates == q.uiUpdates + [Idle];
  }

  /** Between ProcessingCommand and Idle the manager is in ProcessingCommand,
      FunctionCalled or Invalid, without monitoring and without calling the recogniser;
      UI updates are only appended. */
  lemma HandledStaysBusy(p: ManagerView, start: int, lastError: Option<string>, transcript: Option<string>,
                         outcome: LlmOutcome, timing: Timing)
    requires p.state == ProcessingCommand && !p.monitoring
    ensures var q := Handled(p, start, lastError, transcript, outcome, timing);
      (q.state == ProcessingCommand || q.state == FunctionCalled || q.state == Invalid)
      && !q.monitoring && q.asrCalls == p.asrCalls
      && |q.uiUpdates| >= |p.uiUpdates| && q.uiUpdates[..|p.uiUpdates|] == p.uiUpdates
  {
    var q := Handled(p, start, lastError, transcript, outcome, timing);
    if IsNullOrEmpty(lastError) && !IsNullOrWhiteSpace(transcript) && outcome == Replied(true, true) {
      var asked := p.(llmCommands := p.llmCommands + [transcript.value]);
      var shown := Transition(asked, FunctionCalled, start, timing);
      assert q == ShowError(shown, FailureMessage, start, timing);
      assert q.uiUpdates == p.uiUpdates + [FunctionCalled] + [Invalid];
    }
  }

  /** A recogniser error, else a blank transcript, is reported (the error text, or
      "抱歉，没听清。请重试。") through Invalid, and nothing is sent to the language model. */
  lemma ResultTaskRejects(v: ManagerView, start: int, end: int, lastError: Option<string>,
                          transcript: Option<string>, outcome: LlmOutcome, timing: Timing)
    requires v.state == ListeningForCommand
    requires !IsNullOrEmpty(lastError) || IsNullOrWhiteSpace(transcript)
    ensures var w := ResultTask(v, start, end, lastError, transcript, outcome, timing);
      w.llmCommands == v.llmCommands
      && w.uiUpdates == v.uiUpdates + [ProcessingCommand, Invalid, Idle]
      && w.shown == v.shown + [if !IsNullOrEmpty(lastError) then lastError.value else NotHeardMessage]
      && w.pendingRecovery
  {
  }

  /** A usable transcript goes to the language model exactly once.  A timeout or a fault
      is reported through Invalid; a tool call shows FunctionCalled (and, if its display
      is cancelled, a failure through Invalid); an answer without a tool call returns
      to Idle directly. */
  lemma ResultTaskAsksModel(v: ManagerView, start: int, end: int, lastError: Option<string>,
                            transcript: Option<string>, outcome: LlmOutcome, timing: Timing)
    requires v.state == ListeningForCommand
    requires IsNullOrEmpty(lastError) && !IsNullOrWhiteSpace(transcript)
    ensures var w := ResultTask(v, start, end, lastError, transcript, outcome, timing);
      w.llmCommands == v.llmCommands + [transcript.value]
      && (outcome.TimedOut? ==> w.uiUpdates == v.uiUpdates + [ProcessingCommand, Invalid, Idle]
                                && w.shown == v.shown + [TimeoutMessage])
      && (outcome.Faulted? ==> w.uiUpdates == v.uiUpdates + [ProcessingCommand, Invalid, Idle]
                               && w.shown == v.shown + [FailureMessage])
      && (outcome == Replied(true, false) ==>
            w.uiUpdates == v.uiUpdates + [ProcessingCommand, FunctionCalled, Idle] && w.shown == v.shown)
      && (outcome == Replied(true, true) ==>
            w.uiUpdates == v.uiUpdates + [ProcessingCommand, FunctionCalled, Invalid, Idle]
            && w.shown == v.shown + [FailureMessage])
      && (outcome.Replied? && !outcome.hasToolCall ==>
            w.uiUpdates == v.uiUpdates + [ProcessingCommand, Idle] && w.shown == v.shown)
  {
  }

  /** Silence monitoring acts only while monitoring in ListeningForCommand: sound moves
      the last-sound time; silence beyond the threshold stops the recogniser once and
      ends monitoring, so a second check does nothing more. */
  lemma SilenceStopsOnce(v: ManagerView, now: int, later: int, timing: Timing)
    requires v.monitoring && v.state == ListeningForCommand
    requires now - v.timeOfLastSound > timing.silenceThreshold
    ensures var w := SilenceCheck(v, now, false, timing);
      !w.monitoring && w.state == v.state && w.asrCalls == v.asrCalls + [StopStreaming]
      && SilenceCheck(w, later, false, timing) == w && SilenceCheck(w, later, true, timing) == w
  {
  }

  lemma SilenceCheckGuard(v: ManagerView, now: int, loud: bool, timing: Timing)
    ensures var w := SilenceCheck(v, now, loud, timing);
      (!v.monitoring || v.state != ListeningForCommand ==> w == v)
      && (v.monitoring && v.state == ListeningForCommand && loud ==> w == v.(timeOfLastSound := now))
      && ((v.monitoring && v.state == ListeningForCommand && !loud
           && now - v.timeOfLastSound <= timing.silenceThreshold) ==> w == v)
  {
  }

  /** The watchdog resets exactly an initialised manager that has been out of Idle for
      longer than the limit; the reset cancels any pending recovery. */
  lemma WatchdogForcesIdle(v: ManagerView, now: int, timing: Timing)
    ensures var w := Watchdog(v, now, timing);
      (v.initialized && v.state != Idle && now - v.stateChangeTime > timing.maxStateTime ==>
         w.state == Idle && w.stateChangeTime == now && !w.pendingRecovery)
      && (!(v.initialized && v.state != Idle && now - v.stateChangeTime > timing.maxStateTime) ==> w == v)
  {
  }

  /** The invariant the handlers keep: silence is monitored only while listening, and
      the recovery task is pending only in Invalid or Idle, so its return to Idle can
      never cut short a later interaction. */
  ghost predicate Consistent(v: ManagerView) {
    (v.monitoring ==> v.state == ListeningForCommand)
    && (v.pendingRecovery ==> v.state == Invalid || v.state == Idle)
  }

  lemma TransitionKeepsConsistent(v: ManagerView, s: VoiceAssistantState, now: int, timing: Timing)
    requires Consistent(v) && s != ListeningForCommand
    requires v.pendingRecovery ==> s == Invalid || s == Idle || v.state == s
    ensures Consistent(Transition(v, s, now, timing))
  {
  }

  lemma HandlersKeepConsistent(v: ManagerView, now: int, end: int, loud: bool,
                                lastError: Option<string>, transcript: Option<string>,
                                outcome: LlmOutcome, timing: Timing)
    requires Consistent(v)
    ensures Consistent(WakeWord(v, now, timing))
    ensures Consistent(StreamingFinished(v, now, end, lastError, transcript, outcome, timing))
    ensures Consistent(SilenceCheck(v, now, loud, timing))
    ensures Consistent(Watchdog(v, now, timing))
    ensures Consistent(Reset(v, now, timing))
  {
    StreamingFinishedKeepsConsistent(v, now, end, lastError, transcript, outcome, timing);
  }

  lemma StreamingFinishedKeepsConsistent(v: ManagerView, now: int, end: int,
                                         lastError: Option<string>, transcript: Option<string>,
                                         outcome: LlmOutcome, timing: Timing)
    requires Consistent(v)
    ensures Consistent(StreamingFinished(v, now, end, lastError, transcript, outcome, timing))
  {
    if v.state == ListeningForCommand {
      ResultTaskEndsIdle(v.(pendingRecovery := false), now, end, lastError, transcript, outcome, timing);
    }
  }

  // ---------------------------------------------------------------------------------
  // The manager

  class AliyunVoiceAssistManager {
    const timing: Timing
    var state: VoiceAssistantState
    var stateChangeTime: int
    var timeOfLastSound: int
    var isMonitoringForSilence: bool
    var isInitialized: bool
    var pendingRecovery: bool
    var asrCalls: seq<AsrCall>
    var llmCommands: seq<string>
    var uiUpdates: seq<VoiceAssistantState>
    var shown: seq<string>

    function View(): ManagerView
      reads this
    {
      ManagerView(state, stateChangeTime, timeOfLastSound, isMonitoringForSilence, isInitialized, pendingRecovery,
                  asrCalls, llmCommands, uiUpdates, shown)
    }

    /** A manager before `InitializeAsync`: Idle, nothing started. */
    constructor(timing: Timing)
      ensures this.timing == timing
      ensures View() == ManagerView(Idle, 0, 0, false, false, false, [], [], [], [])
      ensures Consistent(View())
    {
      this.timing := timing;
      state := Idle;
      stateChangeTime := 0;
      timeOfLastSound := 0;
      isMonitoringForSilence := false;
      isInitialized := false;
      pendingRecovery := false;
      asrCalls := [];
      llmCommands := [];
      uiUpdates := [];
      shown := [];
    }

    /** `InitializeAsync`.  With every component present the manager is initialised and
        the transition to Idle does nothing.  With one missing, Invalid is entered before
        the main cancellation source exists, so scheduling the recovery throws; the
        exception is caught and the second transition to Invalid does nothing: the
        manager stays Invalid, uninitialised, with no recovery pending. */
    method InitializeAsync(componentsPresent: bool, now: int)
      modifies this
      ensures componentsPresent ==> View() == Transition(old(View()).(initialized := true), Idle, now, timing)
      ensures !componentsPresent ==>
        View() == Transition(old(View()), Invalid, now, timing).(pendingRecovery := old(pendingRecovery))
    {
      if !componentsPresent {
        var recovery := pendingRecovery;
        TransitionToState(Invalid, now);
        pendingRecovery := recovery;
        return;
      }
      isInitialized := true;
      TransitionToState(Idle, now);
    }

    /** `TransitionToState`. */
    method TransitionToState(newState: VoiceAssistantState, now: int)
      modifies this
      ensures View() == Transition(old(View()), newState, now, timing)
    {
      if state == newState {
        return;
      }
      var oldState := state;
      state := newState;
      stateChangeTime := now;
      uiUpdates := uiUpdates + [newState];
      if oldState == ListeningForCommand {
        isMonitoringForSilence := false;
      }
      match newState {
        case ListeningForCommand =>
          timeOfLastSound := now + timing.listeningDelay;
          isMonitoringForSilence := true;
        case Invalid =>
          pendingRecovery := true;
        case _ =>
      }
    }

    /** `ShowErrorMessage`. */
    method ShowErrorMessage(message: string, now: int)
      modifies this
      ensures View() == ShowError(old(View()), message, now, timing)
    {
      TransitionToState(Invalid, now);
      shown := shown + [message];
    }

    /** `ProcessLlmCommand`. */
    method ProcessLlmCommand(command: string, outcome: LlmOutcome, now: int)
      modifies this
      ensures View() == LlmCommand(old(View()), command, outcome, now, timing)
    {
      llmCommands := llmCommands + [command];
      match outcome {
        case TimedOut =>
          ShowErrorMessage(TimeoutMessage, now);
        case Faulted =>
          ShowErrorMessage(FailureMessage, now);
        case Replied(hasToolCall, displayCancelled) =>
          if hasToolCall {
            TransitionToState(FunctionCalled, now);
            if displayCancelled {
              ShowErrorMessage(FailureMessage, now);
            }
          }
      }
    }

    /** `ProcessAsrResultTask`. */
    method ProcessAsrResultTask(start: int, end: int, lastError: Option<string>, transcript: Option<string>,
                                outcome: LlmOutcome)
      modifies this
      ensures View() == ResultTask(old(View()), start, end, lastError, transcript, outcome, timing)
    {
      TransitionToState(ProcessingCommand, start);
      if !IsNullOrEmpty(lastError) {
        ShowErrorMessage(lastError.value, start);
      } else if IsNullOrWhiteSpace(transcript) {
        ShowErrorMessage(NotHeardMessage, start);
      } else {
        ProcessLlmCommand(transcript.value, outcome, start);
      }
      TransitionToState(Idle, end);
    }

    /** `OnWakeWordDetected`. */
    method OnWakeWordDetected(now: int)
      modifies this
      ensures View() == WakeWord(old(View()), now, timing)
    {
      if state != Idle {
        return;
      }
      TransitionToState(ListeningForCommand, now);
      pendingRecovery := false;
      asrCalls := asrCalls + [StartStreaming];
    }

    /** `OnAsrStreamingFinished`; the processing task runs from `now` to `end`. */
    method OnAsrStreamingFinished(now: int, end: int, lastError: Option<string>, transcript: Option<string>,
                                  outcome: LlmOutcome)
      modifies this
      ensures View() == StreamingFinished(old(View()), now, end, lastError, transcript, outcome, timing)
    {
      if state != ListeningForCommand {
        TransitionToState(Idle, now);
        return;
      }
      pendingRecovery := false;
      ProcessAsrResultTask(now, end, lastError, transcript, outcome);
    }

    /** The recovery task's delay elapses. */
    method RecoveryElapsed(now: int)
      requires pendingRecovery
      modifies this
      ensures View() == Transition(old(View()).(pendingRecovery := false), Idle, now, timing)
    {
      pendingRecovery := false;
      TransitionToState(Idle, now);
    }

    /** `HandleVadSilenceDetection`. */
    method HandleVadSilenceDetection(now: int, loud: bool)
      modifies this
      ensures View() == SilenceCheck(old(View()), now, loud, timing)
    {
      if !isMonitoringForSilence || state != ListeningForCommand {
        return;
      }
      if loud {
        timeOfLastSound := now;
      } else if now - timeOfLastSound > timing.silenceThreshold {
        isMonitoringForSilence := false;
        asrCalls := asrCalls + [StopStreaming];
      }
    }

    /** `ForceReset`. */
    method ForceReset(now: int)
      modifies this
      ensures View() == Reset(old(View()), now, timing)
    {
      pendingRecovery := false;
      TransitionToState(Idle, now);
    }

    /** `HandleWatchdogCheck` (the watchdog is always enabled). */
    method HandleWatchdogCheck(now: int)
      modifies this
      ensures View() == Watchdog(old(View()), now, timing)
    {
      if !isInitialized {
        return;
      }
      if state != Idle && now - stateChangeTime > timing.maxStateTime {
        ForceReset(now);
      }
    }

    /** `Update`: the silence check, then the watchdog. */
    method Update(now: int, loud: bool)
      modifies this
      ensures View() == Watchdog(SilenceCheck(old(View()), now, loud, timing), now, timing)
    {
      HandleVadSilenceDetection(now, loud);
      HandleWatchdogCheck(now);
    }

    /** `OnDestroy`: Shutdown, then `Cleanup` cancels every task. */
    method OnDestroy(now: int)
      modifies this
      ensures View() == Transition(old(View()), Shutdown, now, timing).(pendingRecovery := false)
    {
      TransitionToState(Shutdown, now);
      pendingRecovery := false;
    }

    /** `GetCurrentState`. */
    method GetCurrentState() returns (s: VoiceAssistantState)
      ensures s == state
    {
      s := state;
    }
  }
}

=== FILE: wrappers.dfy ===
module Wrappers {
  // Failure-compatible wrappers used throughout the model in place of null
  // references and thrown exceptions.


  /** A value that may be absent: the model of a C# or Python reference that may be null. */
  datatype Option<+T> = None | Some(value: T) {
    function GetOr(default: T): T {
      match this
      case Some(v) => v
      case None => default
    }
  }

  /** The outcome of an operation that may throw: `Failure` carries the exception's message
      (or kind) instead of unwinding the stack. */
  datatype Result<+R, +E> = Success(value: R) | Failure(error: E) {
    predicate IsFailure() {
      Failure?
    }

    function PropagateFailure<U>(): Result<U, E>
      requires Failure?
    {
      Failure(error)
    }

    function Extract(): R
      requires Success?
    {
      value
    }
  }
}
